=== FILE: README.md ===
# tablebridge in Dafny

A verified model of the in-memory core of tablebridge. tablebridge keeps a
table in a Google spreadsheet and a pandas data frame in step. A table here
has three parts:

- an ordered list of column labels;
- a sequence of rows, each row a map from label to cell;
- one identity column.

A cell is one of: the missing marker (`Missing`, for NaN/None/NA), an
integer, a string, or a list-valued point.

The model covers:

- **Column forward-fill** (`fill_column_from_above`). Module `ColumnFill`, in `column_fill.dfy`.
- **Schema conversion** (`convert_dataframe`). String rules rename columns. Function rules compute a column row by row. Module `SchemaConvert`, in `schema_convert.dfy`.
- **Snapshot diff** (`AnnotationComparison`). It sorts identities into new, removed, changed and unchanged. It uses the one-to-one inner merge on the identity and the NaN-aware `row_differs`. On a merge with no rows, what `changed_annotations` gives depends on the pandas release. Older releases hand the row function an unlabelled empty row, and `row_differs` raises on it. Newer releases hand it an all-missing row labelled by the merged columns. The model takes this as a parameter (`AnnotationDiff.EmptyProbe`). Module `AnnotationDiff`, in `annotation_diff.dfy`.
- **Column-letter codec** (`number_to_column`, `column_to_number`), as written. Module `Utils`, in `utils.dfy`. `SheetColumns` (`sheet_columns.dfy`) is the bijective base-26 numbering the codec evidently intends; see "## Findings".
- **Value generators** (`nanf`, `constant`, `count_from`). A per-row call returns the value together with the generator's next state. Module `Generators`, in `generators.dfy`.
- **Spreadsheet-shaping helpers** (`Processing`, in `processing.dfy`):
  - A1 ranges (`set_range`, `parse_range`);
  - column and row mappings;
  - `process_records`;
  - the two request bodies.
- **Cell parsers** `process_point` and `no_validation`. Module `Validation`, in `validation.dfy`.

Supporting modules:

- `Tables` (`tables.dfy`): cells, rows, tables, and Python dict construction with last-write-wins.
- `Regex` (`regex.dfy`): `re.search` for the two patterns the code uses. Both are concatenations of greedily quantified character classes. `Regex.BacktrackIsGreatest` proves that the backtracking engine chooses the lexicographically greatest counts at the leftmost start where the pattern matches.
- `Decimal` (`decimal.dfy`): `str(int)` and `int(str)`.
- `Outcomes` (`outcomes.dfy`): `Result` and `Option`. Every Python exception the code raises becomes an `Error` value.

I/O and clocks do not appear in the model. The Sheets API calls are left out. Per-row functions are values (`Generators.RowFunction`).

## Model

| member | source | states |
|---|---|---|
| ColumnFill.FillCells | tablebridge/comparison.py:35-39 | The loop over the column keeps every present cell. It gives each missing cell the nearest present value above it, or the carried value when there is none (reference `Above`). |
| ColumnFill.FillCellsIdempotent | tablebridge/comparison.py:35-39 | Running the fill loop on its own output with the same carried value changes nothing. |
| ColumnFill.AboveAllMissing | tablebridge/comparison.py:28-33 | A missing cell with only missing cells above it gets the initial carried value. |
| ColumnFill.FilledTableIsFilled | tablebridge/comparison.py:28-40 | The filled table has the same shape and labels, and only the named column changes. Present cells stay. Each missing cell takes the nearest present value above it. Leading missing cells take `starting_value` when it is truthy and stay missing otherwise. |
| ColumnFill.FillColumnFromAbove | tablebridge/comparison.py:6-40 | An unknown column raises `KeyError` and an empty table raises `IndexError` (`iloc[0]`). A list of two or more values, which `pd.isna` cannot test, raises `ValueError`. In every other case the result is filled as stated above. |
| ColumnFill.FillIdempotent | tablebridge/comparison.py:6-40 | Filling a filled table again with the same column and starting value gives the same table. |
| ColumnFill.FilledNotAmbiguous | tablebridge/comparison.py:35-39 | The fill brings in no untestable list unless the column or the carried value already held one. |
| ColumnFill.LoopWrites | tablebridge/comparison.py:28-39 | The loop writes into the frame as it goes. Cells before the first list that `pd.isna` cannot test are filled as above. That cell and every cell after it keep their values. |
| ColumnFill.WrittenFrameIsResult | tablebridge/comparison.py:25-40 | When the call succeeds, the frame the loop wrote to is the frame it returns. |
| ColumnFill.CallerFrameFollowsFlag | tablebridge/comparison.py:6-26 | With `inplace` read as the docstring documents it, the default call leaves the caller's frame as it was. A successful in-place call leaves the caller's frame equal to the result. |
| ColumnFill.DefaultCallWritesCallerFrame | tablebridge/comparison.py:25-37 | As written, the default call on a column [1, missing] fills the caller's frame. With `inplace=True` the caller's frame stays unfilled, although the returned frame is filled. |
| ColumnFill.PartialFillOnError | tablebridge/comparison.py:25-37 | As written, the column [1, missing, [1, 2]] raises `ValueError`. By then the default call has already written 1 into the caller's missing cell. |
| SchemaConvert.ApplyRules | tablebridge/comparison.py:75-76 | Adding the function columns in schema order keeps the row count. The labels become the original labels plus the function rules' keys. No original column that is not a function key changes. |
| SchemaConvert.ApplyRulesValue | tablebridge/comparison.py:75-76 | A function rule's column holds what `df.apply` makes of its generator over the table as the earlier function rules left it (`Generators.ApplyRows`). That is one call per row when the table has columns. |
| SchemaConvert.RenameTarget | tablebridge/comparison.py:68-77 | A column keeps its name unless a string rule takes it. Otherwise it gets the key of the last string rule that takes it, because later dict entries overwrite earlier ones. |
| SchemaConvert.ConvertDataframe | tablebridge/comparison.py:63-78 | It fails when a schema key is not produced by any column, or when a column is renamed onto a label another column keeps (an original column not renamed away, or a function-rule key). On success the labels are exactly the schema keys in schema order, and the row count is unchanged. A string rule copies its source column from the original frame. |
| SchemaConvert.ConvertErrors | tablebridge/comparison.py:77-78 | The missing-key case is the `KeyError` of `df[cols_out]`. The collision case is a repeated label after the rename. |
| SchemaConvert.RenameOntoKeptLabel | tablebridge/comparison.py:68-78 | Columns `a`, `b` with the schema `{"b": "a"}` rename `a` onto the kept label `b`, which is a collision and a `ValueError` in the model, where pandas would return `b` twice. |
| SchemaConvert.TwoRenamedNeverCollide | tablebridge/comparison.py:68-70 | With distinct schema keys, two different columns that are both renamed always get different labels, so a collision always involves a column that keeps its label. |
| SchemaConvert.ProducedIsRenamed | tablebridge/comparison.py:77-78 | A key is produced exactly when it is among the renamed labels. |
| SchemaConvert.CollidesIsDuplicate | tablebridge/comparison.py:77 | Two columns share a new name exactly when the renamed label list repeats a label. |
| SchemaConvert.ConvertRenameValues | tablebridge/comparison.py:69-77 | A string rule whose source survives the rename under its key yields the source column's original values, whatever the function rules compute. |
| SchemaConvert.ConvertApplyValues | tablebridge/comparison.py:73-78 | In a successful conversion, a function rule's output column holds what `df.apply` made of its generator, and the key is never renamed away. That is the per-row values, or on a table with rows and no columns the second call's value in every row. |
| SchemaConvert.OnlySelfRenamesToApplyKey | tablebridge/comparison.py:68-77 | With distinct keys, only a function rule's own key is renamed to that key. |
| SchemaConvert.ConvertCounterNumbersRows | tablebridge/comparison.py:69-77 | A `count_from(start, step, prefix)` rule numbers output row `i` as `start + i * step`. The exception is a frame with no columns when the rule runs (no original column and no earlier function rule): then every row holds `start + step`. |
| SchemaConvert.NoColumnsBefore | tablebridge/comparison.py:75-76 | The frame a function rule is applied to has no columns exactly when the original frame has none and no earlier rule is a function rule. |
| SchemaConvert.ColumnlessFrameRepeatsSecondValue | tablebridge/comparison.py:75-78 | Three rows and no columns, converted with `{"n": count_from(1)}`, give 2 in every row and leave the counter at 3. |
| SchemaConvert.SchemaAfterAt | tablebridge/comparison.py:75-76 | After a conversion, each function rule's generator has advanced through the calls `df.apply` made over the frame as the earlier function columns left it. |
| SchemaConvert.SchemaAfterAdvances | tablebridge/comparison.py:75-76 | After a conversion, a `count_from` rule stands one step on per row. It stands one step on for a frame with no rows, and two steps on for a frame with rows but no columns when the rule runs. Any other generator is unchanged. A second conversion therefore numbers its rows from there. |
| SchemaConvert.ConvertIdentity | tablebridge/comparison.py:63-78 | Converting with the schema that renames every column to itself gives back the same table. |
| AnnotationDiff.Without | tablebridge/comparison.py:103-104 | `list.remove` takes out exactly the first occurrence of a present label. The labels before it and after it keep their order. An absent label leaves the list unchanged. Distinctness is kept. |
| AnnotationDiff.NewComparison | tablebridge/comparison.py:82-105 | Construction succeeds exactly when the identity is a label of the new table and some other label exists. Otherwise `ValueError` is raised. |
| AnnotationDiff.OtherColumnIffData | tablebridge/comparison.py:88-105 | With the identity present, `data_columns` is non-empty exactly when the new table has another label. |
| AnnotationDiff.NewAnnotations | tablebridge/comparison.py:148-150 | The new rows whose identity the old table lacks, in their original order, each as often as it occurs in the new table. Raises `KeyError` exactly when the old table has no identity column. |
| AnnotationDiff.RemovedAnnotations | tablebridge/comparison.py:152-154 | The old rows whose identity the new table lacks, in their original order, each as often as it occurs in the old table. |
| AnnotationDiff.OnlyIn | tablebridge/comparison.py:149-150 | The boolean mask `~np.isin(t[id], other[id])` keeps each row of `t` whose identity `other` lacks, as often as it occurs, in order, and no other row. |
| AnnotationDiff.RemovedIds | tablebridge/comparison.py:152-154 | The removed rows carry exactly the old identities that the new table lacks. |
| Tables.SelectById | tablebridge/comparison.py:149-150 | Masking rows by identity keeps the selected rows in order and each as often as it occurs. It drops every other row. |
| AnnotationDiff.InnerJoin | tablebridge/comparison.py:131-138 | The merge succeeds exactly when both sides have the identity, unique identities and non-colliding suffixed labels. A missing identity raises `KeyError`; a repeated identity raises `MergeError`. Its rows are exactly the merged rows of the new/old pairs with equal identity. |
| AnnotationDiff.JoinedRowsAreMatches | tablebridge/comparison.py:131-138 | Every joined row merges a new row with the old row of the same identity. |
| AnnotationDiff.MatchesAreJoined | tablebridge/comparison.py:131-138 | Every new/old pair with equal identity appears as a joined row. |
| AnnotationDiff.MergedLookups | tablebridge/comparison.py:131-138 | When a data label is on both sides, the merged row holds the new cell under `x_new` and the old cell under `x_old`. |
| AnnotationDiff.MergedRowDiffers | tablebridge/comparison.py:156-160 | On a merged row, `row_differs(row, data_columns_new, data_columns_old)` answers whether the two source rows differ in some data column. |
| AnnotationDiff.DiffIdsMeaning | tablebridge/comparison.py:157-161 | Applying `row_differs` to every merged row fails exactly when one row fails. Otherwise it collects exactly the identities of the rows that differ. |
| AnnotationDiff.ChangedAnnotations | tablebridge/comparison.py:156-162 | The merge's errors pass through. On a merge with rows, it fails exactly when `row_differs` fails on some merged row. On a merge with no rows, it raises `KeyError` on the identity exactly when `row_differs` answers on the probe row. A success holds new rows, in order, whose identity the old table has. |
| AnnotationDiff.ProbeMeaning | tablebridge/comparison.py:156-161 | `row_differs` always raises on the unlabelled probe, since a data label exists. It answers on the labelled probe when the data labels are shared and the merged labels are distinct. |
| AnnotationDiff.ChangedRows | tablebridge/comparison.py:156-162 | When the data labels are shared, the view succeeds exactly when the merge does and either the merge has rows or the probe is unlabelled. An empty merge under the labelled probe raises `KeyError` on the identity. A success holds exactly the new rows whose identity is in both tables and whose data differ from that old row's. |
| AnnotationDiff.UnchangedAnnotations | tablebridge/comparison.py:164-172 | It fails exactly when `changed_annotations` fails. Otherwise it holds the old rows, in order, whose identity is in the new table and not among the changed rows. |
| AnnotationDiff.UnchangedId | tablebridge/comparison.py:165-170 | An old identity avoids the changed and removed identities exactly when the new table has it and no changed row carries it. |
| AnnotationDiff.Partition | tablebridge/comparison.py:148-172 | An identity in both tables is changed or unchanged, never both, and neither new nor removed. An identity only in the new table is new only. An identity only in the old table is removed only. |
| AnnotationDiff.SelfComparison | tablebridge/comparison.py:148-172 | Comparing a table with itself gives no new and no removed rows. It gives no changed rows and every row unchanged, except for a table without rows under the labelled probe: there both merged views raise `KeyError`. |
| AnnotationDiff.EmptySelfComparison | tablebridge/comparison.py:156-162 | A table without rows compared with itself makes `changed_annotations` raise `KeyError` under the labelled probe. |
| AnnotationDiff.DuplicateIdsFailLazily | tablebridge/comparison.py:82-138 | A repeated old identity does not stop construction or the one-sided views. The changed and unchanged views fail with `MergeError`. |
| Utils.RowDiffers | tablebridge/utils.py:6-12 | With every paired label present, the result is true exactly when some pair, over the shorter zip, is not both missing and unequal. An absent label reached by the walk raises `KeyError`. |
| Utils.RowDiffersStops | tablebridge/utils.py:6-12 | The first pair the walk cannot pass decides the outcome. With no such pair the answer is false. An absent label there raises `KeyError` for that label, the new side's first. A differing pair there gives true. |
| Utils.MissingPairsNeverDiffer | tablebridge/utils.py:8-9 | Pairs that are equal or both missing never make a row differ. |
| Utils.ColumnLetters | tablebridge/utils.py:15-23 | The letters are non-empty and use only A..Y. |
| Utils.NumberToColumn | tablebridge/utils.py:15-23 | In exact integer arithmetic, the source's loop computes the reference letters of `n + offset`, so `number_to_column(n, offset)` equals `number_to_column(n + offset)`. |
| Utils.ColumnNumber | tablebridge/utils.py:26-35 | Fails (the `IndexError` of `[0]`) exactly on a string with a character outside A..Z. |
| Utils.ColumnToNumber | tablebridge/utils.py:26-35 | In exact integer arithmetic, the source's loop over the reversed string, summing `score * 25 ** ii`, computes the reference value. |
| Utils.LettersRoundTrip | tablebridge/utils.py:15-35 | In exact integer arithmetic, `column_to_number(number_to_column(n)) == n` for every `n >= 0`. |
| Utils.NumberRoundTrip | tablebridge/utils.py:15-35 | A non-empty string over A..Y is the letters of its own number. |
| Utils.ZAliasesAA | tablebridge/utils.py:20-35 | "Z" and "AA" both read as 25, and 25 is written "AA". |
| SheetColumns.SheetLettersRoundTrip | tablebridge/utils.py:15-35 | With base-26 letters, every column number reads back as itself. |
| SheetColumns.SheetNumberRoundTrip | tablebridge/utils.py:15-35 | With base-26 letters, every non-empty string over A..Z is the name of its own number, so no letter is skipped. |
| SheetColumns.ZThenAA | tablebridge/utils.py:15-35 | With base-26 letters, column 25 is "Z" and column 26 is "AA". |
| Generators.Counted | tablebridge/comparison_functions.py:39-42 | A truthy prefix gives the prefix followed by the decimal number. An empty prefix gives the bare number. |
| Generators.NanfRun | tablebridge/comparison_functions.py:5-7 | `nanf` yields the missing marker for every row. |
| Generators.ConstantRun | tablebridge/comparison_functions.py:10-16 | `constant(v)` yields `v` for every row, whatever the row holds. |
| Generators.CountFromRun | tablebridge/comparison_functions.py:19-44 | The k-th call yields `start + k * step`. Afterwards the counter stands at `start + n * step`. |
| Generators.CountFromApplied | tablebridge/comparison_functions.py:36-42 | Through `df.apply` on a frame with columns, a counter numbers the rows `start + k * step`. On a frame with rows and no columns, every row gets `start + step`, the second call's value. The counter ends one step on per call: once per row, once for a frame with no rows, and twice for a frame with rows and no columns. |
| Generators.StatelessApplied | tablebridge/comparison_functions.py:5-16 | `nanf` and `constant` keep no position, so `df.apply` leaves them as they were. |
| Generators.StatelessValues | tablebridge/comparison_functions.py:5-16 | Through `df.apply`, `nanf` gives the missing marker and `constant(v)` gives `v` in every row, whatever the frame's shape. |
| Generators.SeparateCounters | tablebridge/comparison_functions.py:36-44 | Two counters from two `count_from` calls keep separate positions. Stepping one does not move the other. |
| Generators.RunSplits | tablebridge/comparison_functions.py:36-42 | The counter's state carries from one call to the next and is never reset. |
| Processing.SetRange | tablebridge/processing.py:198-205 | Without a sheet the text is `c0 r0 ":" c1 r1`. With a sheet it is the sheet name, then '!', then that text. |
| Processing.ParseRange | tablebridge/processing.py:190-195 | Fails with `AttributeError` exactly when nothing matches `(.*)!([A-Z]*)(\d*):`. Otherwise it reads the leftmost greedy match: an empty row group raises `ValueError`; a non-empty one gives a row, uppercase letters and a one-line sheet name. |
| Processing.ParseSetRange | tablebridge/processing.py:190-205 | Parsing the range `set_range` writes, with a sheet, gives back the first row, first column and sheet. |
| Processing.ParseRangeWithoutRow | tablebridge/processing.py:190-194 | "S!A:B" matches, but its row group is empty, so `int("")` raises. |
| Processing.ColumnMapping | tablebridge/processing.py:46-54 | Fails exactly when the first column has a character outside A..Z. Each name maps to the letters of its position plus the first column's number. A repeated name keeps its last position. |
| Processing.ColumnMappingConsecutive | tablebridge/processing.py:46-54 | The `ii`-th of distinct names gets the letters of the first column's number plus `ii`. |
| Processing.FirstNameGetsFirstColumn | tablebridge/processing.py:46-54 | With a first column over A..Y, the first name maps to the first column itself. |
| Processing.TwentySixthNameSkipsZ | tablebridge/processing.py:46-54 | As written, from "A" the 26th name maps to "AA", skipping sheet column "Z". |
| Processing.SheetColumnMappingConsecutive | tablebridge/processing.py:46-54 | With base-26 letters, the `ii`-th name lands `ii` columns after the first column, and the first name on the first column itself. |
| Processing.TwentySixthNameIsZ | tablebridge/processing.py:46-54 | With base-26 letters, from "A" the 26th name maps to "Z". |
| Processing.RowMappingInverse | tablebridge/processing.py:73-74 | Shifting by the first row keeps the order of the indices. Shifting back restores them. |
| Processing.RowMappingOfDefaultIndex | tablebridge/processing.py:73-74 | Data row `i` of a frame read from `first_row` is sheet row `first_row + i`. |
| Processing.RecordOf | tablebridge/processing.py:210-216 | A record has exactly the given columns. Each holds the validated cell of its position, or missing past the end of the row. A repeated name keeps its last position. |
| Processing.ProcessRecords | tablebridge/processing.py:208-218 | One record per sheet row, with exactly the given columns in order. A short row is padded with missing cells and extra cells are dropped. A column without a validator keeps the raw string. |
| Processing.RepeatedColumnKeepsLast | tablebridge/processing.py:210-216 | A name given twice holds the cell of its later position. |
| Processing.BatchEntries | tablebridge/processing.py:139-152 | One entry per `(row, column, value)` triple, stopping at the shortest list. Each entry has the single-cell range of its triple and the value `[[v]]`. |
| Processing.AtLeast1d | tablebridge/processing.py:142 | `np.atleast_1d` keeps the length and the `str` of every value. A list mixing numbers and strings becomes all strings. Any other list is kept as it is. |
| Processing.AtLeast1dSettles | tablebridge/processing.py:142 | After the promotion, numbers and strings no longer mix. Promoting twice is the same as promoting once. |
| Processing.PackageBatchUpdate | tablebridge/processing.py:139-152 | The body is `USER_ENTERED`, with one entry per triple up to the shortest list. Each entry has its triple's single-cell range. Its value is the promoted value, whose `str` is the original value's. |
| Processing.BatchRangesParse | tablebridge/processing.py:139-152 | With a sheet, each entry's range parses back to the row, column and sheet it updates. |
| Processing.AppendValuesPlain | tablebridge/processing.py:164-171 | Without blank rows, appended row `i` is data row `i` stringified. |
| Processing.AppendValuesBlank | tablebridge/processing.py:164-171 | With blank rows, data row `i` lands at `2i + 1`, after a row of "" of the same width. |
| Processing.PackageAppendData | tablebridge/processing.py:164-171 | The body has as many rows as the data, or twice as many with blank rows. The rows are the stringified data rows, each after a blank row of its width when asked. |
| Processing.RecordsAppendBack | tablebridge/processing.py:164-218 | Full-width rows read without validators and appended back write the very strings that were read. |
| Validation.ProcessPoint | tablebridge/validation.py:20-27 | The empty string is missing. No match anywhere is missing. Otherwise the result is the three integers read from the digit groups of the leftmost greedy match. |
| Validation.ProcessPointSplitsDigits | tablebridge/validation.py:23-27 | Three digits with no separator become three one-digit numbers: "123" gives [1, 2, 3]. |
| Validation.NoValidation | tablebridge/validation.py:30-34 | Missing exactly for the empty string. |
| Validation.NoValidationRoundTrip | tablebridge/validation.py:30-34 | A kept value is written back unchanged by `str`. |
| Regex.SearchIsLeftmostGreedy | tablebridge/processing.py:191 | `re.search` reports a match at the leftmost start where the pattern matches, with the greatest counts there. When it reports none, nothing matches anywhere. |
| Regex.BacktrackIsGreatest | tablebridge/validation.py:23 | Backtracking from the longest count of each quantifier finds the lexicographically greatest counts among all matches at that start. It finds nothing only when there is no match there. |
| Tables.Dict | tablebridge/processing.py:50-53 | The dict built from keys and values in order has exactly the keys. Each key holds the value of its last position. |

## Left out

- tablebridge/auth.py: OAuth and token-file I/O.
- The Sheets API calls and the methods that only forward to them: `sheet_service`, `get_sheet_raw`, `update_cells`, `append_cells`, and `SheetProcessor.update_data`, `_get_data*`, `set_values`, `set_value_series`, `append_data`. The request bodies they send are modelled as datatypes.
- `process_int` and `process_uint64`: thin wrappers over Python `int` and numpy `uint64` casting.
- pandas internals: index labels, dtypes, `query` string evaluation and merge internals beyond a one-to-one inner join on the identity.
- The lazy caching of the merged frames: every view is recomputed.
- `new_id_column` and `old_id_column`: they read an attribute that does not exist.
- `ColumnFill.FillColumnFromAbove`: it gives only the returned frame, which both `inplace` settings fill. The caller's frame is modelled separately, by `ColumnFill.CallerFrameAsWritten`; see "## Findings".
- `ColumnFill.FillColumnFromAbove`: a `pd.NA` starting value raises `TypeError` in `not starting_value`. The model's missing marker behaves like `None` or NaN there: the leading cells stay missing.
- `pd.NA` compared with a value in `row_differs`. The truth test raises in pandas. Here missing is one marker with NaN semantics: exactly one missing side counts as a difference.
- Missing identity values are compared as values. `np.isin` would treat NaN as absent.
- Float starts and steps in `count_from`: integers only.
- A function rule whose value is a list, or that raises on the probe row, on a frame without rows or columns. pandas then broadcasts or falls back to a copy of the frame; the generators here return single cells and never raise.
- A generator object shared by two schema rules: each rule owns its generator's state. Counters from separate `count_from` calls are separate, as `Generators.SeparateCounters` shows. `Generators.Counter.Next` agrees with `Generators.Call` step by step.
- `SchemaConvert.ConvertDataframe`: it returns the converted table only. The generators' state after the call is `SchemaConvert.SchemaAfter`.
- `Processing.AtLeast1d`: only the number/string mix is promoted. The missing marker is taken as `None` or `pd.NA`, which keep the list as objects. A float NaN is not modelled. Among numbers it makes numpy write every number as a float, so 1 is sent as 1.0. Among strings it becomes "nan". Ragged or nested lists are not modelled. `rows` and `columns` are sequences already, so their promotion changes nothing.
- `Processing.PackageBatchUpdate`: its promise that each value's `str` is unchanged holds only for a missing marker that is `None` or `pd.NA`. A float NaN next to a number makes numpy turn `[1, NaN]` into `[1.0, nan]`, and `str` then gives "1.0".
- `Utils.NumberToColumn`: computes in exact integers. The source's `np.floor(n / 25)` divides in floating point, which can differ from exact division for `n` at or above 2^53.
- `Utils.ColumnToNumber`: computes in exact integers. The source's `dig * base` is a 64-bit numpy product, which can wrap for strings of 14 or more letters.
- `Utils.LettersRoundTrip`: holds for the exact-integer codec. For the source, it is promised only below 2^53.
- `Utils.NumberRoundTrip`: holds for the exact-integer codec. For the source, it is promised only for strings shorter than 14 letters.
- `\d` matches ASCII digits only; Python also accepts other Unicode decimal digits.
- `SchemaConvert.ConvertDataframe`: a column renamed onto a label another column keeps is an error. With columns `a`, `b` and the schema `{"b": "a"}`, pandas renames `a` to `b` and `df[["b"]]` returns both `b` columns; rows as maps cannot hold a repeated label (`SchemaConvert.RenameOntoKeptLabel`). Two renamed columns never share a label, since schema keys are distinct (`SchemaConvert.TwoRenamedNeverCollide`).
- Input frames with repeated column labels are outside the model: every operation requires `Tables.WellFormed`, whose labels are distinct, while a pandas frame may repeat a label.
- `AnnotationDiff.InnerJoin`: suffixed labels that collide across the two sides are an error, for the same reason.
- `Processing.ColumnMappingConsecutive`: it states which letters a name gets, not the number they read back as. The read-back is `Utils.LettersRoundTrip`.
- `Processing.SheetColumnMappingConsecutive`: the same shape of statement; the read-back is `SheetColumns.SheetLettersRoundTrip`.
- `Tables.Render` writes the missing marker as "nan". The caller of `_package_append_data` fills missing cells with "" first.

## Findings

| source | as written | input that shows it | evidently intended | confidence | as-written member | corrected member |
|---|---|---|---|---|---|---|
| tablebridge/utils.py:15-35 | `number_to_column` takes remainders modulo 25 and `column_to_number` uses powers of 25, so 'Z' is never produced but still scores 26 | `column_to_number("Z") == column_to_number("AA") == 25`; from first column "A" the 26th name maps to "AA" and sheet column "Z" is skipped | bijective base 26 over A..Z, the spreadsheet's own column numbering | high, not executed | Utils.ZAliasesAA, Processing.TwentySixthNameSkipsZ | SheetColumns.SheetNumberRoundTrip, SheetColumns.SheetLettersRoundTrip, Processing.SheetColumnMappingConsecutive, Processing.TwentySixthNameIsZ |
| tablebridge/comparison.py:25-26 | the frame is copied when `inplace` is true, so the default call writes into the caller's frame and an in-place call does not | the column [1, missing] with the default `inplace=False`: the caller's frame comes back filled | copy when `inplace` is false, as the docstring says | high, not executed | ColumnFill.CallerFrameAsWritten, ColumnFill.DefaultCallWritesCallerFrame, ColumnFill.PartialFillOnError | ColumnFill.CallerFrame, ColumnFill.CallerFrameFollowsFlag |

`Processing.ColumnMapping` follows the code as written. `Processing.SheetColumnMapping` is the corrected mapping, and the base-26 properties are proved about it. `ColumnFill.CallerFrameAsWritten` is the caller's frame as the code treats it, and `ColumnFill.CallerFrame` follows the documented flag.

=== FILE: annotation_diff.dfy ===
/** `AnnotationComparison` (tablebridge/comparison.py:81-172): the diff of a
    new snapshot of an annotation table against an old one, keyed by an
    identity column. Rows are classified as new (identity only in the new
    table), removed (only in the old), changed (in both, some data column
    differs) or unchanged. The source caches the merged views lazily; here
    every view is recomputed from the two tables. */
module AnnotationDiff {
  import opened Outcomes
  import opened Tables
  import opened Utils

  datatype Comparison = Comparison(newTable: Table, oldTable: Table, idColumn: string)

  /** The position of the first occurrence of `x`. */
  function FirstIndex(s: seq<string>, x: string): (i: nat)
    requires x in s
    ensures i < |s| && s[i] == x && x !in s[..i]
    decreases |s|
  {
    if s[0] == x then 0
    else
      var i := FirstIndex(s[1..], x);
      assert s[..i + 1] == [s[0]] + s[1..][..i];
      i + 1
  }

  /** `list.remove(x)`: the list without the first occurrence of `x`. */
  function Without(s: seq<string>, x: string): (r: seq<string>)
    ensures x in s ==> |r| == |s| - 1
    ensures x in s ==> r == s[..FirstIndex(s, x)] + s[FirstIndex(s, x) + 1..]
    ensures x !in s ==> r == s
    ensures forall y :: y != x ==> (y in r <==> y in s)
    ensures Distinct(s) ==> x !in r && Distinct(r)
    decreases |s|
  {
    if |s| == 0 then []
    else if s[0] == x then s[1..]
    else
      var rest := Without(s[1..], x);
      WithoutStep(s, x, rest);
      [s[0]] + rest
  }

  /** What removing `x` from the tail gives carries over to the whole list
      when its head is not `x`. */
  lemma WithoutStep(s: seq<string>, x: string, rest: seq<string>)
    requires |s| > 0 && s[0] != x
    requires x in s[1..] ==> |rest| == |s| - 2
    requires x in s[1..] ==> rest == s[1..][..FirstIndex(s[1..], x)] + s[1..][FirstIndex(s[1..], x) + 1..]
    requires x !in s[1..] ==> rest == s[1..]
    requires forall y :: y != x ==> (y in rest <==> y in s[1..])
    requires Distinct(s[1..]) ==> x !in rest && Distinct(rest)
    ensures x in s ==> |[s[0]] + rest| == |s| - 1
    ensures x in s ==> [s[0]] + rest == s[..FirstIndex(s, x)] + s[FirstIndex(s, x) + 1..]
    ensures x !in s ==> [s[0]] + rest == s
    ensures forall y :: y != x ==> (y in [s[0]] + rest <==> y in s)
    ensures Distinct(s) ==> x !in [s[0]] + rest && Distinct([s[0]] + rest)
  {
    assert s == [s[0]] + s[1..];
    if x in s {
      RemoveLater(s, x, rest);
    }
    if Distinct(s) {
      assert Distinct(s[1..]) by {
        assert forall k :: 0 <= k < |s[1..]| ==> s[1..][k] == s[k + 1];
      }
      assert s[0] !in s[1..];
      DistinctCons(s[0], rest);
    }
  }

  /** Removing the first `x` from a list that does not start with it keeps
      the head and removes the first `x` from the tail. */
  lemma RemoveLater(s: seq<string>, x: string, rest: seq<string>)
    requires x in s && s[0] != x
    requires rest == s[1..][..FirstIndex(s[1..], x)] + s[1..][FirstIndex(s[1..], x) + 1..]
    ensures [s[0]] + rest == s[..FirstIndex(s, x)] + s[FirstIndex(s, x) + 1..]
  {
    var i := FirstIndex(s[1..], x);
    assert FirstIndex(s, x) == i + 1;
    assert s[..i + 1] == [s[0]] + s[1..][..i];
    assert s[i + 2..] == s[1..][i + 1..];
  }

  lemma DistinctCons(h: string, t: seq<string>)
    requires Distinct(t) && h !in t
    ensures Distinct([h] + t)
  {
    assert forall k :: 0 < k < |[h] + t| ==> ([h] + t)[k] == t[k - 1];
  }

  /** `data_columns`: the new table's labels other than the identity. Only
      the new table is consulted. */
  function DataColumns(c: Comparison): seq<string> {
    Without(c.newTable.columns, c.idColumn)
  }

  function OldDataColumns(c: Comparison): seq<string> {
    Without(c.oldTable.columns, c.idColumn)
  }

  /** What a constructed comparison guarantees. */
  predicate Valid(c: Comparison) {
    && WellFormed(c.newTable) && WellFormed(c.oldTable)
    && c.idColumn in c.newTable.columns && |DataColumns(c)| > 0
  }

  /** The constructor: `data_columns` raises when the identity column is not
      a label of the new table (`list.remove`), and the constructor raises
      when nothing else is left. The old table is not inspected. */
  function NewComparison(newTable: Table, oldTable: Table, idColumn: string): (r: Result<Comparison>)
    requires WellFormed(newTable) && WellFormed(oldTable)
    ensures r.Ok? <==> idColumn in newTable.columns && exists x :: x in newTable.columns && x != idColumn
    ensures r.Ok? ==> Valid(r.value) && r.value.newTable == newTable && r.value.oldTable == oldTable
    ensures r.Err? ==> r.error.ValueError?
  {
    var c := Comparison(newTable, oldTable, idColumn);
    if idColumn !in newTable.columns then Err(ValueError("list.remove(x): x not in list"))
    else
      OtherColumnIffData(newTable.columns, idColumn);
      if |DataColumns(c)| == 0 then Err(ValueError("DataFrames must have at least one data column beyond the index"))
      else Ok(c)
  }

  /** Removing a present label leaves something exactly when some other
      label is there. */
  lemma OtherColumnIffData(cols: seq<string>, id: string)
    requires Distinct(cols) && id in cols
    ensures |Without(cols, id)| > 0 <==> exists x :: x in cols && x != id
  {
    var r := Without(cols, id);
    if |r| > 0 {
      assert r[0] in r;
    }
  }

  /** Boolean-mask selection of a table's rows by identity; the labels stay. */
  function Select(t: Table, id: string, ids: set<Cell>, inside: bool): (r: Table)
    requires WellFormed(t) && id in t.columns
    ensures WellFormed(r) && r.columns == t.columns
    ensures Subsequence(r.rows, t.rows)
    ensures forall row :: row in r.rows <==> row in t.rows && (row[id] in ids) == inside
    ensures KeepsCounts(r.rows, t.rows, id, ids, inside)
  {
    var rows := SelectById(t.rows, id, ids, inside);
    assert forall i :: 0 <= i < |rows| ==> rows[i] in t.rows;
    Table(t.columns, rows)
  }

  /** Some row of `t` carries identity `x`. */
  predicate HasId(t: Table, id: string, x: Cell)
    requires WellFormed(t) && id in t.columns
  {
    exists i :: 0 <= i < |t.rows| && t.rows[i][id] == x
  }

  /** `out` holds each row of `t` whose identity `other` lacks, as often as
      it occurs in `t`, and no other row. */
  ghost predicate KeepsRowsNotIn(out: seq<Row>, t: Table, other: Table, id: string)
    requires WellFormed(t) && WellFormed(other) && id in t.columns && id in other.columns
  {
    forall row :: multiset(out)[row] ==
      if row in t.rows && !HasId(other, id, row[id]) then multiset(t.rows)[row] else 0
  }

  /** The rows of `t` whose identity `other` lacks, each as often as it
      occurs in `t`. */
  lemma OnlyIn(t: Table, other: Table, id: string)
    requires WellFormed(t) && WellFormed(other) && id in t.columns && id in other.columns
    ensures var r := Select(t, id, IdSet(other, id), false);
            && WellFormed(r) && r.columns == t.columns && Subsequence(r.rows, t.rows)
            && (forall row :: row in r.rows <==> row in t.rows && !HasId(other, id, row[id]))
            && KeepsRowsNotIn(r.rows, t, other, id)
  {
    assert forall x :: x in IdSet(other, id) <==> HasId(other, id, x);
  }

  /** `new_annotations`: the new table's rows whose identity the old table
      lacks, in order. Reading the old identity column raises `KeyError`
      when it is absent. */
  function NewAnnotations(c: Comparison): (r: Result<Table>)
    requires Valid(c)
    ensures r.Err? <==> c.idColumn !in c.oldTable.columns
    ensures r.Err? ==> r.error == KeyError(c.idColumn)
    ensures r.Ok? ==> && WellFormed(r.value) && r.value.columns == c.newTable.columns
                      && Subsequence(r.value.rows, c.newTable.rows)
                      && forall row :: row in r.value.rows <==>
                           row in c.newTable.rows && !HasId(c.oldTable, c.idColumn, row[c.idColumn])
    ensures r.Ok? ==> KeepsRowsNotIn(r.value.rows, c.newTable, c.oldTable, c.idColumn)
  {
    if c.idColumn !in c.oldTable.columns then Err(KeyError(c.idColumn))
    else
      OnlyIn(c.newTable, c.oldTable, c.idColumn);
      Ok(Select(c.newTable, c.idColumn, IdSet(c.oldTable, c.idColumn), false))
  }

  /** `removed_annotations`: the old table's rows whose identity the new
      table lacks, in order. */
  function RemovedAnnotations(c: Comparison): (r: Result<Table>)
    requires Valid(c)
    ensures r.Err? <==> c.idColumn !in c.oldTable.columns
    ensures r.Err? ==> r.error == KeyError(c.idColumn)
    ensures r.Ok? ==> && WellFormed(r.value) && r.value.columns == c.oldTable.columns
                      && Subsequence(r.value.rows, c.oldTable.rows)
                      && forall row :: row in r.value.rows <==>
                           row in c.oldTable.rows && !HasId(c.newTable, c.idColumn, row[c.idColumn])
    ensures r.Ok? ==> KeepsRowsNotIn(r.value.rows, c.oldTable, c.newTable, c.idColumn)
  {
    if c.idColumn !in c.oldTable.columns then Err(KeyError(c.idColumn))
    else
      OnlyIn(c.oldTable, c.newTable, c.idColumn);
      Ok(Select(c.oldTable, c.idColumn, IdSet(c.newTable, c.idColumn), false))
  }

  // ---------------------------------------------------------------------
  // `_compute_merged_df("inner")` (lines 131-138): an inner merge on the
  // identity column with suffixes ("_new", "_old") and `validate="1:1"`.

  /** A data label present on both sides gets the side's suffix. */
  function Suffixed(x: string, other: seq<string>, suffix: string): string {
    if x in other then x + suffix else x
  }

  function SuffixAll(xs: seq<string>, other: seq<string>, suffix: string): (r: seq<string>)
    ensures |r| == |xs|
    ensures forall p :: 0 <= p < |xs| ==> r[p] == Suffixed(xs[p], other, suffix)
  {
    seq(|xs|, p requires 0 <= p < |xs| => Suffixed(xs[p], other, suffix))
  }

  /** The merged labels taken from the new table: the identity, then its
      data labels. */
  function LeftLabels(c: Comparison): seq<string> {
    [c.idColumn] + SuffixAll(DataColumns(c), OldDataColumns(c), "_new")
  }

  /** The merged labels taken from the old table: its data labels. */
  function RightLabels(c: Comparison): seq<string> {
    SuffixAll(OldDataColumns(c), DataColumns(c), "_old")
  }

  function MergedColumns(c: Comparison): seq<string> {
    LeftLabels(c) + RightLabels(c)
  }

  /** A row's cell under `k`, or the missing marker when it has none. */
  function Get(row: Row, k: string): Cell {
    if k in row then row[k] else Missing
  }

  function Values(row: Row, cols: seq<string>): (r: seq<Cell>)
    ensures |r| == |cols|
    ensures forall p :: 0 <= p < |cols| ==> r[p] == Get(row, cols[p])
  {
    seq(|cols|, p requires 0 <= p < |cols| => Get(row, cols[p]))
  }

  /** The merged row of a new row and the old row with the same identity. */
  function MergedRow(c: Comparison, rn: Row, ro: Row): (m: Row)
    requires Distinct(MergedColumns(c))
    ensures m.Keys == ColumnSet(MergedColumns(c))
  {
    Zip(MergedColumns(c), MergedValues(c, rn, ro))
  }

  /** The cells of a merged row, in the order of `MergedColumns`: the
      identity, the new row's data, then the old row's data. */
  function MergedValues(c: Comparison, rn: Row, ro: Row): (v: seq<Cell>)
    ensures |v| == 1 + |DataColumns(c)| + |OldDataColumns(c)| == |MergedColumns(c)|
    ensures v[0] == Get(rn, c.idColumn)
    ensures v[1..1 + |DataColumns(c)|] == Values(rn, DataColumns(c))
    ensures v[1 + |DataColumns(c)|..] == Values(ro, OldDataColumns(c))
  {
    var a, b := [Get(rn, c.idColumn)] + Values(rn, DataColumns(c)), Values(ro, OldDataColumns(c));
    assert (a + b)[|a|..] == b;
    assert (a + b)[1..|a|] == a[1..];
    a + b
  }

  /** Position of the first row carrying identity `x`. */
  function IndexOfId(rows: seq<Row>, id: string, x: Cell): (i: nat)
    requires exists k :: 0 <= k < |rows| && id in rows[k] && rows[k][id] == x
    ensures i < |rows| && id in rows[i] && rows[i][id] == x
    ensures forall k :: 0 <= k < i ==> !(id in rows[k] && rows[k][id] == x)
    decreases |rows|
  {
    if id in rows[0] && rows[0][id] == x then 0
    else
      assert exists k :: 0 <= k < |rows[1..]| && id in rows[1..][k] && rows[1..][k][id] == x by {
        var k :| 0 <= k < |rows| && id in rows[k] && rows[k][id] == x;
        assert rows[1..][k - 1] == rows[k];
      }
      var i := IndexOfId(rows[1..], id, x);
      assert forall k :: 0 < k <= i ==> rows[k] == rows[1..][k - 1];
      i + 1
  }

  /** The old row with identity `x`. */
  function OldRowWithId(c: Comparison, x: Cell): (ro: Row)
    requires WellFormed(c.oldTable) && c.idColumn in c.oldTable.columns
    requires HasId(c.oldTable, c.idColumn, x)
    ensures ro in c.oldTable.rows && ro[c.idColumn] == x
  {
    c.oldTable.rows[IndexOfId(c.oldTable.rows, c.idColumn, x)]
  }

  /** What the merge needs: the identity on both sides, unique identities
      on both sides, and merged labels that do not collide. */
  predicate Joinable(c: Comparison) {
    && Valid(c) && c.idColumn in c.oldTable.columns
    && Distinct(Ids(c.newTable, c.idColumn)) && Distinct(Ids(c.oldTable, c.idColumn))
    && Distinct(MergedColumns(c))
  }

  /** The new rows whose identity the old table has, in order. */
  function CommonRows(c: Comparison): (rows: seq<Row>)
    requires Joinable(c)
    ensures forall r :: r in rows <==> r in c.newTable.rows && HasId(c.oldTable, c.idColumn, r[c.idColumn])
    ensures forall k :: 0 <= k < |rows| ==>
              && rows[k] in c.newTable.rows && c.idColumn in rows[k]
              && HasId(c.oldTable, c.idColumn, rows[k][c.idColumn])
  {
    Select(c.newTable, c.idColumn, IdSet(c.oldTable, c.idColumn), true).rows
  }

  function JoinedRows(c: Comparison): (rows: seq<Row>)
    requires Joinable(c)
    ensures |rows| == |CommonRows(c)|
    ensures forall k :: 0 <= k < |rows| ==> rows[k].Keys == ColumnSet(MergedColumns(c))
    ensures forall k :: 0 <= k < |rows| ==> c.idColumn in rows[k]
  {
    assert MergedColumns(c)[0] == c.idColumn;
    var common := CommonRows(c);
    seq(|common|, k requires 0 <= k < |common| =>
      MergedRow(c, common[k], OldRowWithId(c, common[k][c.idColumn])))
  }

  /** A new row and an old row with the same identity, the pairs the
      inner merge joins. */
  predicate Matched(c: Comparison, rn: Row, ro: Row)
    requires Valid(c) && c.idColumn in c.oldTable.columns
  {
    rn in c.newTable.rows && ro in c.oldTable.rows && rn[c.idColumn] == ro[c.idColumn]
  }

  /** The inner merge. Missing identity labels raise `KeyError`, duplicate
      identities fail the one-to-one validation with `MergeError`, and so do
      suffixed labels that repeat on one side. Labels that repeat across the
      two sides would give pandas a frame with a repeated label, which rows
      as maps cannot hold; that case is an error here. */
  function InnerJoin(c: Comparison): (r: Result<Table>)
    requires Valid(c)
    ensures r.Ok? <==> Joinable(c)
    ensures c.idColumn !in c.oldTable.columns ==> r == Err(KeyError(c.idColumn))
    ensures c.idColumn in c.oldTable.columns && !Distinct(Ids(c.oldTable, c.idColumn)) ==> r == Err(MergeError)
    ensures c.idColumn in c.oldTable.columns && !Distinct(Ids(c.newTable, c.idColumn)) ==> r == Err(MergeError)
    ensures r.Ok? ==> WellFormed(r.value) && r.value.columns == MergedColumns(c) && r.value.rows == JoinedRows(c)
    ensures r.Ok? ==> forall m :: m in r.value.rows ==>
                        exists rn, ro :: Matched(c, rn, ro) && m == MergedRow(c, rn, ro)
    ensures r.Ok? ==> forall rn, ro :: Matched(c, rn, ro) ==> MergedRow(c, rn, ro) in r.value.rows
  {
    if c.idColumn !in c.oldTable.columns then Err(KeyError(c.idColumn))
    else if !Distinct(Ids(c.newTable, c.idColumn)) || !Distinct(Ids(c.oldTable, c.idColumn)) then Err(MergeError)
    else if !Distinct(MergedColumns(c)) then
      if !Distinct(LeftLabels(c)) || !Distinct(RightLabels(c)) then Err(MergeError)
      else Err(ValueError("duplicate column labels"))
    else
      var rows := JoinedRows(c);
      JoinedRowsAreMatches(c);
      MatchesAreJoined(c);
      Ok(Table(MergedColumns(c), rows))
  }

  /** Every joined row merges a new row with the old row that has the same
      identity ... */
  lemma JoinedRowsAreMatches(c: Comparison)
    requires Joinable(c)
    ensures forall m :: m in JoinedRows(c) ==>
              exists rn, ro :: Matched(c, rn, ro) && m == MergedRow(c, rn, ro)
  {
    var rows := JoinedRows(c);
    forall m | m in rows
      ensures exists rn, ro :: Matched(c, rn, ro) && m == MergedRow(c, rn, ro)
    {
      var k :| 0 <= k < |rows| && rows[k] == m;
      var rn, ro := JoinedRowIsMatch(c, k);
    }
  }

  /** ... and every such pair is joined. */
  lemma MatchesAreJoined(c: Comparison)
    requires Joinable(c)
    ensures forall rn, ro :: Matched(c, rn, ro) ==> MergedRow(c, rn, ro) in JoinedRows(c)
  {
    forall rn, ro | Matched(c, rn, ro)
      ensures MergedRow(c, rn, ro) in JoinedRows(c)
    {
      MatchIsJoined(c, rn, ro);
    }
  }

  lemma JoinedRowAt(c: Comparison, k: nat)
    requires Joinable(c) && k < |CommonRows(c)|
    ensures JoinedRows(c)[k] == MergedRow(c, CommonRows(c)[k], OldRowWithId(c, CommonRows(c)[k][c.idColumn]))
  {
  }

  lemma JoinedRowIsMatch(c: Comparison, k: nat) returns (rn: Row, ro: Row)
    requires Joinable(c) && k < |JoinedRows(c)|
    ensures Matched(c, rn, ro) && JoinedRows(c)[k] == MergedRow(c, rn, ro)
    ensures JoinedRows(c)[k][c.idColumn] == ro[c.idColumn]
  {
    var common := CommonRows(c);
    rn := common[k];
    assert rn in common;
    ro := OldRowWithId(c, rn[c.idColumn]);
    JoinedRowAt(c, k);
    MergedRowId(c, rn, ro);
    RowHasId(c.newTable, c.idColumn, rn);
  }

  lemma MatchIsJoined(c: Comparison, rn: Row, ro: Row)
    requires Joinable(c)
    requires Matched(c, rn, ro)
    ensures MergedRow(c, rn, ro) in JoinedRows(c)
  {
    var id := c.idColumn;
    var common := CommonRows(c);
    var j :| 0 <= j < |c.oldTable.rows| && c.oldTable.rows[j] == ro;
    assert rn in common;
    var k :| 0 <= k < |common| && common[k] == rn;
    OnlyRowWithId(c.oldTable, id, ro, OldRowWithId(c, rn[id]));
    JoinedRowAt(c, k);
  }

  /** Unique identities pick out a single row. */
  lemma OnlyRowWithId(t: Table, id: string, r1: Row, r2: Row)
    requires WellFormed(t) && id in t.columns && Distinct(Ids(t, id))
    requires r1 in t.rows && r2 in t.rows && r1[id] == r2[id]
    ensures r1 == r2
  {
    var i :| 0 <= i < |t.rows| && t.rows[i] == r1;
    var j :| 0 <= j < |t.rows| && t.rows[j] == r2;
    assert Ids(t, id)[i] == Ids(t, id)[j];
  }

  /** The merged row's identity is the new row's. */
  lemma MergedRowId(c: Comparison, rn: Row, ro: Row)
    requires Distinct(MergedColumns(c))
    ensures c.idColumn in MergedRow(c, rn, ro) && MergedRow(c, rn, ro)[c.idColumn] == Get(rn, c.idColumn)
  {
    assert MergedColumns(c)[0] == c.idColumn;
  }

  // ---------------------------------------------------------------------
  // `changed_annotations` and `unchanged_annotations` (lines 156-172).

  /** The new table's data labels, each followed by `suffix`. */
  function DataLabels(c: Comparison, suffix: string): (r: seq<string>)
    ensures |r| == |DataColumns(c)|
    ensures forall p :: 0 <= p < |r| ==> r[p] == DataColumns(c)[p] + suffix
  {
    seq(|DataColumns(c)|, p requires 0 <= p < |DataColumns(c)| => DataColumns(c)[p] + suffix)
  }

  /** `data_columns_new` and `data_columns_old` (lines 111-117): both are
      built from the new table's data labels. */
  function NewLabels(c: Comparison): seq<string> { DataLabels(c, "_new") }

  function OldLabels(c: Comparison): seq<string> { DataLabels(c, "_old") }

  /** `row_differs` applied to every merged row, in order: the identities of
      the rows that differ, or the first row's `KeyError`. */
  function DiffIds(rows: seq<Row>, id: string, a: seq<string>, b: seq<string>): (r: Result<set<Cell>>)
    requires forall k :: 0 <= k < |rows| ==> id in rows[k]
    decreases |rows|
  {
    if |rows| == 0 then Ok({})
    else
      match RowDiffers(rows[0], a, b)
      case Err(e) => Err(e)
      case Ok(d) =>
        match DiffIds(rows[1..], id, a, b)
        case Err(e) => Err(e)
        case Ok(rest) => Ok(if d then {rows[0][id]} + rest else rest)
  }

  /** `DiffIds` fails exactly when some row's `row_differs` fails, and
      otherwise holds the identities of the rows that differ. */
  lemma {:induction false} DiffIdsMeaning(rows: seq<Row>, id: string, a: seq<string>, b: seq<string>)
    requires forall k :: 0 <= k < |rows| ==> id in rows[k]
    ensures var r := DiffIds(rows, id, a, b);
            && (r.Err? <==> exists k :: 0 <= k < |rows| && RowDiffers(rows[k], a, b).Err?)
            && (r.Ok? ==> forall x :: x in r.value <==>
                            exists k :: 0 <= k < |rows| && rows[k][id] == x && RowDiffers(rows[k], a, b) == Ok(true))
    decreases |rows|
  {
    if |rows| > 0 {
      DiffIdsMeaning(rows[1..], id, a, b);
      assert forall k :: 0 < k < |rows| ==> rows[k] == rows[1..][k - 1];
    }
  }

  /** Every data label of the new table is also a label of the old one. */
  predicate SharedData(c: Comparison) {
    forall x :: x in DataColumns(c) ==> x in c.oldTable.columns
  }

  /** The new and the old row differ in some data column, a missing cell on
      both sides counting as no difference. */
  predicate DataDiffer(c: Comparison, rn: Row, ro: Row) {
    exists p :: 0 <= p < |DataColumns(c)| && CellsDiffer(Get(rn, DataColumns(c)[p]), Get(ro, DataColumns(c)[p]))
  }

  /** What `DataFrame.apply(f, axis=1)` hands `f` when the frame has no
      rows, to tell whether `f` reduces: an empty float Series without labels
      (`Unlabelled`, as older pandas releases do) or an all-NaN Series
      labelled by the frame's columns (`Labelled`, as newer releases do).
      The source does not pin a pandas release, so the model takes it as a
      parameter. */
  datatype EmptyProbe = Unlabelled | Labelled

  /** The probe row for the merged frame. */
  function ProbeRow(c: Comparison, probe: EmptyProbe): Row {
    match probe
    case Unlabelled => map[]
    case Labelled => map k | k in MergedColumns(c) :: Missing
  }

  /** `row_differs` answers on the probe row instead of raising. Then pandas
      treats the lambda as a reduction and returns an empty float Series,
      which `common_merged_df[...]` reads as an empty list of labels, so the
      following `[self.id_column]` raises `KeyError`. When the probe raises,
      pandas returns a copy of the empty frame and nothing is selected. */
  predicate ProbeAnswers(c: Comparison, probe: EmptyProbe) {
    RowDiffers(ProbeRow(c, probe), NewLabels(c), OldLabels(c)).Ok?
  }

  /** `changed_annotations`: the new rows whose merged row differs. The
      merge's errors, a `KeyError` for a data label the merge did not
      suffix, and the `KeyError` of an empty merge whose probe answers
      surface here. */
  function ChangedAnnotations(c: Comparison, probe: EmptyProbe): (r: Result<Table>)
    requires Valid(c)
    ensures InnerJoin(c).Err? ==> r == Err(InnerJoin(c).error)
    ensures InnerJoin(c).Ok? && |InnerJoin(c).value.rows| == 0 ==>
              (r.Err? <==> ProbeAnswers(c, probe)) && (r.Err? ==> r == Err(KeyError(c.idColumn)))
    ensures InnerJoin(c).Ok? && |InnerJoin(c).value.rows| > 0 ==>
              (r.Err? <==> exists k :: 0 <= k < |InnerJoin(c).value.rows|
                                       && RowDiffers(InnerJoin(c).value.rows[k], NewLabels(c), OldLabels(c)).Err?)
    ensures r.Ok? ==> && WellFormed(r.value) && r.value.columns == c.newTable.columns
                      && Subsequence(r.value.rows, c.newTable.rows)
                      && c.idColumn in c.oldTable.columns
                      && forall row :: row in r.value.rows ==>
                           row in c.newTable.rows && HasId(c.oldTable, c.idColumn, row[c.idColumn])
  {
    match InnerJoin(c)
    case Err(e) => Err(e)
    case Ok(j) =>
      assert MergedColumns(c)[0] == c.idColumn;
      if |j.rows| == 0 && ProbeAnswers(c, probe) then Err(KeyError(c.idColumn))
      else
        DiffIdsMeaning(j.rows, c.idColumn, NewLabels(c), OldLabels(c));
        match DiffIds(j.rows, c.idColumn, NewLabels(c), OldLabels(c))
        case Err(e) => Err(e)
        case Ok(ids) =>
          assert j.rows == JoinedRows(c);
          forall x | x in ids ensures HasId(c.oldTable, c.idColumn, x) { ChangedIdsAreCommon(c, ids, x); }
          Ok(Select(c.newTable, c.idColumn, ids, true))
  }

  /** The unlabelled probe always raises, since there is a data label; the
      labelled one answers when every data label is shared. */
  lemma ProbeMeaning(c: Comparison)
    requires Valid(c)
    ensures !ProbeAnswers(c, Unlabelled)
    ensures SharedData(c) && Distinct(MergedColumns(c)) ==> ProbeAnswers(c, Labelled)
  {
    assert |NewLabels(c)| > 0 && |OldLabels(c)| > 0;
    assert StopsAt(ProbeRow(c, Unlabelled), NewLabels(c), OldLabels(c), 0);
    RowDiffersStops(ProbeRow(c, Unlabelled), NewLabels(c), OldLabels(c));
    if SharedData(c) && Distinct(MergedColumns(c)) {
      var probeRow := ProbeRow(c, Labelled);
      var m := MergedRow(c, map[], map[]);
      forall p | 0 <= p < |DataColumns(c)|
        ensures NewLabels(c)[p] in probeRow && OldLabels(c)[p] in probeRow
      {
        MergedLookups(c, map[], map[], p);
        assert NewLabels(c)[p] in ColumnSet(MergedColumns(c));
        assert OldLabels(c)[p] in ColumnSet(MergedColumns(c));
      }
      assert PairsPresent(probeRow, NewLabels(c), OldLabels(c));
    }
  }

  lemma ChangedIdsAreCommon(c: Comparison, ids: set<Cell>, x: Cell)
    requires Joinable(c)
    requires DiffIds(JoinedRows(c), c.idColumn, NewLabels(c), OldLabels(c)) == Ok(ids)
    requires x in ids
    ensures HasId(c.oldTable, c.idColumn, x)
  {
    var k := ChangedIdIndex(c, ids, x);
    JoinedIdIsOld(c, k);
  }

  /** A changed identity is that of some merged row. */
  lemma ChangedIdIndex(c: Comparison, ids: set<Cell>, x: Cell) returns (k: nat)
    requires Joinable(c)
    requires DiffIds(JoinedRows(c), c.idColumn, NewLabels(c), OldLabels(c)) == Ok(ids)
    requires x in ids
    ensures MergedColumns(c)[0] == c.idColumn
    ensures k < |JoinedRows(c)| && JoinedRows(c)[k][c.idColumn] == x
  {
    assert MergedColumns(c)[0] == c.idColumn;
    k := DiffIdIndex(JoinedRows(c), c.idColumn, NewLabels(c), OldLabels(c), x);
  }

  /** An identity `DiffIds` reports is that of one of the rows. */
  lemma DiffIdIndex(rows: seq<Row>, id: string, a: seq<string>, b: seq<string>, x: Cell) returns (k: nat)
    requires forall k :: 0 <= k < |rows| ==> id in rows[k]
    requires DiffIds(rows, id, a, b).Ok? && x in DiffIds(rows, id, a, b).value
    ensures k < |rows| && rows[k][id] == x
  {
    DiffIdsMeaning(rows, id, a, b);
    k :| 0 <= k < |rows| && rows[k][id] == x && RowDiffers(rows[k], a, b) == Ok(true);
  }

  /** Every merged row's identity is one the old table has. */
  lemma JoinedIdIsOld(c: Comparison, k: nat)
    requires Joinable(c) && k < |JoinedRows(c)|
    ensures HasId(c.oldTable, c.idColumn, JoinedRows(c)[k][c.idColumn])
  {
    var rn, ro := JoinedRowIsMatch(c, k);
    RowHasId(c.oldTable, c.idColumn, ro);
  }

  lemma RowHasId(t: Table, id: string, row: Row)
    requires WellFormed(t) && id in t.columns && row in t.rows
    ensures id in row && HasId(t, id, row[id])
  {
    var i :| 0 <= i < |t.rows| && t.rows[i] == row;
  }

  /** `unchanged_annotations`: the old rows whose identity is neither
      changed nor removed. */
  function UnchangedAnnotations(c: Comparison, probe: EmptyProbe): (r: Result<Table>)
    requires Valid(c)
    ensures r.Ok? <==> ChangedAnnotations(c, probe).Ok?
    ensures r.Err? ==> r == Err(ChangedAnnotations(c, probe).error)
    ensures r.Ok? ==> && WellFormed(r.value) && r.value.columns == c.oldTable.columns
                      && Subsequence(r.value.rows, c.oldTable.rows)
                      && forall row :: row in r.value.rows <==>
                           && row in c.oldTable.rows
                           && HasId(c.newTable, c.idColumn, row[c.idColumn])
                           && !HasId(ChangedAnnotations(c, probe).value, c.idColumn, row[c.idColumn])
  {
    match ChangedAnnotations(c, probe)
    case Err(e) => Err(e)
    case Ok(ch) => Ok(UnchangedGiven(c, ch))
  }

  /** The unchanged rows once the changed ones are known: the old rows
      whose identity is in neither the changed nor the removed rows. */
  function UnchangedGiven(c: Comparison, ch: Table): (u: Table)
    requires Valid(c) && c.idColumn in c.oldTable.columns
    requires WellFormed(ch) && ch.columns == c.newTable.columns
    ensures WellFormed(u) && u.columns == c.oldTable.columns
    ensures Subsequence(u.rows, c.oldTable.rows)
    ensures forall row :: row in u.rows <==>
              && row in c.oldTable.rows
              && HasId(c.newTable, c.idColumn, row[c.idColumn])
              && !HasId(ch, c.idColumn, row[c.idColumn])
  {
    var id := c.idColumn;
    forall row | row in c.oldTable.rows
      ensures row[id] in UnchangedIds(c, ch) <==> HasId(c.newTable, id, row[id]) && !HasId(ch, id, row[id])
    {
      UnchangedId(c, ch, row);
    }
    Select(c.oldTable, id, UnchangedIds(c, ch), true)
  }

  /** The old identities in neither the changed nor the removed rows. */
  function UnchangedIds(c: Comparison, ch: Table): set<Cell>
    requires Valid(c) && c.idColumn in c.oldTable.columns
    requires WellFormed(ch) && c.idColumn in ch.columns
  {
    var id := c.idColumn;
    var altered := IdSet(ch, id) + IdSet(RemovedAnnotations(c).value, id);
    set x | x in IdSet(c.oldTable, id) && x !in altered
  }

  /** An old row's identity is unchanged exactly when the new table has it
      and it is not among the changed rows. */
  lemma UnchangedId(c: Comparison, ch: Table, row: Row)
    requires Valid(c) && c.idColumn in c.oldTable.columns
    requires WellFormed(ch) && c.idColumn in ch.columns
    requires row in c.oldTable.rows
    ensures var id := c.idColumn;
            row[id] in UnchangedIds(c, ch) <==> HasId(c.newTable, id, row[id]) && !HasId(ch, id, row[id])
  {
    var id := c.idColumn;
    RemovedIds(c);
    RowHasId(c.oldTable, id, row);
    assert row[id] in IdSet(c.oldTable, id);
  }

  /** The removed rows carry exactly the old identities the new table lacks. */
  lemma RemovedIds(c: Comparison)
    requires Valid(c) && c.idColumn in c.oldTable.columns
    ensures forall x :: x in IdSet(RemovedAnnotations(c).value, c.idColumn) <==>
              HasId(c.oldTable, c.idColumn, x) && !HasId(c.newTable, c.idColumn, x)
  {
    OnlyInIds(c.oldTable, c.newTable, c.idColumn);
  }

  /** The rows of `t` whose identity `other` lacks carry exactly those
      identities. */
  lemma OnlyInIds(t: Table, other: Table, id: string)
    requires WellFormed(t) && WellFormed(other) && id in t.columns && id in other.columns
    ensures forall x :: x in IdSet(Select(t, id, IdSet(other, id), false), id) <==>
              HasId(t, id, x) && !HasId(other, id, x)
  {
    forall x ensures x in IdSet(Select(t, id, IdSet(other, id), false), id) <==> HasId(t, id, x) && !HasId(other, id, x) {
      OnlyInId(t, other, id, Select(t, id, IdSet(other, id), false), x);
    }
  }

  lemma OnlyInId(t: Table, other: Table, id: string, r: Table, x: Cell)
    requires WellFormed(t) && WellFormed(other) && id in t.columns && id in other.columns
    requires WellFormed(r) && r.columns == t.columns
    requires forall row :: row in r.rows <==> row in t.rows && (row[id] in IdSet(other, id)) == false
    ensures x in IdSet(r, id) <==> HasId(t, id, x) && !HasId(other, id, x)
  {
    if x in IdSet(r, id) {
      SelectedIdFrom(t, r, id, IdSet(other, id), x);
    }
    if HasId(t, id, x) && !HasId(other, id, x) {
      var i :| 0 <= i < |t.rows| && t.rows[i][id] == x;
      KeptRowId(t, r, id, t.rows[i]);
    }
  }

  /** An identity of the selection is the identity of a row of `t` that the
      mask let through. */
  lemma SelectedIdFrom(t: Table, r: Table, id: string, ids: set<Cell>, x: Cell)
    requires WellFormed(t) && id in t.columns && WellFormed(r) && r.columns == t.columns
    requires forall row :: row in r.rows <==> row in t.rows && (row[id] in ids) == false
    requires x in IdSet(r, id)
    ensures HasId(t, id, x) && x !in ids
  {
    var k :| 0 <= k < |r.rows| && r.rows[k][id] == x;
    assert r.rows[k] in r.rows;
    RowHasId(t, id, r.rows[k]);
  }

  /** A row the selection kept lends it its identity. */
  lemma KeptRowId(t: Table, r: Table, id: string, row: Row)
    requires WellFormed(r) && id in r.columns && row in r.rows
    ensures row[id] in IdSet(r, id)
  {
    var k :| 0 <= k < |r.rows| && r.rows[k] == row;
  }

  // ---------------------------------------------------------------------
  // What the views mean.

  /** When every data label is shared, the merge suffixes each of them on
      both sides, so the merged row holds the new cell under `x_new` and the
      old cell under `x_old`. */
  lemma MergedLookups(c: Comparison, rn: Row, ro: Row, p: nat)
    requires Valid(c) && SharedData(c) && Distinct(MergedColumns(c))
    requires p < |DataColumns(c)|
    ensures var m := MergedRow(c, rn, ro);
            && NewLabels(c)[p] in m && m[NewLabels(c)[p]] == Get(rn, DataColumns(c)[p])
            && OldLabels(c)[p] in m && m[OldLabels(c)[p]] == Get(ro, DataColumns(c)[p])
  {
    var data, oldData := DataColumns(c), OldDataColumns(c);
    var d := data[p];
    assert d in data && d != c.idColumn && d in oldData;
    var q :| 0 <= q < |oldData| && oldData[q] == d;
    NewLookup(c, rn, ro, p);
    OldLookup(c, rn, ro, q);
  }

  /** The merged row holds the new row's cell under `x_new`. */
  lemma NewLookup(c: Comparison, rn: Row, ro: Row, p: nat)
    requires Distinct(MergedColumns(c))
    requires p < |DataColumns(c)| && DataColumns(c)[p] in OldDataColumns(c)
    ensures var m := MergedRow(c, rn, ro);
            NewLabels(c)[p] in m && m[NewLabels(c)[p]] == Get(rn, DataColumns(c)[p])
  {
    var data, cols := DataColumns(c), MergedColumns(c);
    NewLabelAt(c, p);
    var vals := MergedValues(c, rn, ro);
    assert vals[1 + p] == vals[1..1 + |data|][p];
    assert MergedRow(c, rn, ro)[cols[1 + p]] == vals[1 + p];
  }

  /** The merged row holds the old row's cell under `x_old`. */
  lemma OldLookup(c: Comparison, rn: Row, ro: Row, q: nat)
    requires Distinct(MergedColumns(c))
    requires q < |OldDataColumns(c)| && OldDataColumns(c)[q] in DataColumns(c)
    ensures var m, x := MergedRow(c, rn, ro), OldDataColumns(c)[q];
            x + "_old" in m && m[x + "_old"] == Get(ro, x)
  {
    var data, cols := DataColumns(c), MergedColumns(c);
    OldLabelAt(c, q);
    var vals := MergedValues(c, rn, ro);
    assert vals[1 + |data| + q] == vals[1 + |data|..][q];
    assert MergedRow(c, rn, ro)[cols[1 + |data| + q]] == vals[1 + |data| + q];
  }

  /** A shared data label's merged name on the new side. */
  lemma NewLabelAt(c: Comparison, p: nat)
    requires p < |DataColumns(c)| && DataColumns(c)[p] in OldDataColumns(c)
    ensures MergedColumns(c)[1 + p] == DataColumns(c)[p] + "_new"
  {
    assert LeftLabels(c)[1 + p] == SuffixAll(DataColumns(c), OldDataColumns(c), "_new")[p];
  }

  /** A shared data label's merged name on the old side. */
  lemma OldLabelAt(c: Comparison, q: nat)
    requires q < |OldDataColumns(c)| && OldDataColumns(c)[q] in DataColumns(c)
    ensures MergedColumns(c)[1 + |DataColumns(c)| + q] == OldDataColumns(c)[q] + "_old"
  {
    var left, right := LeftLabels(c), RightLabels(c);
    assert right[q] == OldDataColumns(c)[q] + "_old";
    assert |left| == 1 + |DataColumns(c)|;
    assert (left + right)[|left| + q] == right[q];
  }

  /** On a merged row `row_differs` answers whether the data differ. */
  lemma MergedRowDiffers(c: Comparison, rn: Row, ro: Row)
    requires Valid(c) && SharedData(c) && Distinct(MergedColumns(c))
    ensures RowDiffers(MergedRow(c, rn, ro), NewLabels(c), OldLabels(c)) == Ok(DataDiffer(c, rn, ro))
  {
    var m := MergedRow(c, rn, ro);
    var a, b, data := NewLabels(c), OldLabels(c), DataColumns(c);
    forall p | 0 <= p < |data|
      ensures && a[p] in m && m[a[p]] == Get(rn, data[p])
              && b[p] in m && m[b[p]] == Get(ro, data[p])
    {
      MergedLookups(c, rn, ro, p);
    }
    DiffersAsPaired(m, a, b, data, rn, ro);
  }

  /** `row_differs` over labels that hold, position by position, the cells
      of two rows under `data` answers whether those rows differ there. */
  lemma DiffersAsPaired(row: Row, a: seq<string>, b: seq<string>, data: seq<string>, rn: Row, ro: Row)
    requires |a| == |data| && |b| == |data|
    requires forall p :: 0 <= p < |data| ==>
               && a[p] in row && row[a[p]] == Get(rn, data[p])
               && b[p] in row && row[b[p]] == Get(ro, data[p])
    ensures RowDiffers(row, a, b) == Ok(exists p :: 0 <= p < |data| && CellsDiffer(Get(rn, data[p]), Get(ro, data[p])))
  {
    assert PairsPresent(row, a, b);
  }

  /** With every data label shared, no merged row raises, and the changed
      identities are those of the common rows whose data differ. */
  lemma ChangedIdsOfCommonRows(c: Comparison)
    requires Joinable(c) && SharedData(c)
    ensures MergedColumns(c)[0] == c.idColumn
    ensures var r := DiffIds(JoinedRows(c), c.idColumn, NewLabels(c), OldLabels(c));
            r.Ok? && ChangedIds(c, r.value)
  {
    var id := c.idColumn;
    var common := CommonRows(c);
    var j := JoinedRows(c);
    assert MergedColumns(c)[0] == id;
    DiffIdsMeaning(j, id, NewLabels(c), OldLabels(c));
    forall k | 0 <= k < |j|
      ensures common[k] in common
      ensures j[k][id] == common[k][id]
      ensures RowDiffers(j[k], NewLabels(c), OldLabels(c))
           == Ok(DataDiffer(c, common[k], OldRowWithId(c, common[k][id])))
    {
      assert common[k] in common;
      JoinedRowAt(c, k);
      MergedRowId(c, common[k], OldRowWithId(c, common[k][id]));
      MergedRowDiffers(c, common[k], OldRowWithId(c, common[k][id]));
    }
  }

  /** `changed_annotations`, when every data label is shared: it succeeds
      exactly when the merge does and, for a merge with no rows, the probe
      raises; it holds the new rows whose identity
      the old table has and whose data differ from that old row's. */
  lemma ChangedRows(c: Comparison, probe: EmptyProbe)
    requires Valid(c) && SharedData(c)
    ensures ChangedAnnotations(c, probe).Ok? <==> Joinable(c) && (|CommonRows(c)| > 0 || probe == Unlabelled)
    ensures Joinable(c) && |CommonRows(c)| == 0 && probe == Labelled ==>
              ChangedAnnotations(c, probe) == Err(KeyError(c.idColumn))
    ensures ChangedAnnotations(c, probe).Ok? ==>
              forall row :: row in ChangedAnnotations(c, probe).value.rows <==>
                && row in c.newTable.rows && HasId(c.oldTable, c.idColumn, row[c.idColumn])
                && DataDiffer(c, row, OldRowWithId(c, row[c.idColumn]))
  {
    if Joinable(c) {
      ProbeMeaning(c);
      assert InnerJoin(c).value.rows == JoinedRows(c);
      if |CommonRows(c)| > 0 || probe == Unlabelled {
        ChangedIdsOfCommonRows(c);
        ChangedUnfolds(c, probe);
        ChangedSelection(c, DiffIds(JoinedRows(c), c.idColumn, NewLabels(c), OldLabels(c)).value);
      }
    }
  }

  /** `ids` holds exactly the identities of the shared new rows whose data
      differ from the old row with that identity. */
  ghost predicate ChangedIds(c: Comparison, ids: set<Cell>)
    requires Joinable(c)
  {
    forall x :: x in ids <==>
      exists k :: && 0 <= k < |CommonRows(c)| && CommonRows(c)[k][c.idColumn] == x
                  && DataDiffer(c, CommonRows(c)[k], OldRowWithId(c, x))
  }

  /** Selecting the new rows by the changed identities keeps exactly the
      rows the old table shares and whose data differ. */
  lemma ChangedSelection(c: Comparison, ids: set<Cell>)
    requires Joinable(c) && SharedData(c)
    requires ChangedIds(c, ids)
    ensures forall row :: row in Select(c.newTable, c.idColumn, ids, true).rows <==>
              && row in c.newTable.rows && HasId(c.oldTable, c.idColumn, row[c.idColumn])
              && DataDiffer(c, row, OldRowWithId(c, row[c.idColumn]))
  {
    var id := c.idColumn;
    forall row | row in c.newTable.rows
      ensures row[id] in ids <==>
                HasId(c.oldTable, id, row[id]) && DataDiffer(c, row, OldRowWithId(c, row[id]))
    {
      ChangedRow(c, ids, row);
    }
  }

  lemma ChangedRow(c: Comparison, ids: set<Cell>, row: Row)
    requires Joinable(c) && SharedData(c)
    requires ChangedIds(c, ids)
    requires row in c.newTable.rows
    ensures row[c.idColumn] in ids <==>
              HasId(c.oldTable, c.idColumn, row[c.idColumn]) && DataDiffer(c, row, OldRowWithId(c, row[c.idColumn]))
  {
    var id := c.idColumn;
    var common := CommonRows(c);
    if row[id] in ids {
      var k :| && 0 <= k < |common| && common[k][id] == row[id]
               && DataDiffer(c, common[k], OldRowWithId(c, row[id]));
      OnlyRowWithId(c.newTable, id, common[k], row);
    }
    if HasId(c.oldTable, id, row[id]) && DataDiffer(c, row, OldRowWithId(c, row[id])) {
      assert row in common;
      var k :| 0 <= k < |common| && common[k] == row;
    }
  }

  /** An identity carried by both tables is either changed or unchanged,
      never both; one carried by a single table is new or removed and
      neither changed nor unchanged. */
  lemma Partition(c: Comparison, x: Cell, probe: EmptyProbe)
    requires Valid(c) && ChangedAnnotations(c, probe).Ok?
    ensures c.idColumn in c.oldTable.columns
    ensures var id := c.idColumn;
            var added := NewAnnotations(c).value;
            var removed := RemovedAnnotations(c).value;
            var changed := ChangedAnnotations(c, probe).value;
            var kept := UnchangedAnnotations(c, probe).value;
            var inNew := HasId(c.newTable, id, x);
            var inOld := HasId(c.oldTable, id, x);
            && (inNew && inOld ==> && HasId(changed, id, x) != HasId(kept, id, x)
                                   && !HasId(added, id, x) && !HasId(removed, id, x))
            && (inNew && !inOld ==> && HasId(added, id, x)
                                    && !HasId(changed, id, x) && !HasId(kept, id, x))
            && (!inNew && inOld ==> && HasId(removed, id, x)
                                    && !HasId(changed, id, x) && !HasId(kept, id, x))
  {
    PartitionOf(c.newTable, c.oldTable, c.idColumn, NewAnnotations(c).value, RemovedAnnotations(c).value,
                ChangedAnnotations(c, probe).value, UnchangedAnnotations(c, probe).value, x);
  }

  /** The partition argument over any four tables that select as the views
      do. */
  lemma PartitionOf(newTable: Table, oldTable: Table, id: string,
                    added: Table, removed: Table, changed: Table, kept: Table, x: Cell)
    requires WellFormed(newTable) && WellFormed(oldTable) && id in newTable.columns && id in oldTable.columns
    requires WellFormed(added) && added.columns == newTable.columns
    requires WellFormed(removed) && removed.columns == oldTable.columns
    requires WellFormed(changed) && changed.columns == newTable.columns
    requires WellFormed(kept) && kept.columns == oldTable.columns
    requires forall row :: row in added.rows <==> row in newTable.rows && !HasId(oldTable, id, row[id])
    requires forall row :: row in removed.rows <==> row in oldTable.rows && !HasId(newTable, id, row[id])
    requires forall row :: row in changed.rows ==> row in newTable.rows && HasId(oldTable, id, row[id])
    requires forall row :: row in kept.rows <==>
               row in oldTable.rows && HasId(newTable, id, row[id]) && !HasId(changed, id, row[id])
    ensures var inNew := HasId(newTable, id, x);
            var inOld := HasId(oldTable, id, x);
            && (inNew && inOld ==> && HasId(changed, id, x) != HasId(kept, id, x)
                                   && !HasId(added, id, x) && !HasId(removed, id, x))
            && (inNew && !inOld ==> && HasId(added, id, x)
                                    && !HasId(changed, id, x) && !HasId(kept, id, x))
            && (!inNew && inOld ==> && HasId(removed, id, x)
                                    && !HasId(changed, id, x) && !HasId(kept, id, x))
  {
    if HasId(newTable, id, x) && !HasId(oldTable, id, x) {
      OnlyInOne(newTable, oldTable, id, added, changed, kept, x);
    }
    if !HasId(newTable, id, x) && HasId(oldTable, id, x) {
      OnlyInOne(oldTable, newTable, id, removed, kept, changed, x);
    }
    if HasId(newTable, id, x) && HasId(oldTable, id, x) {
      InBoth(newTable, oldTable, id, added, removed, changed, kept, x);
    }
  }

  lemma InBoth(newTable: Table, oldTable: Table, id: string,
               added: Table, removed: Table, changed: Table, kept: Table, x: Cell)
    requires WellFormed(newTable) && WellFormed(oldTable) && id in newTable.columns && id in oldTable.columns
    requires WellFormed(added) && added.columns == newTable.columns
    requires WellFormed(removed) && removed.columns == oldTable.columns
    requires WellFormed(changed) && changed.columns == newTable.columns
    requires WellFormed(kept) && kept.columns == oldTable.columns
    requires forall row :: row in added.rows ==> row in newTable.rows && !HasId(oldTable, id, row[id])
    requires forall row :: row in removed.rows ==> row in oldTable.rows && !HasId(newTable, id, row[id])
    requires forall row :: row in kept.rows <==>
               row in oldTable.rows && HasId(newTable, id, row[id]) && !HasId(changed, id, row[id])
    requires HasId(newTable, id, x) && HasId(oldTable, id, x)
    ensures HasId(changed, id, x) != HasId(kept, id, x) && !HasId(added, id, x) && !HasId(removed, id, x)
  {
    SelectedIds(newTable, added, id, x);
    SelectedIds(oldTable, removed, id, x);
    SelectedIds(oldTable, kept, id, x);
    if !HasId(changed, id, x) {
      var i :| 0 <= i < |oldTable.rows| && oldTable.rows[i][id] == x;
      assert oldTable.rows[i] in kept.rows;
      RowHasId(kept, id, oldTable.rows[i]);
    }
  }

  /** An identity only one table carries is selected by that table's
      one-sided view and by none of the views of common rows. */
  lemma OnlyInOne(t: Table, other: Table, id: string, added: Table, changed: Table, kept: Table, x: Cell)
    requires WellFormed(t) && WellFormed(other) && id in t.columns && id in other.columns
    requires WellFormed(added) && added.columns == t.columns
    requires WellFormed(changed) && changed.columns == t.columns
    requires WellFormed(kept) && kept.columns == other.columns
    requires forall row :: row in added.rows <==> row in t.rows && !HasId(other, id, row[id])
    requires forall row :: row in changed.rows ==> row in t.rows && HasId(other, id, row[id])
    requires forall row :: row in kept.rows ==> row in other.rows
    requires HasId(t, id, x) && !HasId(other, id, x)
    ensures HasId(added, id, x) && !HasId(changed, id, x) && !HasId(kept, id, x)
  {
    var i :| 0 <= i < |t.rows| && t.rows[i][id] == x;
    assert t.rows[i] in added.rows;
    RowHasId(added, id, t.rows[i]);
    SelectedIds(t, changed, id, x);
    SelectedIds(other, kept, id, x);
  }

  /** A row of a selection is a row of the table it was selected from. */
  lemma SelectedIds(t: Table, s: Table, id: string, x: Cell)
    requires WellFormed(t) && WellFormed(s) && id in t.columns && s.columns == t.columns
    requires forall row :: row in s.rows ==> row in t.rows
    ensures HasId(s, id, x) ==> exists row :: row in s.rows && row[id] == x && row in t.rows
    ensures HasId(s, id, x) ==> HasId(t, id, x)
  {
    if HasId(s, id, x) {
      var i :| 0 <= i < |s.rows| && s.rows[i][id] == x;
      assert s.rows[i] in s.rows;
      RowHasId(t, id, s.rows[i]);
    }
  }

  /** Comparing a table with itself reports nothing new, removed or changed
      and every row unchanged, provided its identities are unique and the
      suffixed labels do not collide. A table with no rows gives an empty
      merge, so under the labelled probe the two merged views raise. */
  lemma SelfComparison(t: Table, id: string, probe: EmptyProbe)
    requires Valid(Comparison(t, t, id))
    requires Distinct(Ids(t, id)) && Distinct(MergedColumns(Comparison(t, t, id)))
    ensures NewAnnotations(Comparison(t, t, id)) == Ok(Table(t.columns, []))
    ensures RemovedAnnotations(Comparison(t, t, id)) == Ok(Table(t.columns, []))
    ensures ChangedAnnotations(Comparison(t, t, id), probe)
         == if |t.rows| == 0 && probe == Labelled then Err(KeyError(id)) else Ok(Table(t.columns, []))
    ensures UnchangedAnnotations(Comparison(t, t, id), probe)
         == if |t.rows| == 0 && probe == Labelled then Err(KeyError(id)) else Ok(t)
  {
    var c := Comparison(t, t, id);
    forall i | 0 <= i < |t.rows| ensures t.rows[i][id] in IdSet(t, id) { }
    SelectByIdKeepsNone(t.rows, id, IdSet(t, id), false);
    if |t.rows| > 0 || probe == Unlabelled {
      SelfUnchanged(t, id, probe);
    } else {
      EmptySelfComparison(t, id);
    }
  }

  /** A table with no rows compared with itself: the merge is empty and the
      labelled probe answers, so the changed view raises `KeyError`. */
  lemma EmptySelfComparison(t: Table, id: string)
    requires Valid(Comparison(t, t, id)) && |t.rows| == 0
    requires Distinct(MergedColumns(Comparison(t, t, id)))
    ensures ChangedAnnotations(Comparison(t, t, id), Labelled) == Err(KeyError(id))
  {
    var c := Comparison(t, t, id);
    assert SharedData(c);
    assert Joinable(c);
    ProbeMeaning(c);
    assert InnerJoin(c).value.rows == JoinedRows(c);
  }

  lemma SelfChanged(t: Table, id: string, probe: EmptyProbe)
    requires Valid(Comparison(t, t, id))
    requires Distinct(Ids(t, id)) && Distinct(MergedColumns(Comparison(t, t, id)))
    requires |t.rows| > 0 || probe == Unlabelled
    ensures ChangedAnnotations(Comparison(t, t, id), probe) == Ok(Table(t.columns, []))
  {
    SelfChangesNoIds(t, id, probe);
    SelectNothing(t, id);
  }

  /** Selecting the rows whose identity lies in the empty set keeps none. */
  lemma SelectNothing(t: Table, id: string)
    requires WellFormed(t) && id in t.columns
    ensures Select(t, id, {}, true) == Table(t.columns, [])
  {
    SelectByIdKeepsNone(t.rows, id, {}, true);
  }

  /** In a self-comparison the set of changed identities is empty. */
  lemma SelfChangesNoIds(t: Table, id: string, probe: EmptyProbe)
    requires Valid(Comparison(t, t, id))
    requires Distinct(Ids(t, id)) && Distinct(MergedColumns(Comparison(t, t, id)))
    requires |t.rows| > 0 || probe == Unlabelled
    ensures ChangedAnnotations(Comparison(t, t, id), probe) == Ok(Select(t, id, {}, true))
  {
    var c := Comparison(t, t, id);
    assert Joinable(c);
    assert SharedData(c);
    SelfRowsAgree(t, id);
    if |t.rows| > 0 {
      RowHasId(t, id, t.rows[0]);
      assert t.rows[0] in CommonRows(c);
    }
    NothingChanged(c, probe);
  }

  /** In a self-comparison every common row is matched with itself, so no
      row's data differ. */
  lemma SelfRowsAgree(t: Table, id: string)
    requires Valid(Comparison(t, t, id))
    requires Distinct(Ids(t, id)) && Distinct(MergedColumns(Comparison(t, t, id)))
    ensures NoDataDiffer(Comparison(t, t, id))
  {
    var c := Comparison(t, t, id);
    var common := CommonRows(c);
    forall k | 0 <= k < |common|
      ensures !DataDiffer(c, common[k], OldRowWithId(c, common[k][id]))
    {
      var rn := common[k];
      assert rn in common;
      var ro := OldRowWithId(c, rn[id]);
      OnlyRowWithId(t, id, rn, ro);
    }
  }

  /** No common row's data differ from those of the old row with its
      identity. */
  predicate NoDataDiffer(c: Comparison)
    requires Joinable(c)
  {
    forall k :: 0 <= k < |CommonRows(c)| ==>
      !DataDiffer(c, CommonRows(c)[k], OldRowWithId(c, CommonRows(c)[k][c.idColumn]))
  }

  /** When no common row's data differ, no identity is changed. */
  lemma NothingChanged(c: Comparison, probe: EmptyProbe)
    requires Joinable(c) && SharedData(c)
    requires |CommonRows(c)| > 0 || probe == Unlabelled
    requires NoDataDiffer(c)
    ensures MergedColumns(c)[0] == c.idColumn
    ensures DiffIds(JoinedRows(c), c.idColumn, NewLabels(c), OldLabels(c)) == Ok({})
    ensures ChangedAnnotations(c, probe) == Ok(Select(c.newTable, c.idColumn, {}, true))
  {
    var id := c.idColumn;
    var common := CommonRows(c);
    var j := JoinedRows(c);
    assert MergedColumns(c)[0] == id;
    forall k | 0 <= k < |j| ensures RowDiffers(j[k], NewLabels(c), OldLabels(c)) == Ok(false) {
      JoinedRowAt(c, k);
      MergedRowDiffers(c, common[k], OldRowWithId(c, common[k][id]));
    }
    DiffIdsNone(j, id, NewLabels(c), OldLabels(c));
    ProbeMeaning(c);
    ChangedUnfolds(c, probe);
  }

  lemma {:induction false} DiffIdsNone(rows: seq<Row>, id: string, a: seq<string>, b: seq<string>)
    requires forall k :: 0 <= k < |rows| ==> id in rows[k] && RowDiffers(rows[k], a, b) == Ok(false)
    ensures DiffIds(rows, id, a, b) == Ok({})
    decreases |rows|
  {
    if |rows| > 0 {
      assert forall k :: 0 < k < |rows| ==> rows[k] == rows[1..][k - 1];
      DiffIdsNone(rows[1..], id, a, b);
    }
  }

  lemma ChangedUnfolds(c: Comparison, probe: EmptyProbe)
    requires Joinable(c)
    requires |JoinedRows(c)| > 0 || !ProbeAnswers(c, probe)
    requires MergedColumns(c)[0] == c.idColumn
    requires DiffIds(JoinedRows(c), c.idColumn, NewLabels(c), OldLabels(c)).Ok?
    ensures ChangedAnnotations(c, probe)
         == Ok(Select(c.newTable, c.idColumn, DiffIds(JoinedRows(c), c.idColumn, NewLabels(c), OldLabels(c)).value, true))
  {
  }

  lemma SelfUnchanged(t: Table, id: string, probe: EmptyProbe)
    requires Valid(Comparison(t, t, id))
    requires Distinct(Ids(t, id)) && Distinct(MergedColumns(Comparison(t, t, id)))
    requires |t.rows| > 0 || probe == Unlabelled
    ensures ChangedAnnotations(Comparison(t, t, id), probe) == Ok(Table(t.columns, []))
    ensures UnchangedAnnotations(Comparison(t, t, id), probe) == Ok(t)
  {
    var c := Comparison(t, t, id);
    SelfChanged(t, id, probe);
    SelfUnchangedGiven(t, id);
  }

  lemma SelfUnchangedGiven(t: Table, id: string)
    requires Valid(Comparison(t, t, id))
    ensures UnchangedGiven(Comparison(t, t, id), Table(t.columns, [])) == t
  {
    SelfUnchangedIds(t, id);
    forall i | 0 <= i < |t.rows| ensures t.rows[i][id] in IdSet(t, id) { }
    SelectByIdKeepsAll(t.rows, id, IdSet(t, id), true);
  }

  /** Compared with itself and with nothing changed, every identity of the
      table is unchanged. */
  lemma SelfUnchangedIds(t: Table, id: string)
    requires Valid(Comparison(t, t, id))
    ensures UnchangedIds(Comparison(t, t, id), Table(t.columns, [])) == IdSet(t, id)
  {
    var c := Comparison(t, t, id);
    RemovedIds(c);
    assert IdSet(RemovedAnnotations(c).value, id) == {};
    assert IdSet(Table(t.columns, []), id) == {};
  }

  /** The one-to-one check runs only when a merged view is needed: with a
      repeated identity the comparison is built and the one-sided views
      succeed, while the changed and unchanged views fail. */
  lemma DuplicateIdsFailLazily(newTable: Table, oldTable: Table, id: string, probe: EmptyProbe)
    requires WellFormed(newTable) && WellFormed(oldTable)
    requires id in newTable.columns && id in oldTable.columns
    requires exists x :: x in newTable.columns && x != id
    requires !Distinct(Ids(oldTable, id))
    ensures NewComparison(newTable, oldTable, id).Ok?
    ensures var c := NewComparison(newTable, oldTable, id).value;
            && NewAnnotations(c).Ok? && RemovedAnnotations(c).Ok?
            && ChangedAnnotations(c, probe) == Err(MergeError)
            && UnchangedAnnotations(c, probe) == Err(MergeError)
  {
  }
}

=== FILE: column_fill.dfy ===
/** `fill_column_from_above` (tablebridge/comparison.py:6-40): carry the last
    non-missing value of one column down over the missing cells below it.
    The source copies the frame only when `inplace` is true (the flag works
    the opposite way to its docstring); here it is a pure function that
    returns the filled table, which is what both settings return. */
module ColumnFill {
  import opened Outcomes
  import opened Tables

  /** `pd.isna` of a list of two or more elements is an array, and testing
      it with `if` raises `ValueError`. */
  predicate AmbiguousNa(c: Cell) {
    c.Point? && |c.coords| >= 2
  }

  /** Reference definition: the nearest non-missing cell above position `i`,
      or `carry` when every cell above is missing. */
  function Above(cells: seq<Cell>, i: nat, carry: Cell): Cell
    requires i <= |cells|
    decreases i
  {
    if i == 0 then carry
    else if !IsMissing(cells[i - 1]) then cells[i - 1]
    else Above(cells, i - 1, carry)
  }

  /** Dropping the first cell moves the carry to what the first cell leaves. */
  lemma {:induction false} AboveShift(cells: seq<Cell>, i: nat, carry: Cell)
    requires 1 <= i <= |cells|
    ensures Above(cells, i, carry)
         == Above(cells[1..], i - 1, if IsMissing(cells[0]) then carry else cells[0])
    decreases i
  {
    if i > 1 {
      AboveShift(cells, i - 1, carry);
    }
  }

  lemma {:induction false} AboveAllMissing(cells: seq<Cell>, i: nat, carry: Cell)
    requires i <= |cells|
    requires forall j :: 0 <= j < i ==> IsMissing(cells[j])
    ensures Above(cells, i, carry) == carry
    decreases i
  {
    if i > 0 {
      AboveAllMissing(cells, i - 1, carry);
    }
  }

  /** The loop over the column: a missing cell takes the carried value, any
      other cell becomes the new carried value. */
  function FillCells(cells: seq<Cell>, carry: Cell): (out: seq<Cell>)
    ensures |out| == |cells|
    ensures forall i :: 0 <= i < |cells| && !IsMissing(cells[i]) ==> out[i] == cells[i]
    ensures forall i :: 0 <= i < |cells| && IsMissing(cells[i]) ==> out[i] == Above(cells, i, carry)
    decreases |cells|
  {
    if |cells| == 0 then []
    else
      var next := if IsMissing(cells[0]) then carry else cells[0];
      var rest := FillCells(cells[1..], next);
      forall i | 1 <= i < |cells| && IsMissing(cells[i])
        ensures rest[i - 1] == Above(cells, i, carry)
      {
        AboveShift(cells, i, carry);
      }
      [next] + rest
  }

  /** Once the first cell is present, the initial carry no longer matters. */
  lemma FillCellsFirstPresent(cells: seq<Cell>, k1: Cell, k2: Cell)
    requires |cells| > 0 && !IsMissing(cells[0])
    ensures FillCells(cells, k1) == FillCells(cells, k2)
  {
  }

  /** Filling a filled column with the same carry changes nothing. */
  lemma {:induction false} FillCellsIdempotent(cells: seq<Cell>, carry: Cell)
    ensures FillCells(FillCells(cells, carry), carry) == FillCells(cells, carry)
    decreases |cells|
  {
    if |cells| > 0 {
      var out := FillCells(cells, carry);
      var next := if IsMissing(cells[0]) then carry else cells[0];
      FillCellsIdempotent(cells[1..], next);
      assert out[1..] == FillCells(cells[1..], next);
      assert out[0] == next;
      var next2 := if IsMissing(out[0]) then carry else out[0];
      assert next2 == next;
    }
  }

  /** The value carried into the first row: the first cell if present, else
      `starting_value` when it is truthy, else the missing marker. */
  function InitialCarry(first: Cell, startingValue: Cell): Cell {
    if !IsMissing(first) then first
    else if Truthy(startingValue) then startingValue
    else Missing
  }

  /** What a successful fill promises: same shape, only `column` changes,
      present cells stay, each missing cell takes the nearest present value
      above it, and a leading run of missing cells takes a truthy starting
      value or stays missing. */
  ghost predicate FilledFrom(t: Table, column: string, startingValue: Cell, f: Table)
    requires WellFormed(t) && column in t.columns && |t.rows| > 0
  {
    && WellFormed(f) && f.columns == t.columns && |f.rows| == |t.rows|
    && (forall i :: 0 <= i < |t.rows| ==> f.rows[i] == t.rows[i][column := f.rows[i][column]])
    && (forall i :: 0 <= i < |t.rows| && !IsMissing(t.rows[i][column]) ==>
          f.rows[i][column] == t.rows[i][column])
    && (forall i :: 0 <= i < |t.rows| && IsMissing(t.rows[i][column]) ==>
          f.rows[i][column] == Above(Column(t.rows, column), i, InitialCarry(t.rows[0][column], startingValue)))
    && (forall i :: 0 <= i < |t.rows| && (forall j :: 0 <= j <= i ==> IsMissing(t.rows[j][column])) ==>
          f.rows[i][column] == if Truthy(startingValue) then startingValue else Missing)
  }

  lemma FilledTableIsFilled(t: Table, column: string, startingValue: Cell)
    requires WellFormed(t) && column in t.columns && |t.rows| > 0
    ensures var cells := Column(t.rows, column);
            var out := FillCells(cells, InitialCarry(cells[0], startingValue));
            FilledFrom(t, column, startingValue, Table(t.columns, ReplaceColumn(t.rows, column, out)))
  {
    var cells := Column(t.rows, column);
    var carry := InitialCarry(cells[0], startingValue);
    var out := FillCells(cells, carry);
    forall i | 0 <= i < |t.rows| && (forall j :: 0 <= j <= i ==> IsMissing(t.rows[j][column]))
      ensures out[i] == if Truthy(startingValue) then startingValue else Missing
    {
      AboveAllMissing(cells, i, carry);
    }
  }

  function FillColumnFromAbove(t: Table, column: string, startingValue: Cell): (r: Result<Table>)
    requires WellFormed(t)
    ensures column !in t.columns ==> r == Err(KeyError(column))
    ensures column in t.columns && |t.rows| == 0 ==> r == Err(IndexError)
    ensures r.Err? <==> (|| column !in t.columns || |t.rows| == 0
                         || exists i :: 0 <= i < |t.rows| && AmbiguousNa(t.rows[i][column]))
    ensures r.Ok? ==> FilledFrom(t, column, startingValue, r.value)
  {
    if column !in t.columns then Err(KeyError(column))
    else if |t.rows| == 0 then Err(IndexError)
    else
      var cells := Column(t.rows, column);
      if exists i :: 0 <= i < |cells| && AmbiguousNa(cells[i]) then
        Err(ValueError("The truth value of an array is ambiguous"))
      else
        var out := FillCells(cells, InitialCarry(cells[0], startingValue));
        FilledTableIsFilled(t, column, startingValue);
        Ok(Table(t.columns, ReplaceColumn(t.rows, column, out)))
  }

  /** Filling twice is filling once, unless the starting value is itself a
      list that `pd.isna` cannot test. */
  lemma FillIdempotent(t: Table, column: string, startingValue: Cell)
    requires WellFormed(t)
    requires FillColumnFromAbove(t, column, startingValue).Ok?
    requires !AmbiguousNa(startingValue)
    ensures var once := FillColumnFromAbove(t, column, startingValue).value;
            FillColumnFromAbove(once, column, startingValue) == Ok(once)
  {
    var cells := Column(t.rows, column);
    var carry := InitialCarry(cells[0], startingValue);
    var out := FillCells(cells, carry);
    var once := Table(t.columns, ReplaceColumn(t.rows, column, out));
    assert FillColumnFromAbove(t, column, startingValue) == Ok(once);
    assert Column(once.rows, column) == out;
    FilledNotAmbiguous(cells, carry);
    var carry2 := InitialCarry(out[0], startingValue);
    if IsMissing(out[0]) {
      assert carry2 == carry;
    } else {
      FillCellsFirstPresent(out, carry2, carry);
    }
    FillCellsIdempotent(cells, carry);
    assert FillCells(out, carry2) == out;
    ReplaceOwnColumn(once.rows, column);
  }

  /** Filling brings in no list that `pd.isna` cannot test unless the carry
      or the column already held one. */
  lemma FilledNotAmbiguous(cells: seq<Cell>, carry: Cell)
    requires !AmbiguousNa(carry)
    requires forall i :: 0 <= i < |cells| ==> !AmbiguousNa(cells[i])
    ensures forall i :: 0 <= i < |cells| ==> !AmbiguousNa(FillCells(cells, carry)[i])
  {
    forall i | 0 <= i < |cells| && IsMissing(cells[i])
      ensures !AmbiguousNa(Above(cells, i, carry))
    {
      AboveIsFromColumnOrCarry(cells, i, carry);
    }
  }

  /** The nearest value above is the carry or a cell of the column. */
  lemma {:induction false} AboveIsFromColumnOrCarry(cells: seq<Cell>, i: nat, carry: Cell)
    requires i <= |cells|
    ensures Above(cells, i, carry) == carry
         || exists j :: 0 <= j < i && Above(cells, i, carry) == cells[j]
    decreases i
  {
    if i > 0 && IsMissing(cells[i - 1]) {
      AboveIsFromColumnOrCarry(cells, i - 1, carry);
    }
  }

  // ---------------------------------------------------------------------
  // The caller's frame (lines 25-40). The source copies the frame only when
  // `inplace` is set, which inverts its docstring: the default call writes
  // into the caller's frame, and one that stops with `ValueError` part-way
  // leaves the cells it already filled there.

  /** The first position whose cell `pd.isna` cannot test, or the column's
      length when there is none. */
  function FirstAmbiguous(cells: seq<Cell>): (k: nat)
    ensures k <= |cells|
    ensures forall i :: 0 <= i < k ==> !AmbiguousNa(cells[i])
    ensures k < |cells| ==> AmbiguousNa(cells[k])
    decreases |cells|
  {
    if |cells| == 0 then 0
    else if AmbiguousNa(cells[0]) then 0
    else 1 + FirstAmbiguous(cells[1..])
  }

  /** What the loop leaves in the frame it writes to: the cells before the
      first untestable one filled, the rest as they were. An untestable
      first cell raises before the loop starts. */
  function LoopWrites(cells: seq<Cell>, startingValue: Cell): (out: seq<Cell>)
    requires |cells| > 0
    ensures |out| == |cells|
    ensures forall i :: FirstAmbiguous(cells) <= i < |cells| ==> out[i] == cells[i]
    ensures forall i :: 0 <= i < FirstAmbiguous(cells) && !IsMissing(cells[i]) ==> out[i] == cells[i]
    ensures forall i :: 0 <= i < FirstAmbiguous(cells) && IsMissing(cells[i]) ==>
              out[i] == Above(cells, i, InitialCarry(cells[0], startingValue))
  {
    var k := FirstAmbiguous(cells);
    if k == 0 then cells
    else
      var carry := InitialCarry(cells[0], startingValue);
      forall i | 0 <= i < k ensures Above(cells[..k], i, carry) == Above(cells, i, carry) {
        AbovePrefix(cells, k, i, carry);
      }
      FillCells(cells[..k], carry) + cells[k..]
  }

  /** The nearest value above `i` does not look below `i`. */
  lemma {:induction false} AbovePrefix(cells: seq<Cell>, k: nat, i: nat, carry: Cell)
    requires i <= k <= |cells|
    ensures Above(cells[..k], i, carry) == Above(cells, i, carry)
    decreases i
  {
    if i > 0 {
      AbovePrefix(cells, k, i - 1, carry);
    }
  }

  /** The frame the call writes to, once it gets past the column lookup and
      `iloc[0]`. */
  function WrittenFrame(t: Table, column: string, startingValue: Cell): (w: Table)
    requires WellFormed(t) && column in t.columns && |t.rows| > 0
  {
    Table(t.columns, ReplaceColumn(t.rows, column, LoopWrites(Column(t.rows, column), startingValue)))
  }

  /** When the call succeeds, the frame it wrote to is the frame it
      returns. */
  lemma WrittenFrameIsResult(t: Table, column: string, startingValue: Cell)
    requires WellFormed(t) && FillColumnFromAbove(t, column, startingValue).Ok?
    ensures column in t.columns && |t.rows| > 0
    ensures WrittenFrame(t, column, startingValue) == FillColumnFromAbove(t, column, startingValue).value
  {
    var cells := Column(t.rows, column);
    assert FirstAmbiguous(cells) == |cells|;
    assert cells[..|cells|] == cells;
  }

  /** The caller's frame after `fill_column_from_above(df, column,
      starting_value, inplace)` as the source is written: untouched when
      `inplace` is set, written to otherwise. */
  function CallerFrameAsWritten(t: Table, column: string, startingValue: Cell, inplace: bool): (caller: Table)
    requires WellFormed(t)
  {
    if inplace || column !in t.columns || |t.rows| == 0 then t
    else WrittenFrame(t, column, startingValue)
  }

  /** The caller's frame as the docstring describes the flag: written to
      only when `inplace` is set. */
  function CallerFrame(t: Table, column: string, startingValue: Cell, inplace: bool): (caller: Table)
    requires WellFormed(t)
  {
    if !inplace || column !in t.columns || |t.rows| == 0 then t
    else WrittenFrame(t, column, startingValue)
  }

  /** With the flag read as documented, the default call leaves the caller's
      frame alone and an in-place call that succeeds leaves it equal to the
      result. */
  lemma CallerFrameFollowsFlag(t: Table, column: string, startingValue: Cell, inplace: bool)
    requires WellFormed(t)
    ensures !inplace ==> CallerFrame(t, column, startingValue, inplace) == t
    ensures inplace && FillColumnFromAbove(t, column, startingValue).Ok? ==>
              CallerFrame(t, column, startingValue, inplace) == FillColumnFromAbove(t, column, startingValue).value
  {
    if inplace && FillColumnFromAbove(t, column, startingValue).Ok? {
      WrittenFrameIsResult(t, column, startingValue);
    }
  }

  /** As written, the flag has the opposite effect, for every input. */
  lemma CallerFrameAsWrittenInverted(t: Table, column: string, startingValue: Cell, inplace: bool)
    requires WellFormed(t)
    ensures CallerFrameAsWritten(t, column, startingValue, inplace) == CallerFrame(t, column, startingValue, !inplace)
  {
  }

  /** A column `a` holding 1 and then a missing cell: the default call fills
      the caller's frame, while `inplace=True` leaves it unfilled although the
      returned frame is filled. */
  lemma DefaultCallWritesCallerFrame()
    ensures var t := Table(["a"], [map["a" := Int(1)], map["a" := Missing]]);
            && WellFormed(t)
            && CallerFrameAsWritten(t, "a", Missing, false) != t
            && CallerFrameAsWritten(t, "a", Missing, true) == t
            && FillColumnFromAbove(t, "a", Missing).Ok?
            && FillColumnFromAbove(t, "a", Missing).value != t
  {
    var t := Table(["a"], [map["a" := Int(1)], map["a" := Missing]]);
    assert Column(t.rows, "a") == [Int(1), Missing];
    var filled := FillColumnFromAbove(t, "a", Missing).value;
    assert filled.rows[1]["a"] == Int(1);
    assert t.rows[1]["a"] == Missing;
    WrittenFrameIsResult(t, "a", Missing);
  }

  /** A call that stops with `ValueError` has already filled the missing
      cells above the untestable one in the frame it wrote to. */
  lemma PartialFillOnError()
    ensures var t := Table(["a"], [map["a" := Int(1)], map["a" := Missing], map["a" := Point([1, 2])]]);
            && WellFormed(t)
            && FillColumnFromAbove(t, "a", Missing).Err?
            && CallerFrameAsWritten(t, "a", Missing, false).rows[1]["a"] == Int(1)
  {
    var t := Table(["a"], [map["a" := Int(1)], map["a" := Missing], map["a" := Point([1, 2])]]);
    var cells := Column(t.rows, "a");
    assert cells == [Int(1), Missing, Point([1, 2])];
    assert AmbiguousNa(cells[2]);
    assert FirstAmbiguous(cells) == 2 by {
      assert FirstAmbiguous(cells[2..]) == 0;
      assert cells[1..][1..] == cells[2..];
    }
    assert Above(cells, 1, InitialCarry(cells[0], Missing)) == Int(1);
  }
}

=== FILE: decimal.dfy ===
/** Decimal rendering and parsing of integers, as Python's `str(int)`,
    f-string interpolation and `int(str)` do it for ASCII digits. */
module Decimal {

  predicate IsDigit(c: char) {
    '0' <= c <= '9'
  }

  predicate AllDigits(s: string) {
    forall k :: 0 <= k < |s| ==> IsDigit(s[k])
  }

  function DigitChar(d: nat): (c: char)
    requires d < 10
    ensures IsDigit(c)
  {
    "0123456789"[d]
  }

  function DigitValue(c: char): (d: nat)
    requires IsDigit(c)
    ensures d < 10
  {
    (c as int - '0' as int) as nat
  }

  /** `str(n)` for a non-negative integer: no leading zeros, "0" for zero. */
  function NatToString(n: nat): (s: string)
    ensures |s| > 0 && AllDigits(s)
    decreases n
  {
    if n < 10 then [DigitChar(n)] else NatToString(n / 10) + [DigitChar(n % 10)]
  }

  /** `str(i)` for any integer: a leading '-' for negatives. */
  function IntToString(i: int): (s: string)
    ensures |s| > 0
    ensures i >= 0 ==> AllDigits(s)
    ensures i < 0 ==> s[0] == '-' && AllDigits(s[1..])
  {
    if i < 0 then "-" + NatToString(-i) else NatToString(i)
  }

  /** `int(s)` for a string of ASCII digits (leading zeros allowed). */
  function ParseNat(s: string): nat
    requires AllDigits(s)
  {
    if |s| == 0 then 0 else 10 * ParseNat(s[..|s| - 1]) + DigitValue(s[|s| - 1])
  }

  /** Parsing what `NatToString` renders gives the number back. */
  lemma {:induction false} ParseNatToString(n: nat)
    ensures ParseNat(NatToString(n)) == n
    decreases n
  {
    var s := NatToString(n);
    if n >= 10 {
      ParseNatToString(n / 10);
      assert s[..|s| - 1] == NatToString(n / 10);
    }
  }
}

=== FILE: generators.dfy ===
/** tablebridge/comparison_functions.py: value generators used as function
    rules of a conversion schema, through `df.apply(g, axis=1)`. The counter
    keeps its position between calls, so here a call returns the value
    together with the generator's next state. */
module Generators {
  import opened Tables
  import Decimal

  datatype Generator =
    | Nanf                                         // `nanf`: missing for every row
    | Constant(value: Cell)                        // `constant(value)`
    | CountFrom(next: int, step: int, prefix: string)
                                                   // `count_from`, about to yield `next`
    | RowFunction(f: Row -> Cell)                  // any other per-row function

  /** `count_from(start, step, prefix)`: a fresh counter. A `None` prefix is
      modelled as the empty prefix; both are falsy. */
  function CountFromFactory(start: int, step: int, prefix: string): Generator {
    CountFrom(start, step, prefix)
  }

  /** What the counter yields for `n`: `f"{prefix}{n}"` when the prefix is
      truthy, the bare number otherwise. */
  function Counted(n: int, prefix: string): (c: Cell)
    ensures prefix != "" ==>
              && c.Text? && |c.s| > |prefix|
              && c.s[..|prefix|] == prefix && c.s[|prefix|..] == Decimal.IntToString(n)
    ensures prefix == "" ==> c == Int(n)
  {
    if prefix != "" then Text(prefix + Decimal.IntToString(n)) else Int(n)
  }

  /** One call of the generator on one row: the value and the next state. */
  function Call(g: Generator, row: Row): (Cell, Generator) {
    match g
    case Nanf => (Missing, g)
    case Constant(v) => (v, g)
    case CountFrom(n, step, prefix) => (Counted(n, prefix), CountFrom(n + step, step, prefix))
    case RowFunction(f) => (f(row), g)
  }

  /** `df.apply(g, axis=1)`: one call per row, top to bottom, threading the
      generator's state. */
  function Run(g: Generator, rows: seq<Row>): (r: (seq<Cell>, Generator))
    ensures |r.0| == |rows|
    decreases |rows|
  {
    if |rows| == 0 then ([], g)
    else
      var first := Call(g, rows[0]);
      var rest := Run(first.1, rows[1..]);
      ([first.0] + rest.0, rest.1)
  }

  /** `nanf` yields the missing marker for every row. */
  lemma {:induction false} NanfRun(rows: seq<Row>)
    ensures forall k :: 0 <= k < |rows| ==> Run(Nanf, rows).0[k] == Missing
    decreases |rows|
  {
    if |rows| > 0 {
      NanfRun(rows[1..]);
    }
  }

  /** `constant(v)` yields `v` for every row, whatever the row holds. */
  lemma {:induction false} ConstantRun(v: Cell, rows: seq<Row>)
    ensures forall k :: 0 <= k < |rows| ==> Run(Constant(v), rows).0[k] == v
    decreases |rows|
  {
    if |rows| > 0 {
      ConstantRun(v, rows[1..]);
    }
  }

  /** The k-th call (from 0) of `count_from(start, step, prefix)` yields
      `start + k * step`, and afterwards the counter stands at
      `start + |rows| * step`. */
  lemma {:induction false} CountFromRun(start: int, step: int, prefix: string, rows: seq<Row>)
    ensures forall k :: 0 <= k < |rows| ==> Run(CountFrom(start, step, prefix), rows).0[k] == Counted(start + k * step, prefix)
    ensures Run(CountFrom(start, step, prefix), rows).1 == CountFrom(start + |rows| * step, step, prefix)
    decreases |rows|
  {
    if |rows| > 0 {
      var g' := CountFrom(start + step, step, prefix);
      CountFromRun(start + step, step, prefix, rows[1..]);
      var r := Run(CountFrom(start, step, prefix), rows);
      var r' := Run(g', rows[1..]);
      forall k | 0 <= k < |rows|
        ensures r.0[k] == Counted(start + k * step, prefix)
      {
        if k > 0 {
          assert r.0[k] == r'.0[k - 1];
          StepShift(start, step, k);
        }
      }
      StepShift(start, step, |rows|);
    }
  }

  lemma StepShift(start: int, step: int, k: int)
    ensures (start + step) + (k - 1) * step == start + k * step
  {
    calc {
      (k - 1) * step;
      k * step - 1 * step;
    }
  }

  /** A run over more rows continues where a run over fewer left off: the
      state is carried from one call to the next and never reset. */
  lemma {:induction false} RunSplits(g: Generator, a: seq<Row>, b: seq<Row>)
    ensures Run(g, a + b).0 == Run(g, a).0 + Run(Run(g, a).1, b).0
    ensures Run(g, a + b).1 == Run(Run(g, a).1, b).1
    decreases |a|
  {
    if |a| > 0 {
      var g' := Call(g, a[0]).1;
      assert (a + b)[1..] == a[1..] + b;
      assert (a + b)[0] == a[0];
      RunSplits(g', a[1..], b);
      assert Run(g, a + b).0 == [Call(g, a[0]).0] + Run(g', a[1..] + b).0;
      assert Run(g, a).0 == [Call(g, a[0]).0] + Run(g', a[1..]).0;
    } else {
      assert a + b == b;
    }
  }

  /** `df.apply(g, axis=1)` on a frame with `rows` and `width` columns: the
      column it yields and the generator's state afterwards. A frame with
      rows and columns gets one call per row, top to bottom. pandas treats a
      frame with no rows or no columns as empty and first calls `g` once on a
      probe row, to tell whether `g` reduces; the generators here never
      return a Series, so it does. A frame with no rows then gets an empty
      column. One with rows but no columns gets a second call, on an empty
      Series, whose value fills every row. */
  function ApplyRows(g: Generator, rows: seq<Row>, width: nat): (r: (seq<Cell>, Generator))
    ensures |r.0| == |rows|
  {
    if |rows| > 0 && width > 0 then Run(g, rows)
    else
      var probe := Call(g, map[]);
      if |rows| == 0 then ([], probe.1)
      else
        var second := Call(probe.1, map[]);
        (seq(|rows|, _ => second.0), second.1)
  }

  /** How many times `df.apply` calls the generator: once per row, but once
      on a frame without rows and twice on a frame with rows and no columns. */
  function Calls(rows: nat, width: nat): nat {
    if rows == 0 then 1 else if width == 0 then 2 else rows
  }

  /** Applied through `df.apply`, a `count_from` counter numbers the rows
      consecutively when the frame has columns. On a frame with rows and no
      columns every row gets the value of the second call. The counter ends
      one step on per call. */
  lemma CountFromApplied(start: int, step: int, prefix: string, rows: seq<Row>, width: nat)
    ensures forall k :: 0 <= k < |rows| ==>
              ApplyRows(CountFrom(start, step, prefix), rows, width).0[k]
                == Counted(start + (if width == 0 then 1 else k) * step, prefix)
    ensures ApplyRows(CountFrom(start, step, prefix), rows, width).1
         == CountFrom(start + Calls(|rows|, width) * step, step, prefix)
  {
    CountFromRun(start, step, prefix, rows);
  }

  /** The value `df.apply` gives row `k` for a counter; `blank` says the
      frame has no columns. */
  lemma CountFromAppliedAt(start: int, step: int, prefix: string, rows: seq<Row>, width: nat, blank: bool, k: nat)
    requires k < |rows| && (blank <==> width == 0)
    ensures ApplyRows(CountFrom(start, step, prefix), rows, width).0[k]
         == Counted(start + (if blank then 1 else k) * step, prefix)
  {
    CountFromApplied(start, step, prefix, rows, width);
  }

  /** Generators other than `count_from` keep no position. */
  lemma StatelessApplied(g: Generator, rows: seq<Row>, width: nat)
    requires !g.CountFrom?
    ensures ApplyRows(g, rows, width).1 == g
  {
    StatelessRun(g, rows);
  }

  /** Nothing `df.apply` does to `nanf` or `constant(v)` changes what they
      yield in any row. */
  lemma StatelessValues(g: Generator, rows: seq<Row>, width: nat)
    requires g.Nanf? || g.Constant?
    ensures forall k :: 0 <= k < |rows| ==>
              ApplyRows(g, rows, width).0[k] == if g.Nanf? then Missing else g.value
  {
    if g.Nanf? {
      NanfRun(rows);
    } else {
      ConstantRun(g.value, rows);
    }
  }

  lemma {:induction false} StatelessRun(g: Generator, rows: seq<Row>)
    requires !g.CountFrom?
    ensures Run(g, rows).1 == g
    decreases |rows|
  {
    if |rows| > 0 {
      StatelessRun(g, rows[1..]);
    }
  }

  /** The object form of `count_from`'s closure: the position lives in a
      field, and each step agrees with `Call` on the matching `CountFrom`
      state, so a sequence of steps is a `Run`. */
  class Counter {
    var next: int
    const step: int
    const prefix: string

    constructor (start: int, step: int, prefix: string)
      ensures this.next == start && this.step == step && this.prefix == prefix
    {
      this.next := start;
      this.step := step;
      this.prefix := prefix;
    }

    method Next() returns (c: Cell)
      modifies this
      ensures c == Counted(old(next), prefix)
      ensures next == old(next) + step
      ensures (c, CountFrom(next, step, prefix)) == Call(CountFrom(old(next), step, prefix), map[])
    {
      c := Counted(next, prefix);
      next := next + step;
    }
  }

  /** Two counters made by two `count_from` calls own separate positions:
      stepping one leaves the other where it was. */
  method SeparateCounters(start: int, step: int, prefix: string) returns (first: Cell, second: Cell, again: Cell)
    ensures first == Counted(start, prefix) && second == Counted(start, prefix)
    ensures again == Counted(start + step, prefix)
  {
    var a := new Counter(start, step, prefix);
    var b := new Counter(start, step, prefix);
    first := a.Next();
    second := b.Next();
    again := a.Next();
  }
}

=== FILE: outcomes.dfy ===
/** Failure-compatible result type for the operations of the model. Each
    Python exception the modelled code can raise becomes one `Error`. */
module Outcomes {

  datatype Option<+T> = None | Some(value: T)

  /** The exceptions the modelled code raises, by Python class. */
  datatype Error =
    | KeyError(key: string)     // a column label that is not present
    | IndexError                // positional access past the end
    | ValueError(reason: string)
    | MergeError                // `validate="1:1"` found a repeated key
    | AttributeError            // `.groups()` on the `None` of a failed search

  datatype Result<+T> = Ok(value: T) | Err(error: Error) {

    predicate IsFailure() {
      Err?
    }

    function PropagateFailure<U>(): Result<U>
      requires Err?
    {
      Err(error)
    }

    function Extract(): T
      requires Ok?
    {
      value
    }
  }
}

=== FILE: processing.dfy ===
/** tablebridge/processing.py: the sheet-independent helpers of the
    spreadsheet table (A1 ranges, column and row mappings, records read from
    a sheet, request bodies written to it). */
module Processing {
  import opened Outcomes
  import opened Tables
  import opened Regex
  import opened Decimal
  import Utils
  import SheetColumns

  // ---------------------------------------------------------------- ranges

  /** The text of the optional second row of a range: empty when absent. */
  function RowText(r: Option<int>): string {
    match r
    case None => ""
    case Some(n) => IntToString(n)
  }

  /** The unqualified `{c0}{r0}:{c1}{r1}` part of a range. */
  function CellRange(rows: (int, Option<int>), columns: (string, string)): string {
    columns.0 + IntToString(rows.0) + ":" + columns.1 + RowText(rows.1)
  }

  /** `set_range(rows, columns, sheet_name)`: the A1 range, prefixed by the
      sheet name and '!' when one is given. */
  function SetRange(rows: (int, Option<int>), columns: (string, string), sheet: Option<string>): (s: string)
    ensures sheet.None? ==> s == CellRange(rows, columns)
    ensures sheet.Some? ==>
              && |s| == |sheet.value| + 1 + |CellRange(rows, columns)|
              && s[..|sheet.value|] == sheet.value
              && s[|sheet.value|] == '!'
              && s[|sheet.value| + 1..] == CellRange(rows, columns)
  {
    match sheet
    case None => CellRange(rows, columns)
    case Some(name) => name + "!" + CellRange(rows, columns)
  }

  /** `(.*)!([A-Z]*)(\d*):` */
  const RangePattern: seq<Item> := [
    Item(NotNewline, 0, None), Item(Exactly('!'), 1, Some(1)),
    Item(Upper, 0, None), Item(Digit, 0, None), Item(Exactly(':'), 1, Some(1))
  ]

  /** What `int` raises on the empty row group. */
  const EmptyRowLiteral: Error := ValueError("invalid literal for int() with base 10: ''")

  /** The (row, column, sheet) triple read from a match of `RangePattern`,
      or the error of `int("")` when the row group is empty. */
  function RangeOf(s: string, j: nat, cs: seq<nat>): (r: Result<(int, string, string)>)
    requires Matches(s, j, RangePattern, cs)
    ensures r.Err? ==> r.error == EmptyRowLiteral
    ensures r.Ok? ==> r.value.0 >= 0 && Utils.AllUpper(r.value.1) && '\n' !in r.value.2
  {
    var rowDigits := Group(s, j, RangePattern, cs, 3);
    var sheet := Group(s, j, RangePattern, cs, 0);
    assert forall x :: 0 <= x < |sheet| ==> sheet[x] != '\n';
    if |rowDigits| == 0 then Err(EmptyRowLiteral)
    else Ok((ParseNat(rowDigits) as int, Group(s, j, RangePattern, cs, 2), sheet))
  }

  /** `parse_range(range_str)`: the first row, first column and sheet name of
      a sheet-qualified range. `re.search` gives `None` when nothing matches,
      and `.groups()` on it raises `AttributeError`. */
  function ParseRange(s: string): (r: Result<(int, string, string)>)
    ensures r == Err(AttributeError) ==> forall k: nat, m :: !Matches(s, k, RangePattern, m)
    ensures (forall k: nat, m :: !Matches(s, k, RangePattern, m)) ==> r == Err(AttributeError)
    ensures r != Err(AttributeError) ==>
              exists j: nat, cs :: LeftmostGreedy(s, RangePattern, j, cs) && r == RangeOf(s, j, cs)
    ensures r.Ok? ==> r.value.0 >= 0 && Utils.AllUpper(r.value.1) && '\n' !in r.value.2
  {
    SearchIsLeftmostGreedy(s, RangePattern);
    match Search(s, RangePattern, 0)
    case None => Err(AttributeError)
    case Some(found) =>
      assert Matches(s, found.0, RangePattern, found.1);
      assert !(forall k: nat, m :: !Matches(s, k, RangePattern, m));
      RangeOf(s, found.0, found.1)
  }

  /** A match of five quantifiers from the start, one quantifier at a
      time: each starts where the previous one ends. */
  lemma MatchesFive(s: string, items: seq<Item>, m: seq<nat>)
    requires |items| == 5 && |m| == 5
    ensures Matches(s, 0, items, m) <==>
              && Fits(s, 0, items[0], m[0])
              && Fits(s, m[0], items[1], m[1])
              && Fits(s, m[0] + m[1], items[2], m[2])
              && Fits(s, m[0] + m[1] + m[2], items[3], m[3])
              && Fits(s, m[0] + m[1] + m[2] + m[3], items[4], m[4])
  {
    var i1, i2, i3, i4 := items[1..], items[2..], items[3..], items[4..];
    var m1, m2, m3, m4 := m[1..], m[2..], m[3..], m[4..];
    assert i1[1..] == i2 && i2[1..] == i3 && i3[1..] == i4 && i4[1..] == [];
    assert m1[1..] == m2 && m2[1..] == m3 && m3[1..] == m4 && m4[1..] == [];
    var q1, q2, q3 := m[0], m[0] + m[1], m[0] + m[1] + m[2];
    var q4 := q3 + m[3];
    assert Matches(s, q4, i4, m4) <==> Fits(s, q4, items[4], m[4]) by {
      assert Fits(s, q4, items[4], m[4]) ==> Matches(s, q4 + m[4], [], []);
    }
    assert Matches(s, q3, i3, m3) <==> Fits(s, q3, items[3], m[3]) && Matches(s, q4, i4, m4);
    assert Matches(s, q2, i2, m2) <==> Fits(s, q2, items[2], m[2]) && Matches(s, q3, i3, m3);
    assert Matches(s, q1, i1, m1) <==> Fits(s, q1, items[1], m[1]) && Matches(s, q2, i2, m2);
  }

  /** Lexicographic order of five counts, spelled out. */
  lemma LexLeqFive(a: seq<nat>, b: seq<nat>)
    requires |a| == 5 && |b| == 5
    requires a[0] < b[0] || (a[0] == b[0] && (a[1] < b[1] || (a[1] == b[1] &&
             (a[2] < b[2] || (a[2] == b[2] && (a[3] < b[3] || (a[3] == b[3] && a[4] <= b[4])))))))
    ensures LexLeq(a, b)
  {
    var a1, a2, a3, a4 := a[1..], a[2..], a[3..], a[4..];
    var b1, b2, b3, b4 := b[1..], b[2..], b[3..], b[4..];
    assert a1[1..] == a2 && a2[1..] == a3 && a3[1..] == a4 && a4[1..] == [];
    assert b1[1..] == b2 && b2[1..] == b3 && b3[1..] == b4 && b4[1..] == [];
    if a[0] == b[0] {
      if a[1] == b[1] {
        if a[2] == b[2] {
          if a[3] == b[3] {
            assert LexLeq(a4, b4);
          }
          assert LexLeq(a3, b3);
        }
        assert LexLeq(a2, b2);
      }
      assert LexLeq(a1, b1);
    }
  }

  /** Where the first, third and fourth quantifiers of a five-count match
      start. */
  lemma OffsetsOfFive(m: seq<nat>)
    requires |m| == 5
    ensures Offset(0, m, 0) == 0
    ensures Offset(0, m, 2) == m[0] + m[1]
    ensures Offset(0, m, 3) == m[0] + m[1] + m[2]
  {
    OffsetNext(0, m, 0);
    OffsetNext(0, m, 1);
    OffsetNext(0, m, 2);
  }

  /** The characters of a sheet-qualified range `sheet!letters digits:tail`,
      position by position. */
  ghost predicate RangeLayout(s: string, sheet: string, letters: string, digits: string)
  {
    var p0, p2 := |sheet|, |sheet| + 1 + |letters|;
    var p3 := p2 + |digits|;
    && p3 < |s|
    && (forall k :: 0 <= k < p0 ==> s[k] == sheet[k])
    && s[p0] == '!'
    && (forall k :: p0 + 1 <= k < p2 ==> s[k] == letters[k - p0 - 1])
    && (forall k :: p2 <= k < p3 ==> s[k] == digits[k - p2])
    && s[p3] == ':'
    && (forall k :: p0 < k < |s| ==> s[k] != '!')
  }

  /** The counts of the match that covers the layout. */
  function LayoutCounts(sheet: string, letters: string, digits: string): seq<nat> {
    [|sheet|, 1, |letters|, |digits|, 1]
  }

  lemma LayoutMatches(s: string, sheet: string, letters: string, digits: string)
    requires RangeLayout(s, sheet, letters, digits)
    requires '\n' !in sheet && Utils.AllUpper(letters) && AllDigits(digits)
    ensures Matches(s, 0, RangePattern, LayoutCounts(sheet, letters, digits))
  {
    var m := LayoutCounts(sheet, letters, digits);
    MatchesFive(s, RangePattern, m);
    assert Fits(s, 0, RangePattern[0], m[0]) by {
      forall k | 0 <= k < |sheet| ensures s[k] != '\n' {
        assert s[k] == sheet[k];
      }
    }
  }

  /** No other match at the start is greater: the '!' cannot lie past the
      sheet name, the letters stop at the first digit and the digits at ':'. */
  lemma LayoutIsGreatest(s: string, sheet: string, letters: string, digits: string, m': seq<nat>)
    requires RangeLayout(s, sheet, letters, digits)
    requires Utils.AllUpper(letters) && |digits| > 0 && AllDigits(digits)
    requires Matches(s, 0, RangePattern, m')
    ensures LexLeq(m', LayoutCounts(sheet, letters, digits))
  {
    var m := LayoutCounts(sheet, letters, digits);
    MatchesFive(s, RangePattern, m');
    var p0, p2 := |sheet|, |sheet| + 1 + |letters|;
    assert m'[0] <= p0 by {
      assert s[m'[0]] == '!';
    }
    if m'[0] == p0 {
      assert m'[1] == 1;
      assert !InClass(Upper, s[p2]) by {
        assert s[p2] == digits[0];
      }
      assert m'[2] <= |letters|;
      if m'[2] == |letters| {
        assert !InClass(Digit, s[p2 + |digits|]);
        assert m'[3] <= |digits|;
      }
    }
    LexLeqFive(m', m);
  }

  /** The groups of the layout's match. */
  lemma LayoutGroups(s: string, sheet: string, letters: string, digits: string)
    requires RangeLayout(s, sheet, letters, digits)
    requires Matches(s, 0, RangePattern, LayoutCounts(sheet, letters, digits))
    ensures Group(s, 0, RangePattern, LayoutCounts(sheet, letters, digits), 0) == sheet
    ensures Group(s, 0, RangePattern, LayoutCounts(sheet, letters, digits), 2) == letters
    ensures Group(s, 0, RangePattern, LayoutCounts(sheet, letters, digits), 3) == digits
  {
    var m := LayoutCounts(sheet, letters, digits);
    OffsetsOfFive(m);
    var p0, p2 := |sheet|, |sheet| + 1 + |letters|;
    assert s[0..p0] == sheet;
    assert s[p0 + 1..p2] == letters;
    assert s[p2..p2 + |digits|] == digits;
  }

  lemma ParseLayout(s: string, sheet: string, letters: string, row: nat)
    requires RangeLayout(s, sheet, letters, NatToString(row))
    requires '\n' !in sheet && Utils.AllUpper(letters)
    ensures ParseRange(s) == Ok((row as int, letters, sheet))
  {
    var digits := NatToString(row);
    var m := LayoutCounts(sheet, letters, digits);
    LayoutMatches(s, sheet, letters, digits);
    forall m' | Matches(s, 0, RangePattern, m')
      ensures LexLeq(m', m)
    {
      LayoutIsGreatest(s, sheet, letters, digits, m');
    }
    SearchFindsGreatestAtStart(s, RangePattern, m);
    LayoutGroups(s, sheet, letters, digits);
    ParseNatToString(row);
  }

  /** The text `sheet!letters digits:tail` has the range layout when no '!'
      follows the sheet name. */
  lemma ConcatLayout(s: string, sheet: string, letters: string, digits: string, tail: string)
    requires s == sheet + "!" + (letters + digits + ":" + tail)
    requires '!' !in letters && '!' !in digits && '!' !in tail
    ensures RangeLayout(s, sheet, letters, digits)
  {
    var p0, p2 := |sheet|, |sheet| + 1 + |letters|;
    var p3 := p2 + |digits|;
    var after := letters + digits + ":" + tail;
    assert s[p0] == '!';
    forall k | p0 < k < |s| ensures s[k] != '!' {
      assert s[k] == after[k - p0 - 1];
    }
    forall k | p0 + 1 <= k < p2 ensures s[k] == letters[k - p0 - 1] {
      assert s[k] == after[k - p0 - 1];
    }
    forall k | p2 <= k < p3 ensures s[k] == digits[k - p2] {
      assert s[k] == after[k - p0 - 1];
    }
    assert s[p3] == after[p3 - p0 - 1];
  }

  /** `parse_range` reads back the first row, the first column and the
      sheet name that `set_range` wrote, whatever the second cell is. */
  lemma ParseSetRange(row: nat, lastRow: Option<int>, column: string, lastColumn: string, sheet: string)
    requires '\n' !in sheet && Utils.AllUpper(column) && '!' !in lastColumn
    ensures ParseRange(SetRange((row, lastRow), (column, lastColumn), Some(sheet))) == Ok((row as int, column, sheet))
  {
    var s := SetRange((row, lastRow), (column, lastColumn), Some(sheet));
    var digits := NatToString(row);
    var tail := lastColumn + RowText(lastRow);
    SetRangeText(row, lastRow, column, lastColumn, sheet);
    NoBangAfterSheet(row, lastRow, column, lastColumn);
    ConcatLayout(s, sheet, column, digits, tail);
    ParseLayout(s, sheet, column, row);
  }

  /** The text of a sheet-qualified range with a non-negative first row. */
  lemma SetRangeText(row: nat, lastRow: Option<int>, column: string, lastColumn: string, sheet: string)
    ensures SetRange((row, lastRow), (column, lastColumn), Some(sheet))
            == sheet + "!" + (column + NatToString(row) + ":" + (lastColumn + RowText(lastRow)))
  {
    var front, rowText := column + NatToString(row) + ":", RowText(lastRow);
    assert IntToString(row) == NatToString(row);
    assert CellRange((row, lastRow), (column, lastColumn)) == front + lastColumn + rowText;
  }

  /** Nothing `set_range` writes after the sheet name holds a '!'. */
  lemma NoBangAfterSheet(row: nat, lastRow: Option<int>, column: string, lastColumn: string)
    requires Utils.AllUpper(column) && '!' !in lastColumn
    ensures '!' !in column && '!' !in NatToString(row) && '!' !in lastColumn + RowText(lastRow)
  {
    var digits, rowText := NatToString(row), RowText(lastRow);
    assert '!' !in rowText by {
      assert forall k :: 0 <= k < |rowText| ==> rowText[k] != '!';
    }
    assert '!' !in column by {
      assert forall k :: 0 <= k < |column| ==> column[k] != '!';
    }
    assert '!' !in digits by {
      assert forall k :: 0 <= k < |digits| ==> digits[k] != '!';
    }
  }

  /** Without a row in front of the ':' the search succeeds but `int("")`
      fails. */
  lemma ParseRangeWithoutRow()
    ensures ParseRange("S!A:B") == Err(EmptyRowLiteral)
  {
    var s := "S!A:B";
    var m: seq<nat> := [1, 1, 1, 0, 1];
    MatchesFive(s, RangePattern, m);
    forall m' | Matches(s, 0, RangePattern, m')
      ensures LexLeq(m', m)
    {
      WithoutRowGreatest(m');
    }
    SearchFindsGreatestAtStart(s, RangePattern, m);
  }

  /** Every match of "S!A:B" at its start is at most `[1, 1, 1, 0, 1]`. */
  lemma WithoutRowGreatest(m': seq<nat>)
    requires Matches("S!A:B", 0, RangePattern, m')
    ensures LexLeq(m', [1, 1, 1, 0, 1])
  {
    var s := "S!A:B";
    assert s[0] == 'S' && s[1] == '!' && s[2] == 'A' && s[3] == ':' && s[4] == 'B';
    MatchesFive(s, RangePattern, m');
    assert s[m'[0]] == '!';
    assert m'[0] == 1 && m'[1] == 1;
    assert m'[2] <= 1 by { assert !InClass(Upper, s[3]); }
    assert m'[2] == 1 by { assert !InClass(Digit, s[2]) && s[2] != ':'; }
    assert m'[3] == 0 by { assert !InClass(Digit, s[3]); }
    LexLeqFive(m', [1, 1, 1, 0, 1]);
  }

  // ------------------------------------------------------- column and rows

  /** Each name to the letters of its position plus `offset`; a name given
      twice keeps its last position, as in the dict comprehension. */
  function LettersFrom(names: seq<string>, offset: int): (mp: map<string, string>)
    ensures forall k :: k in mp <==> k in names
    ensures forall ii :: 0 <= ii < |names| ==> names[ii] in mp
    ensures forall ii :: 0 <= ii < |names| && LastOccurrence(names, ii) ==>
              mp[names[ii]] == Utils.ColumnLetters(ii + offset)
  {
    var letters := seq(|names|, ii => Utils.ColumnLetters(ii + offset));
    assert forall ii :: 0 <= ii < |names| ==> letters[ii] == Utils.ColumnLetters(ii + offset);
    Dict(names, letters)
  }

  lemma LettersAt(names: seq<string>, offset: int, ii: nat)
    requires Distinct(names) && ii < |names|
    ensures LettersFrom(names, offset)[names[ii]] == Utils.ColumnLetters(offset + ii)
  {
    assert LastOccurrence(names, ii);
  }

  /** `column_mapping`: the names mapped to letters counted from the first
      column's number. A first column outside A..Z makes `column_to_number`
      raise. */
  function ColumnMapping(names: seq<string>, firstColumn: string): (r: Result<map<string, string>>)
    ensures r.Err? <==> !Utils.AllUpper(firstColumn)
    ensures r.Ok? ==> r.value == LettersFrom(names, Utils.ColumnNumber(firstColumn).value)
  {
    match Utils.ColumnNumber(firstColumn)
    case Err(e) => Err(e)
    case Ok(offset) => Ok(LettersFrom(names, offset))
  }

  /** The columns of distinct names are numbered consecutively from the
      first column: the `ii`-th name gets the letters of the first column's
      number plus `ii` (which `column_to_number` reads back, by
      `Utils.LettersRoundTrip`). */
  lemma ColumnMappingConsecutive(names: seq<string>, firstColumn: string, ii: nat)
    requires Distinct(names) && ii < |names| && Utils.AllUpper(firstColumn)
    ensures ColumnMapping(names, firstColumn).Ok?
    ensures ColumnMapping(names, firstColumn).value[names[ii]]
            == Utils.ColumnLetters(Utils.ColumnNumber(firstColumn).value + ii)
  {
    LettersAt(names, Utils.ColumnNumber(firstColumn).value, ii);
  }

  /** A first column over A..Y names the first column itself. */
  lemma FirstNameGetsFirstColumn(names: seq<string>, firstColumn: string)
    requires Distinct(names) && |names| > 0
    requires |firstColumn| > 0 && Utils.AllColumnLetters(firstColumn)
    ensures ColumnMapping(names, firstColumn).Ok? && ColumnMapping(names, firstColumn).value[names[0]] == firstColumn
  {
    Utils.NumberRoundTrip(firstColumn);
    assert LastOccurrence(names, 0);
  }

  /** As written, a table whose first column is "A" maps its 26th name to
      "AA": the 26th column of the sheet, "Z", is skipped. */
  lemma TwentySixthNameSkipsZ(names: seq<string>)
    requires Distinct(names) && |names| >= 26
    ensures ColumnMapping(names, "A").Ok? && ColumnMapping(names, "A").value[names[25]] == "AA"
  {
    assert Utils.AllUpper("A");
    assert "A"[..0] == "";
    assert Utils.ColumnNumber("A") == Ok(0);
    assert LastOccurrence(names, 25);
    Utils.ZAliasesAA();
  }

  /** `LettersFrom` with base-26 column letters. */
  function SheetLettersFrom(names: seq<string>, offset: int): (mp: map<string, string>)
    ensures forall k :: k in mp <==> k in names
    ensures forall ii :: 0 <= ii < |names| ==> names[ii] in mp
    ensures forall ii :: 0 <= ii < |names| && LastOccurrence(names, ii) ==>
              mp[names[ii]] == SheetColumns.SheetLetters(ii + offset)
  {
    var letters := seq(|names|, ii => SheetColumns.SheetLetters(ii + offset));
    assert forall ii :: 0 <= ii < |names| ==> letters[ii] == SheetColumns.SheetLetters(ii + offset);
    Dict(names, letters)
  }

  lemma SheetLettersAt(names: seq<string>, offset: int, ii: nat)
    requires Distinct(names) && ii < |names|
    ensures SheetLettersFrom(names, offset)[names[ii]] == SheetColumns.SheetLetters(offset + ii)
  {
    assert LastOccurrence(names, ii);
  }

  /** `column_mapping` with base-26 column letters. */
  function SheetColumnMapping(names: seq<string>, firstColumn: string): (r: Result<map<string, string>>)
    ensures r.Err? <==> !Utils.AllUpper(firstColumn)
    ensures r.Ok? ==> r.value == SheetLettersFrom(names, SheetColumns.SheetNumber(firstColumn))
  {
    if !Utils.AllUpper(firstColumn) then Err(IndexError)
    else Ok(SheetLettersFrom(names, SheetColumns.SheetNumber(firstColumn)))
  }

  /** With base-26 letters the `ii`-th of distinct names lands on the sheet
      column `ii` places after the first column, for every first column. */
  lemma SheetColumnMappingConsecutive(names: seq<string>, firstColumn: string, ii: nat)
    requires Distinct(names) && ii < |names| && |firstColumn| > 0 && Utils.AllUpper(firstColumn)
    ensures SheetColumnMapping(names, firstColumn).Ok?
    ensures SheetColumnMapping(names, firstColumn).value[names[ii]]
            == SheetColumns.SheetLetters(SheetColumns.SheetNumber(firstColumn) + ii)
    ensures ii == 0 ==> SheetColumnMapping(names, firstColumn).value[names[ii]] == firstColumn
  {
    var offset := SheetColumns.SheetNumber(firstColumn);
    SheetLettersAt(names, offset, ii);
    SheetColumns.SheetNumberRoundTrip(firstColumn);
  }

  /** The corrected mapping sends the 26th name of a table starting at "A"
      to "Z". */
  lemma TwentySixthNameIsZ(names: seq<string>)
    requires Distinct(names) && |names| >= 26
    ensures SheetColumnMapping(names, "A").Ok? && SheetColumnMapping(names, "A").value[names[25]] == "Z"
  {
    assert Utils.AllUpper("A");
    assert "A"[..0] == "";
    assert SheetColumns.SheetNumber("A") == 0;
    assert LastOccurrence(names, 25);
    SheetColumns.ZThenAA();
  }

  /** `row_mapping(row_inds)`: each data-frame row index shifted by the
      sheet row of the first row. */
  function RowMapping(rowIndices: seq<int>, firstRow: int): (r: seq<int>)
    ensures |r| == |rowIndices|
  {
    seq(|rowIndices|, i requires 0 <= i < |rowIndices| => rowIndices[i] + firstRow)
  }

  /** Shifting keeps the order of the rows and loses nothing: shifting back
      by the same amount restores the indices. */
  lemma RowMappingInverse(rowIndices: seq<int>, firstRow: int)
    ensures RowMapping(RowMapping(rowIndices, firstRow), -firstRow) == rowIndices
    ensures forall i, j :: 0 <= i < j < |rowIndices| ==>
              (rowIndices[i] < rowIndices[j] <==> RowMapping(rowIndices, firstRow)[i] < RowMapping(rowIndices, firstRow)[j])
  {
  }

  /** The frame read from row `firstRow` numbers its `i`-th row `firstRow + i`,
      the row `set_range` names for it. */
  lemma RowMappingOfDefaultIndex(n: nat, firstRow: int, i: nat)
    requires i < n
    ensures RowMapping(seq(n, k => k), firstRow)[i] == firstRow + i
  {
  }

  // --------------------------------------------------------------- records

  /** Per-column parsers; a column without one keeps the raw string. */
  type Validators = map<string, string -> Cell>

  function Validate(validators: Validators, column: string, raw: string): Cell {
    if column in validators then validators[column](raw) else Text(raw)
  }

  /** The value for column position `ii` of a sheet row: parsed when the row
      reaches it, missing when the row is shorter. */
  function CellAt(row: seq<string>, columns: seq<string>, validators: Validators, ii: nat): Cell
    requires ii < |columns|
  {
    if ii < |row| then Validate(validators, columns[ii], row[ii]) else Missing
  }

  /** The record dict of one sheet row; a repeated column name keeps its
      last value. */
  function RecordOf(row: seq<string>, columns: seq<string>, validators: Validators): (rec: Row)
    ensures forall k :: k in rec <==> k in columns
    ensures forall ii :: 0 <= ii < |columns| ==> columns[ii] in rec
    ensures forall ii :: 0 <= ii < |columns| && LastOccurrence(columns, ii) ==>
              rec[columns[ii]] == CellAt(row, columns, validators, ii)
  {
    Dict(columns, seq(|columns|, ii requires 0 <= ii < |columns| => CellAt(row, columns, validators, ii)))
  }

  /** `process_records(data, columns, validation_map)`: one record per sheet
      row with exactly the given columns. */
  function ProcessRecords(data: seq<seq<string>>, columns: seq<string>, validators: Validators): (t: Table)
    ensures t.columns == columns && |t.rows| == |data|
    ensures Distinct(columns) ==> WellFormed(t)
    ensures Distinct(columns) ==> forall i, ii :: 0 <= i < |data| && 0 <= ii < |columns| ==>
              && columns[ii] in t.rows[i]
              && t.rows[i][columns[ii]] == (if ii < |data[i]| then Validate(validators, columns[ii], data[i][ii]) else Missing)
  {
    Table(columns, seq(|data|, i requires 0 <= i < |data| => RecordOf(data[i], columns, validators)))
  }

  /** A column name given twice holds the value of its later position. */
  lemma RepeatedColumnKeepsLast(data: seq<seq<string>>, columns: seq<string>, validators: Validators, i: nat)
    requires |columns| == 2 && columns[0] == columns[1] && i < |data|
    ensures ProcessRecords(data, columns, validators).rows[i][columns[0]] == CellAt(data[i], columns, validators, 1)
  {
    assert LastOccurrence(columns, 1);
  }

  // -------------------------------------------------------- request bodies

  /** One cell update of a batch request. */
  datatype Entry = Entry(range: string, values: seq<seq<Cell>>)

  /** The body of `values().batchUpdate`. */
  datatype BatchBody = BatchBody(valueInputOption: string, data: seq<Entry>)

  /** The entries of the loop over `zip(rows, columns, values)`, which stops
      at the shortest of the three. */
  function BatchEntries(rows: seq<int>, columns: seq<string>, values: seq<Cell>, sheet: Option<string>): (es: seq<Entry>)
    ensures |es| == Min3(|rows|, |columns|, |values|)
    ensures forall i :: 0 <= i < |es| ==>
              es[i] == Entry(SetRange((rows[i], Some(rows[i])), (columns[i], columns[i]), sheet), [[values[i]]])
    decreases |rows|
  {
    if |rows| == 0 || |columns| == 0 || |values| == 0 then []
    else
      [Entry(SetRange((rows[0], Some(rows[0])), (columns[0], columns[0]), sheet), [[values[0]]])]
      + BatchEntries(rows[1..], columns[1..], values[1..], sheet)
  }

  function Min3(a: nat, b: nat, c: nat): nat {
    if a <= b && a <= c then a else if b <= c then b else c
  }

  /** `np.atleast_1d(values)` on a list of numbers and strings: numpy picks
      one element type for the array, so when both kinds occur every number
      becomes its string form. A list of one kind is kept as it is, and so
      is one holding a missing marker, taken here as `None` or `pd.NA`,
      which make an array of objects. */
  function AtLeast1d(values: seq<Cell>): (r: seq<Cell>)
    ensures |r| == |values|
    ensures forall i :: 0 <= i < |values| ==> Render(r[i]) == Render(values[i])
    ensures MixesIntAndText(values) ==> forall i :: 0 <= i < |values| ==> r[i] == Text(Render(values[i]))
    ensures !MixesIntAndText(values) ==> r == values
  {
    if MixesIntAndText(values) then seq(|values|, i requires 0 <= i < |values| => Text(Render(values[i])))
    else values
  }

  /** Every value is a number or a string, and both kinds occur. */
  predicate MixesIntAndText(values: seq<Cell>) {
    && (forall i :: 0 <= i < |values| ==> values[i].Int? || values[i].Text?)
    && (exists i :: 0 <= i < |values| && values[i].Int?)
    && (exists i :: 0 <= i < |values| && values[i].Text?)
  }

  /** After the promotion the values hold one kind only, unless a missing
      marker or a point keeps the array of objects; promoting twice changes
      nothing. */
  lemma AtLeast1dSettles(values: seq<Cell>)
    ensures !MixesIntAndText(AtLeast1d(values))
    ensures AtLeast1d(AtLeast1d(values)) == AtLeast1d(values)
  {
    var r := AtLeast1d(values);
    if MixesIntAndText(values) {
      assert forall i :: 0 <= i < |r| ==> r[i].Text?;
    }
  }

  /** `_package_batch_update(rows, columns, values, sheet_name)`: the values
      pass through `np.atleast_1d` first. */
  function PackageBatchUpdate(rows: seq<int>, columns: seq<string>, values: seq<Cell>, sheet: Option<string>): (b: BatchBody)
    ensures b.valueInputOption == "USER_ENTERED"
    ensures |b.data| == Min3(|rows|, |columns|, |values|)
    ensures forall i :: 0 <= i < |b.data| ==>
              && b.data[i].range == SetRange((rows[i], Some(rows[i])), (columns[i], columns[i]), sheet)
              && b.data[i].values == [[AtLeast1d(values)[i]]]
              && Render(b.data[i].values[0][0]) == Render(values[i])
  {
    BatchBody("USER_ENTERED", BatchEntries(rows, columns, AtLeast1d(values), sheet))
  }

  /** Each entry of a sheet-qualified batch names a single cell that
      `parse_range` reads back as the row, column and sheet it updates. */
  lemma BatchRangesParse(rows: seq<int>, columns: seq<string>, values: seq<Cell>, sheet: string, i: nat)
    requires '\n' !in sheet
    requires i < |PackageBatchUpdate(rows, columns, values, Some(sheet)).data|
    requires rows[i] >= 0 && Utils.AllUpper(columns[i])
    ensures ParseRange(PackageBatchUpdate(rows, columns, values, Some(sheet)).data[i].range)
            == Ok((rows[i], columns[i], sheet))
  {
    assert '!' !in columns[i] by {
      assert forall k :: 0 <= k < |columns[i]| ==> columns[i][k] != '!';
    }
    var range := SetRange((rows[i], Some(rows[i])), (columns[i], columns[i]), Some(sheet));
    assert PackageBatchUpdate(rows, columns, values, Some(sheet)).data[i].range == range;
    ParseSetRange(rows[i], Some(rows[i]), columns[i], columns[i], sheet);
  }

  /** The body of `values().append`. */
  datatype AppendBody = AppendBody(values: seq<seq<string>>)

  /** `str` of every cell of a row. */
  function RenderRow(row: seq<Cell>): (r: seq<string>)
    ensures |r| == |row|
  {
    seq(|row|, j requires 0 <= j < |row| => Render(row[j]))
  }

  /** A row of empty strings as long as `row`. */
  function BlankRow(row: seq<Cell>): (r: seq<string>)
    ensures |r| == |row|
  {
    seq(|row|, j => "")
  }

  /** The rows appended for `data`, each preceded by a blank row of the same
      width when `addBlankRows` is set. */
  function AppendValues(data: seq<seq<Cell>>, addBlankRows: bool): (vs: seq<seq<string>>)
    ensures |vs| == (if addBlankRows then 2 * |data| else |data|)
    decreases |data|
  {
    if |data| == 0 then []
    else
      var here := if addBlankRows then [BlankRow(data[0]), RenderRow(data[0])] else [RenderRow(data[0])];
      here + AppendValues(data[1..], addBlankRows)
  }

  /** Without blank rows the `i`-th appended row renders the `i`-th data row. */
  lemma {:induction false} AppendValuesPlain(data: seq<seq<Cell>>, i: nat)
    requires i < |data|
    ensures AppendValues(data, false)[i] == RenderRow(data[i])
    decreases i
  {
    if i > 0 {
      AppendValuesPlain(data[1..], i - 1);
    }
  }

  /** With blank rows the `i`-th data row lands at `2 * i + 1`, after a
      blank row of its width. */
  lemma {:induction false} AppendValuesBlank(data: seq<seq<Cell>>, i: nat)
    requires i < |data|
    ensures AppendValues(data, true)[2 * i] == BlankRow(data[i])
    ensures AppendValues(data, true)[2 * i + 1] == RenderRow(data[i])
    decreases i
  {
    if i > 0 {
      AppendValuesBlank(data[1..], i - 1);
    }
  }

  /** `_package_append_data(data, add_blank_rows)`: the rendered rows, each
      after a blank row of the same width when `addBlankRows` is set. */
  function PackageAppendData(data: seq<seq<Cell>>, addBlankRows: bool): (b: AppendBody)
    ensures !addBlankRows ==> |b.values| == |data| && forall i :: 0 <= i < |data| ==> b.values[i] == RenderRow(data[i])
    ensures addBlankRows ==> |b.values| == 2 * |data| && forall i :: 0 <= i < |data| ==>
              b.values[2 * i] == BlankRow(data[i]) && b.values[2 * i + 1] == RenderRow(data[i])
  {
    var vs := AppendValues(data, addBlankRows);
    if addBlankRows then
      assert forall i :: 0 <= i < |data| ==> vs[2 * i] == BlankRow(data[i]) && vs[2 * i + 1] == RenderRow(data[i]) by {
        forall i | 0 <= i < |data| ensures vs[2 * i] == BlankRow(data[i]) && vs[2 * i + 1] == RenderRow(data[i]) {
          AppendValuesBlank(data, i);
        }
      }
      AppendBody(vs)
    else
      assert forall i :: 0 <= i < |data| ==> vs[i] == RenderRow(data[i]) by {
        forall i | 0 <= i < |data| ensures vs[i] == RenderRow(data[i]) {
          AppendValuesPlain(data, i);
        }
      }
      AppendBody(vs)
  }

  /** The rows of a table in column order. */
  function TableCells(t: Table): (cells: seq<seq<Cell>>)
    requires WellFormed(t)
    ensures |cells| == |t.rows|
  {
    seq(|t.rows|, i requires 0 <= i < |t.rows| =>
      seq(|t.columns|, ii requires 0 <= ii < |t.columns| => t.rows[i][t.columns[ii]]))
  }

  /** Reading full-width rows without validators and appending the records
      back writes the very strings that were read. */
  lemma RecordsAppendBack(data: seq<seq<string>>, columns: seq<string>)
    requires Distinct(columns)
    requires forall i :: 0 <= i < |data| ==> |data[i]| == |columns|
    ensures PackageAppendData(TableCells(ProcessRecords(data, columns, map[])), false).values == data
  {
    var cells := TableCells(ProcessRecords(data, columns, map[]));
    forall i | 0 <= i < |data|
      ensures RenderRow(cells[i]) == data[i]
    {
      RowRendersBack(data, columns, i);
    }
  }

  /** One row read without validators renders back as the strings read. */
  lemma RowRendersBack(data: seq<seq<string>>, columns: seq<string>, i: nat)
    requires Distinct(columns) && i < |data| && |data[i]| == |columns|
    ensures RenderRow(TableCells(ProcessRecords(data, columns, map[]))[i]) == data[i]
  {
    var t := ProcessRecords(data, columns, map[]);
    var row := TableCells(t)[i];
    forall ii | 0 <= ii < |columns|
      ensures Render(row[ii]) == data[i][ii]
    {
      assert t.rows[i][columns[ii]] == Text(data[i][ii]);
    }
  }
}

=== FILE: regex.dfy ===
/** Python's `re.search` for the two patterns the modelled code uses, both of
    which are concatenations of greedily quantified character classes:
    `(.*)!([A-Z]*)(\d*):` in `parse_range` and `(\d+)[,\s]*(\d+)[,\s]*(\d+)`
    in `process_point`. The engine tries start positions left to right and,
    at each, backtracks from the longest count of the first quantifier down,
    then the second, and so on. `BacktrackIsGreatest` proves this picks the
    lexicographically greatest list of counts among all matches there. */
module Regex {
  import opened Outcomes
  import Decimal

  /** Python `str.isspace` characters, which is what `\s` matches. */
  predicate IsWhitespace(c: char) {
    || c == ' ' || ('\t' <= c <= '\r') || ('\U{1C}' <= c <= '\U{1F}')
    || c == '\U{85}' || c == '\U{A0}' || c == '\U{1680}' || ('\U{2000}' <= c <= '\U{200A}')
    || c == '\U{2028}' || c == '\U{2029}' || c == '\U{202F}' || c == '\U{205F}' || c == '\U{3000}'
  }

  datatype CharClass =
    | Digit              // \d (ASCII digits only in this model)
    | CommaOrSpace       // [,\s]
    | Upper              // [A-Z]
    | NotNewline         // .
    | Exactly(c: char)   // a literal character

  predicate InClass(cls: CharClass, c: char) {
    match cls
    case Digit => Decimal.IsDigit(c)
    case CommaOrSpace => c == ',' || IsWhitespace(c)
    case Upper => 'A' <= c <= 'Z'
    case NotNewline => c != '\n'
    case Exactly(x) => c == x
  }

  /** A greedy quantifier over one class: at least `min` characters, at most
      `max` of them (no bound when `max` is `None`). */
  datatype Item = Item(cls: CharClass, min: nat, max: Option<nat>)

  /** The number of consecutive characters of the class from position `p`. */
  function Run(s: string, p: nat, cls: CharClass): (r: nat)
    requires p <= |s|
    ensures p + r <= |s|
    ensures forall k :: p <= k < p + r ==> InClass(cls, s[k])
    ensures p + r < |s| ==> !InClass(cls, s[p + r])
    decreases |s| - p
  {
    if p < |s| && InClass(cls, s[p]) then 1 + Run(s, p + 1, cls) else 0
  }

  /** The count the greedy quantifier tries first at `p`. */
  function MaxCount(s: string, p: nat, it: Item): (n: nat)
    requires p <= |s|
    ensures p + n <= |s|
  {
    match it.max
    case None => Run(s, p, it.cls)
    case Some(m) => if m < Run(s, p, it.cls) then m else Run(s, p, it.cls)
  }

  /** `n` characters from `p` are a legal span of the quantifier. */
  predicate Fits(s: string, p: nat, it: Item, n: nat) {
    && it.min <= n
    && p + n <= |s|
    && (it.max.Some? ==> n <= it.max.value)
    && forall k :: p <= k < p + n ==> InClass(it.cls, s[k])
  }

  /** `cs` gives each quantifier a count so that the whole pattern matches
      from `p` (the pattern is not anchored at its end). */
  predicate Matches(s: string, p: nat, items: seq<Item>, cs: seq<nat>)
    decreases |items|
  {
    && |cs| == |items|
    && p <= |s|
    && (|items| == 0 || (Fits(s, p, items[0], cs[0]) && Matches(s, p + cs[0], items[1..], cs[1..])))
  }

  predicate LexLeq(a: seq<nat>, b: seq<nat>)
    requires |a| == |b|
    decreases |a|
  {
    |a| == 0 || a[0] < b[0] || (a[0] == b[0] && LexLeq(a[1..], b[1..]))
  }

  lemma {:induction false} LexLeqAntisymmetric(a: seq<nat>, b: seq<nat>)
    requires |a| == |b| && LexLeq(a, b) && LexLeq(b, a)
    ensures a == b
    decreases |a|
  {
    if |a| > 0 {
      LexLeqAntisymmetric(a[1..], b[1..]);
      assert a == [a[0]] + a[1..] && b == [b[0]] + b[1..];
    }
  }

  /** Backtracking matcher at a fixed start: the counts of the first match
      found, or `None`. */
  function Backtrack(s: string, p: nat, items: seq<Item>): Option<seq<nat>>
    requires p <= |s|
    decreases |items|, 1, 0
  {
    if |items| == 0 then Some([]) else TryCount(s, p, items, MaxCount(s, p, items[0]))
  }

  /** Try the first quantifier with `n` characters, then with fewer. */
  function TryCount(s: string, p: nat, items: seq<Item>, n: nat): Option<seq<nat>>
    requires p <= |s| && |items| > 0 && n <= MaxCount(s, p, items[0])
    decreases |items|, 0, n
  {
    if n < items[0].min then None
    else
      match Backtrack(s, p + n, items[1..])
      case Some(rest) => Some([n] + rest)
      case None => if n == 0 then None else TryCount(s, p, items, n - 1)
  }

  lemma FitsBound(s: string, p: nat, it: Item, n: nat)
    requires p <= |s| && Fits(s, p, it, n)
    ensures n <= MaxCount(s, p, it)
  {
  }

  lemma {:induction false} BacktrackIsGreatest(s: string, p: nat, items: seq<Item>)
    requires p <= |s|
    ensures match Backtrack(s, p, items)
            case Some(cs) => Matches(s, p, items, cs) && forall m :: Matches(s, p, items, m) ==> LexLeq(m, cs)
            case None => forall m :: !Matches(s, p, items, m)
    decreases |items|, 1, 0
  {
    if |items| > 0 {
      var n := MaxCount(s, p, items[0]);
      TryCountIsGreatest(s, p, items, n);
      forall m | Matches(s, p, items, m)
        ensures m[0] <= n
      {
        FitsBound(s, p, items[0], m[0]);
      }
    }
  }

  lemma {:induction false} TryCountIsGreatest(s: string, p: nat, items: seq<Item>, n: nat)
    requires p <= |s| && |items| > 0 && n <= MaxCount(s, p, items[0])
    ensures match TryCount(s, p, items, n)
            case Some(cs) =>
              && Matches(s, p, items, cs) && cs[0] <= n
              && forall m :: Matches(s, p, items, m) && m[0] <= n ==> LexLeq(m, cs)
            case None => forall m :: Matches(s, p, items, m) ==> m[0] > n
    decreases |items|, 0, n
  {
    if n >= items[0].min {
      assert Fits(s, p, items[0], n) by {
        assert n <= Run(s, p, items[0].cls);
      }
      BacktrackIsGreatest(s, p + n, items[1..]);
      match Backtrack(s, p + n, items[1..])
      case Some(rest) =>
        PrependGreatest(s, p, items, n, rest);
      case None =>
        if n > 0 {
          TryCountIsGreatest(s, p, items, n - 1);
        }
        NoMatchWithCount(s, p, items, n, p + n);
    }
  }

  /** A legal first span followed by the greatest match of the rest is the
      greatest match whose first count is at most that span. */
  lemma PrependGreatest(s: string, p: nat, items: seq<Item>, n: nat, rest: seq<nat>)
    requires |items| > 0 && Fits(s, p, items[0], n)
    requires Matches(s, p + n, items[1..], rest)
    requires forall m :: Matches(s, p + n, items[1..], m) ==> LexLeq(m, rest)
    ensures Matches(s, p, items, [n] + rest)
    ensures forall m :: Matches(s, p, items, m) && m[0] <= n ==> LexLeq(m, [n] + rest)
  {
    var cs := [n] + rest;
    assert cs[1..] == rest;
    forall m | Matches(s, p, items, m) && m[0] <= n
      ensures LexLeq(m, cs)
    {
      if m[0] == n {
        assert Matches(s, p + n, items[1..], m[1..]);
      }
    }
  }

  /** When the rest cannot match after a span of `n`, no match uses `n`. */
  lemma NoMatchWithCount(s: string, p: nat, items: seq<Item>, n: nat, q: nat)
    requires |items| > 0 && q == p + n
    requires forall m :: !Matches(s, q, items[1..], m)
    ensures forall m :: Matches(s, p, items, m) ==> m[0] != n
  {
    forall m | Matches(s, p, items, m) ensures m[0] != n {
      assert Matches(s, p + m[0], items[1..], m[1..]);
    }
  }

  /** `re.search`: the first start position, from `i` on, where the
      backtracking matcher succeeds, with its counts. */
  function Search(s: string, items: seq<Item>, i: nat): (r: Option<(nat, seq<nat>)>)
    ensures r.Some? ==> i <= r.value.0 <= |s| && Backtrack(s, r.value.0, items) == Some(r.value.1)
    ensures r.Some? ==> forall k :: i <= k < r.value.0 ==> Backtrack(s, k, items).None?
    ensures r.None? ==> forall k :: i <= k <= |s| ==> Backtrack(s, k, items).None?
    decreases |s| + 1 - i
  {
    if i > |s| then None
    else
      match Backtrack(s, i, items)
      case Some(cs) => Some((i, cs))
      case None => Search(s, items, i + 1)
  }

  /** The match `re.search` reports: it starts at the leftmost position where
      the pattern matches at all, and its counts are the greatest there. */
  ghost predicate LeftmostGreedy(s: string, items: seq<Item>, j: nat, cs: seq<nat>) {
    && Matches(s, j, items, cs)
    && (forall k: nat, m :: k < j ==> !Matches(s, k, items, m))
    && forall m :: Matches(s, j, items, m) ==> LexLeq(m, cs)
  }

  lemma SearchIsLeftmostGreedy(s: string, items: seq<Item>)
    ensures match Search(s, items, 0)
            case Some(r) => LeftmostGreedy(s, items, r.0, r.1)
            case None => forall k: nat, m :: !Matches(s, k, items, m)
  {
    match Search(s, items, 0)
    case Some(r) =>
      BacktrackIsGreatest(s, r.0, items);
      forall k: nat, m | k < r.0
        ensures !Matches(s, k, items, m)
      {
        BacktrackIsGreatest(s, k, items);
      }
    case None =>
      forall k: nat, m
        ensures !Matches(s, k, items, m)
      {
        if k <= |s| {
          BacktrackIsGreatest(s, k, items);
        }
      }
  }

  /** A match that every other match at the same start is below is the one
      the search reports. */
  lemma GreatestIsUnique(s: string, items: seq<Item>, j: nat, cs: seq<nat>, m: seq<nat>)
    requires LeftmostGreedy(s, items, j, cs)
    requires Matches(s, j, items, m)
    requires forall m' :: Matches(s, j, items, m') ==> LexLeq(m', m)
    ensures cs == m
  {
    LexLeqAntisymmetric(cs, m);
  }

  /** When a match at the very start is above every other match there, the
      search reports exactly it. */
  lemma SearchFindsGreatestAtStart(s: string, items: seq<Item>, m: seq<nat>)
    requires Matches(s, 0, items, m)
    requires forall m' :: Matches(s, 0, items, m') ==> LexLeq(m', m)
    ensures Search(s, items, 0) == Some((0, m))
  {
    BacktrackIsGreatest(s, 0, items);
    var cs := Backtrack(s, 0, items).value;
    LexLeqAntisymmetric(cs, m);
  }

  function Sum(xs: seq<nat>): nat
    decreases |xs|
  {
    if |xs| == 0 then 0 else xs[0] + Sum(xs[1..])
  }

  /** Where the span of quantifier `k` starts. */
  function Offset(p: nat, cs: seq<nat>, k: nat): nat
    requires k <= |cs|
  {
    p + Sum(cs[..k])
  }

  lemma {:induction false} SumSnoc(xs: seq<nat>, x: nat)
    ensures Sum(xs + [x]) == Sum(xs) + x
    decreases |xs|
  {
    if |xs| > 0 {
      assert (xs + [x])[1..] == xs[1..] + [x];
      SumSnoc(xs[1..], x);
    }
  }

  /** Each span starts where the previous one ends. */
  lemma OffsetNext(p: nat, cs: seq<nat>, k: nat)
    requires k < |cs|
    ensures Offset(p, cs, 0) == p
    ensures Offset(p, cs, k + 1) == Offset(p, cs, k) + cs[k]
  {
    assert cs[..0] == [];
    assert cs[..k + 1] == cs[..k] + [cs[k]];
    SumSnoc(cs[..k], cs[k]);
  }

  /** Every quantifier of a match fits at its own offset. */
  lemma {:induction false} MatchSpans(s: string, p: nat, items: seq<Item>, cs: seq<nat>)
    requires Matches(s, p, items, cs)
    ensures Offset(p, cs, |cs|) <= |s|
    ensures forall k :: 0 <= k < |cs| ==> Fits(s, Offset(p, cs, k), items[k], cs[k])
    decreases |items|
  {
    if |items| > 0 {
      MatchSpans(s, p + cs[0], items[1..], cs[1..]);
      forall k | 0 <= k <= |cs|
        ensures Offset(p, cs, k) == if k == 0 then p else Offset(p + cs[0], cs[1..], k - 1)
      {
        if k > 0 {
          assert cs[..k][1..] == cs[1..][..k - 1];
        }
      }
      assert cs[..|cs|] == cs;
    }
  }

  /** The text of capture `k` (each quantifier is its own group). */
  function Group(s: string, p: nat, items: seq<Item>, cs: seq<nat>, k: nat): (g: string)
    requires Matches(s, p, items, cs) && k < |cs|
    ensures |g| == cs[k]
    ensures forall x :: 0 <= x < |g| ==> InClass(items[k].cls, g[x])
  {
    MatchSpans(s, p, items, cs);
    s[Offset(p, cs, k)..Offset(p, cs, k) + cs[k]]
  }
}

=== FILE: schema_convert.dfy ===
/** `convert_dataframe` (tablebridge/comparison.py:43-78): build a new table
    from a schema mapping each output column to either a source column name
    (a rename) or a function of the row (an apply). The source first adds
    every function column, in schema order, to a copy of the frame, then
    renames, then selects the schema's keys in schema order. */
module SchemaConvert {
  import opened Outcomes
  import opened Tables
  import opened Generators

  datatype Rule = Rename(source: string) | Apply(generator: Generator)

  /** A Python dict from output column to rule, in insertion order. */
  type Schema = seq<(string, Rule)>

  function Keys(schema: Schema): (ks: seq<string>)
    ensures |ks| == |schema|
    ensures forall j :: 0 <= j < |schema| ==> ks[j] == schema[j].0
  {
    seq(|schema|, j requires 0 <= j < |schema| => schema[j].0)
  }

  predicate IsApplyKey(schema: Schema, c: string) {
    exists j :: 0 <= j < |schema| && schema[j].0 == c && schema[j].1.Apply?
  }

  predicate RenamesFrom(schema: Schema, j: int, c: string)
    requires 0 <= j < |schema|
  {
    schema[j].1.Rename? && schema[j].1.source == c
  }

  // ---------------------------------------------------------------------
  // Step 1 (lines 75-76): `df[column] = df.apply(generator, axis=1)`.

  /** One function column: computed over the current frame (which already
      holds every earlier function column) and written under `k`, replacing
      a column of that name or appended at the end. */
  function AddColumn(t: Table, k: string, g: Generator): (r: Table)
    requires WellFormed(t)
    ensures WellFormed(r) && |r.rows| == |t.rows|
    ensures r.columns == if k in t.columns then t.columns else t.columns + [k]
    ensures forall i :: 0 <= i < |t.rows| ==>
              r.rows[i] == t.rows[i][k := ApplyRows(g, t.rows, |t.columns|).0[i]]
    ensures forall c :: c in r.columns <==> c in t.columns || c == k
    ensures forall i, c :: 0 <= i < |t.rows| && c in t.columns && c != k ==> r.rows[i][c] == t.rows[i][c]
  {
    var values := ApplyRows(g, t.rows, |t.columns|).0;
    Table(if k in t.columns then t.columns else t.columns + [k], ReplaceColumn(t.rows, k, values))
  }

  /** All function rules, in schema order. */
  function ApplyRules(t: Table, schema: Schema): (r: Table)
    requires WellFormed(t)
    ensures WellFormed(r) && |r.rows| == |t.rows|
    ensures forall c :: c in r.columns <==> c in t.columns || IsApplyKey(schema, c)
    ensures forall i, c :: 0 <= i < |t.rows| && c in t.columns && !IsApplyKey(schema, c) ==>
              r.rows[i][c] == t.rows[i][c]
    decreases |schema|
  {
    if |schema| == 0 then t
    else
      var n := |schema| - 1;
      var before := ApplyRules(t, schema[..n]);
      assert forall c :: IsApplyKey(schema[..n], c) ==> IsApplyKey(schema, c);
      assert forall c :: IsApplyKey(schema, c) ==>
               IsApplyKey(schema[..n], c) || (c == schema[n].0 && schema[n].1.Apply?) by {
        forall c | IsApplyKey(schema, c)
          ensures IsApplyKey(schema[..n], c) || (c == schema[n].0 && schema[n].1.Apply?)
        {
          var q :| 0 <= q < |schema| && schema[q].0 == c && schema[q].1.Apply?;
          if q < n {
            assert schema[..n][q] == schema[q];
          }
        }
      }
      match schema[n].1
      case Rename(_) => before
      case Apply(g) => AddColumn(before, schema[n].0, g)
  }

  /** The frame has no columns when the `j`-th rule runs: the original has
      none and no earlier rule added one. */
  predicate NoColumnsAt(t: Table, schema: Schema, j: nat) {
    |t.columns| == 0 && forall q :: 0 <= q < j && q < |schema| ==> !schema[q].1.Apply?
  }

  /** The frame the `j`-th rule sees has no columns exactly when
      `NoColumnsAt` says so. */
  lemma NoColumnsBefore(t: Table, schema: Schema, j: nat)
    requires WellFormed(t) && j <= |schema|
    ensures |ApplyRules(t, schema[..j]).columns| == 0 <==> NoColumnsAt(t, schema, j)
  {
    var r := ApplyRules(t, schema[..j]);
    EmptyIffNoMember(r.columns);
    if !NoColumnsAt(t, schema, j) {
      if |t.columns| > 0 {
        assert t.columns[0] in r.columns;
      } else {
        var q :| 0 <= q < j && q < |schema| && schema[q].1.Apply?;
        assert schema[..j][q] == schema[q];
        assert IsApplyKey(schema[..j], schema[q].0);
      }
    } else {
      assert forall q :: 0 <= q < j ==> schema[..j][q] == schema[q];
      assert forall c :: !IsApplyKey(schema[..j], c);
    }
  }

  lemma EmptyIffNoMember<T>(s: seq<T>)
    ensures |s| == 0 <==> forall x :: x !in s
  {
    if |s| > 0 {
      assert s[0] in s;
    }
  }

  /** A function column holds what `df.apply` makes of its generator over
      the table as it stood after the earlier function columns: one call per
      row, or the empty-frame calls when that table has no columns. */
  lemma {:induction false} ApplyRulesValue(t: Table, schema: Schema, j: nat, i: nat)
    requires WellFormed(t) && Distinct(Keys(schema))
    requires j < |schema| && schema[j].1.Apply? && i < |t.rows|
    ensures var before := ApplyRules(t, schema[..j]);
            ApplyRules(t, schema).rows[i][schema[j].0]
              == ApplyRows(schema[j].1.generator, before.rows, |before.columns|).0[i]
    decreases |schema|
  {
    var n := |schema| - 1;
    var prefix := schema[..n];
    var before := ApplyRules(t, prefix);
    if j < n {
      assert prefix[..j] == schema[..j];
      assert Distinct(Keys(prefix)) by {
        assert forall a :: 0 <= a < n ==> Keys(prefix)[a] == Keys(schema)[a];
      }
      ApplyRulesValue(t, prefix, j, i);
      if schema[n].1.Apply? {
        assert schema[n].0 != schema[j].0 by {
          assert Keys(schema)[n] != Keys(schema)[j];
        }
        assert ApplyRules(t, schema) == AddColumn(before, schema[n].0, schema[n].1.generator);
      } else {
        assert ApplyRules(t, schema) == before;
      }
    } else {
      assert prefix == schema[..j];
      assert ApplyRules(t, schema) == AddColumn(before, schema[n].0, schema[n].1.generator);
    }
  }

  // ---------------------------------------------------------------------
  // Step 2 (lines 69-70, 77): `df.rename(columns=rename_schema)`, where
  // `rename_schema[source] = key` for every string rule, later rules
  // overwriting earlier ones with the same source.

  /** The position of the last string rule taking column `c`, if any. */
  function LastRenameFrom(schema: Schema, c: string): (o: Option<nat>)
    ensures o.None? ==> forall j :: 0 <= j < |schema| ==> !RenamesFrom(schema, j, c)
    ensures o.Some? ==> && o.value < |schema| && RenamesFrom(schema, o.value, c)
                        && forall j :: o.value < j < |schema| ==> !RenamesFrom(schema, j, c)
    decreases |schema|
  {
    if |schema| == 0 then None
    else
      var n := |schema| - 1;
      if RenamesFrom(schema, n, c) then Some(n)
      else
        var o := LastRenameFrom(schema[..n], c);
        assert forall j :: 0 <= j < n ==> RenamesFrom(schema[..n], j, c) == RenamesFrom(schema, j, c);
        o
  }

  /** The name column `c` carries after the rename: the key of the last
      string rule taking it, since later dict entries overwrite earlier
      ones. */
  function RenameTarget(schema: Schema, c: string): (k: string)
    ensures k == c <== forall j :: 0 <= j < |schema| ==> !RenamesFrom(schema, j, c)
    ensures k != c ==>
              exists j :: && 0 <= j < |schema| && schema[j].0 == k && RenamesFrom(schema, j, c)
                          && forall j' :: j < j' < |schema| ==> !RenamesFrom(schema, j', c)
    ensures forall j :: (&& 0 <= j < |schema| && RenamesFrom(schema, j, c)
                         && forall j' :: j < j' < |schema| ==> !RenamesFrom(schema, j', c)) ==> k == schema[j].0
  {
    match LastRenameFrom(schema, c)
    case None => c
    case Some(j) => schema[j].0
  }

  function RenamedColumns(columns: seq<string>, schema: Schema): (r: seq<string>)
    ensures |r| == |columns|
    ensures forall p :: 0 <= p < |columns| ==> r[p] == RenameTarget(schema, columns[p])
  {
    seq(|columns|, p requires 0 <= p < |columns| => RenameTarget(schema, columns[p]))
  }

  /** Each row re-keyed by the renamed labels. */
  function RenameRows(t: Table, newColumns: seq<string>): (rows: seq<Row>)
    requires WellFormed(t) && |newColumns| == |t.columns| && Distinct(newColumns)
    ensures |rows| == |t.rows|
    ensures forall i :: 0 <= i < |t.rows| ==> rows[i].Keys == ColumnSet(newColumns)
    ensures forall i, c :: 0 <= i < |t.rows| ==> (c in rows[i] <==> c in newColumns)
    ensures forall i, p :: 0 <= i < |t.rows| && 0 <= p < |t.columns| ==>
              newColumns[p] in rows[i] && rows[i][newColumns[p]] == t.rows[i][t.columns[p]]
  {
    seq(|t.rows|, i requires 0 <= i < |t.rows| =>
      Zip(newColumns, seq(|t.columns|, p requires 0 <= p < |t.columns| => t.rows[i][t.columns[p]])))
  }

  // ---------------------------------------------------------------------
  // Step 3 (line 78): `df[cols_out]`.

  function FirstAbsent(keys: seq<string>, columns: seq<string>): (k: Option<string>)
    ensures k.None? <==> forall j :: 0 <= j < |keys| ==> keys[j] in columns
    ensures k.Some? ==> k.value in keys && k.value !in columns
    decreases |keys|
  {
    if |keys| == 0 then None
    else if keys[0] !in columns then Some(keys[0])
    else
      var rest := FirstAbsent(keys[1..], columns);
      assert forall j :: 1 <= j < |keys| ==> keys[j] == keys[1..][j - 1];
      rest
  }

  function SelectColumns(rows: seq<Row>, keys: seq<string>): (out: seq<Row>)
    requires forall i, k :: 0 <= i < |rows| && k in keys ==> k in rows[i]
    ensures |out| == |rows|
    ensures forall i :: 0 <= i < |rows| ==> out[i].Keys == ColumnSet(keys)
    ensures forall i, k :: 0 <= i < |rows| ==> (k in out[i] <==> k in keys)
    ensures forall i, k :: 0 <= i < |rows| && k in keys ==> out[i][k] == rows[i][k]
  {
    seq(|rows|, i requires 0 <= i < |rows| => map k | k in ColumnSet(keys) :: rows[i][k])
  }

  // ---------------------------------------------------------------------
  // The whole conversion.

  /** Output column `k` is produced: some column of the frame, original or
      added by a function rule, carries the name `k` after the rename. */
  ghost predicate Produced(t: Table, schema: Schema, k: string) {
    exists c :: (c in t.columns || IsApplyKey(schema, c)) && RenameTarget(schema, c) == k
  }

  /** Two different columns end up with the same name. Keys are distinct,
      so this is a column renamed onto a label another column keeps (an
      original column not renamed away, or a function rule's key). pandas
      would keep both under one label; the model reports this as an error. */
  ghost predicate Collides(t: Table, schema: Schema) {
    exists c1, c2 :: && (c1 in t.columns || IsApplyKey(schema, c1))
                     && (c2 in t.columns || IsApplyKey(schema, c2))
                     && c1 != c2 && RenameTarget(schema, c1) == RenameTarget(schema, c2)
  }

  function ConvertDataframe(t: Table, schema: Schema): (r: Result<Table>)
    requires WellFormed(t) && Distinct(Keys(schema))
    ensures r.Err? <==> (exists j :: 0 <= j < |schema| && !Produced(t, schema, schema[j].0)) || Collides(t, schema)
    ensures r.Ok? ==>
              && WellFormed(r.value) && r.value.columns == Keys(schema) && |r.value.rows| == |t.rows|
              // a string rule copies its source column, taken from the original frame
              && forall j, i :: 0 <= j < |schema| && 0 <= i < |t.rows| && schema[j].1.Rename?
                                && schema[j].1.source in t.columns
                                && RenameTarget(schema, schema[j].1.source) == schema[j].0 ==>
                                  r.value.rows[i][schema[j].0] == t.rows[i][schema[j].1.source]
  {
    var mid := ApplyRules(t, schema);
    var newColumns := RenamedColumns(mid.columns, schema);
    var keys := Keys(schema);
    ConvertErrors(t, schema);
    match FirstAbsent(keys, newColumns)
    case Some(k) => Err(KeyError(k))
    case None =>
      if !Distinct(newColumns) then Err(ValueError("duplicate column labels"))
      else
        var rows := RenameRows(mid, newColumns);
        var out := SelectColumns(rows, keys);
        ConvertRenameValues(t, schema);
        Ok(Table(keys, out))
  }

  /** The error cases of `ConvertDataframe`, in terms of its inputs. */
  lemma ConvertErrors(t: Table, schema: Schema)
    requires WellFormed(t) && Distinct(Keys(schema))
    ensures var newColumns := RenamedColumns(ApplyRules(t, schema).columns, schema);
            && ((exists j :: 0 <= j < |schema| && !Produced(t, schema, schema[j].0))
                <==> FirstAbsent(Keys(schema), newColumns).Some?)
            && (Collides(t, schema) <==> !Distinct(newColumns))
  {
    var mid := ApplyRules(t, schema);
    var newColumns := RenamedColumns(mid.columns, schema);
    forall k ensures Produced(t, schema, k) <==> k in newColumns {
      ProducedIsRenamed(t, schema, k);
    }
    CollidesIsDuplicate(t, schema);
  }

  lemma ProducedIsRenamed(t: Table, schema: Schema, k: string)
    requires WellFormed(t)
    ensures Produced(t, schema, k) <==> k in RenamedColumns(ApplyRules(t, schema).columns, schema)
  {
    var mid := ApplyRules(t, schema);
    var newColumns := RenamedColumns(mid.columns, schema);
    if Produced(t, schema, k) {
      var c :| (c in t.columns || IsApplyKey(schema, c)) && RenameTarget(schema, c) == k;
      assert c in mid.columns;
      var p :| 0 <= p < |mid.columns| && mid.columns[p] == c;
      assert newColumns[p] == k;
    }
    if k in newColumns {
      var p :| 0 <= p < |newColumns| && newColumns[p] == k;
      assert mid.columns[p] in mid.columns;
    }
  }

  lemma CollidesIsDuplicate(t: Table, schema: Schema)
    requires WellFormed(t)
    ensures Collides(t, schema) <==> !Distinct(RenamedColumns(ApplyRules(t, schema).columns, schema))
  {
    var cols := ApplyRules(t, schema).columns;
    RenamedDuplicate(cols, schema);
    if Collides(t, schema) {
      var c1, c2 :| && (c1 in t.columns || IsApplyKey(schema, c1))
                     && (c2 in t.columns || IsApplyKey(schema, c2))
                     && c1 != c2 && RenameTarget(schema, c1) == RenameTarget(schema, c2);
      assert c1 in cols && c2 in cols;
    }
  }

  /** Renaming distinct labels gives a repeated label exactly when two of
      them share a target. */
  lemma RenamedDuplicate(cols: seq<string>, schema: Schema)
    requires Distinct(cols)
    ensures (exists c1, c2 :: c1 in cols && c2 in cols && c1 != c2 && RenameTarget(schema, c1) == RenameTarget(schema, c2))
            <==> !Distinct(RenamedColumns(cols, schema))
  {
    if exists c1, c2 :: c1 in cols && c2 in cols && c1 != c2 && RenameTarget(schema, c1) == RenameTarget(schema, c2) {
      var c1, c2 :| c1 in cols && c2 in cols && c1 != c2 && RenameTarget(schema, c1) == RenameTarget(schema, c2);
      SharedTargetRepeats(cols, schema, c1, c2);
    }
    if !Distinct(RenamedColumns(cols, schema)) {
      RepeatHasSharedTarget(cols, schema);
    }
  }

  lemma SharedTargetRepeats(cols: seq<string>, schema: Schema, c1: string, c2: string)
    requires c1 in cols && c2 in cols && c1 != c2 && RenameTarget(schema, c1) == RenameTarget(schema, c2)
    ensures !Distinct(RenamedColumns(cols, schema))
  {
    var newColumns := RenamedColumns(cols, schema);
    var p1 :| 0 <= p1 < |cols| && cols[p1] == c1;
    var p2 :| 0 <= p2 < |cols| && cols[p2] == c2;
    assert newColumns[p1] == newColumns[p2];
  }

  lemma RepeatHasSharedTarget(cols: seq<string>, schema: Schema)
    requires Distinct(cols) && !Distinct(RenamedColumns(cols, schema))
    ensures exists c1, c2 :: c1 in cols && c2 in cols && c1 != c2 && RenameTarget(schema, c1) == RenameTarget(schema, c2)
  {
    var newColumns := RenamedColumns(cols, schema);
    var p1, p2 :| 0 <= p1 < p2 < |newColumns| && newColumns[p1] == newColumns[p2];
    assert cols[p1] in cols && cols[p2] in cols;
  }

  /** A string rule whose source keeps to the original frame reads its
      column as it stood before any function rule ran. */
  lemma ConvertRenameValues(t: Table, schema: Schema)
    requires WellFormed(t) && Distinct(Keys(schema))
    requires var newColumns := RenamedColumns(ApplyRules(t, schema).columns, schema);
             FirstAbsent(Keys(schema), newColumns).None? && Distinct(newColumns)
    ensures var mid := ApplyRules(t, schema);
            var newColumns := RenamedColumns(mid.columns, schema);
            var out := SelectColumns(RenameRows(mid, newColumns), Keys(schema));
            forall j, i :: 0 <= j < |schema| && 0 <= i < |t.rows| && schema[j].1.Rename?
                           && schema[j].1.source in t.columns
                           && RenameTarget(schema, schema[j].1.source) == schema[j].0 ==>
                             out[i][schema[j].0] == t.rows[i][schema[j].1.source]
  {
    var mid := ApplyRules(t, schema);
    var out := SelectColumns(RenameRows(mid, RenamedColumns(mid.columns, schema)), Keys(schema));
    forall j, i | 0 <= j < |schema| && 0 <= i < |t.rows| && schema[j].1.Rename?
                  && schema[j].1.source in t.columns
                  && RenameTarget(schema, schema[j].1.source) == schema[j].0
      ensures out[i][schema[j].0] == t.rows[i][schema[j].1.source]
    {
      RenameValueAt(t, schema, j, i);
    }
  }

  /** One string rule, one row: the output cell is the source cell. */
  lemma RenameValueAt(t: Table, schema: Schema, j: nat, i: nat)
    requires WellFormed(t) && Distinct(Keys(schema))
    requires var newColumns := RenamedColumns(ApplyRules(t, schema).columns, schema);
             FirstAbsent(Keys(schema), newColumns).None? && Distinct(newColumns)
    requires j < |schema| && i < |t.rows| && schema[j].1.Rename? && schema[j].1.source in t.columns
    requires RenameTarget(schema, schema[j].1.source) == schema[j].0
    ensures var mid := ApplyRules(t, schema);
            var out := SelectColumns(RenameRows(mid, RenamedColumns(mid.columns, schema)), Keys(schema));
            out[i][schema[j].0] == t.rows[i][schema[j].1.source]
  {
    var mid := ApplyRules(t, schema);
    var newColumns := RenamedColumns(mid.columns, schema);
    var keys := Keys(schema);
    var rows := RenameRows(mid, newColumns);
    var v := schema[j].1.source;
    var k := schema[j].0;
    assert v in mid.columns;
    var p :| 0 <= p < |mid.columns| && mid.columns[p] == v;
    assert rows[i][k] == mid.rows[i][v];
    assert keys[j] == k;
    RenamedSourceNotApplied(t, schema, j);
  }

  /** In a conversion that succeeds, no function rule writes to a column
      that a string rule renames. */
  lemma RenamedSourceNotApplied(t: Table, schema: Schema, j: nat)
    requires WellFormed(t) && Distinct(Keys(schema))
    requires FirstAbsent(Keys(schema), RenamedColumns(ApplyRules(t, schema).columns, schema)).None?
    requires j < |schema| && schema[j].1.Rename?
    requires RenameTarget(schema, schema[j].1.source) == schema[j].0
    ensures !IsApplyKey(schema, schema[j].1.source)
  {
    var v := schema[j].1.source;
    var keys := Keys(schema);
    var mid := ApplyRules(t, schema);
    var newColumns := RenamedColumns(mid.columns, schema);
    if IsApplyKey(schema, v) {
      var ja :| 0 <= ja < |schema| && schema[ja].0 == v && schema[ja].1.Apply?;
      assert keys[ja] == v;
      // `v` is selected, so some column `c` is renamed to it, and only `v` itself can be
      assert v in newColumns;
      var q :| 0 <= q < |newColumns| && newColumns[q] == v;
      OnlySelfRenamesToApplyKey(schema, mid.columns[q], ja);
      // yet `v` is renamed to `schema[j].0`, a different key
      assert false;
    }
  }

  /** Nothing but the column itself is renamed to a function rule's key. */
  lemma OnlySelfRenamesToApplyKey(schema: Schema, c: string, ja: nat)
    requires Distinct(Keys(schema))
    requires ja < |schema| && schema[ja].1.Apply?
    requires RenameTarget(schema, c) == schema[ja].0
    ensures c == schema[ja].0
  {
    var jr := RenameSource(schema, c);
    KeyPicksRule(schema);
    if c != schema[ja].0 {
      // the string rule at `jr` would share the function rule's key
      assert false;
    }
  }

  /** Distinct keys name one rule each. */
  lemma KeyPicksRule(schema: Schema)
    requires Distinct(Keys(schema))
    ensures forall j1, j2 :: 0 <= j1 < |schema| && 0 <= j2 < |schema| && schema[j1].0 == schema[j2].0 ==> j1 == j2
  {
    var ks := Keys(schema);
    forall j1, j2 | 0 <= j1 < |schema| && 0 <= j2 < |schema| && schema[j1].0 == schema[j2].0
      ensures j1 == j2
    {
      assert ks[j1] == ks[j2];
    }
  }

  /** A column renamed away is renamed by a string rule whose key it gets. */
  lemma RenameSource(schema: Schema, c: string) returns (jr: int)
    ensures RenameTarget(schema, c) != c ==>
              && 0 <= jr < |schema| && schema[jr].1.Rename?
              && Keys(schema)[jr] == RenameTarget(schema, c)
  {
    jr := match LastRenameFrom(schema, c) case None => -1 case Some(j) => j;
  }

  // ---------------------------------------------------------------------
  // Properties of a successful conversion.

  /** A function rule's key keeps its name through the rename when the
      conversion succeeds, and the output column holds the generator's
      values over the table as the earlier function rules left it. */
  lemma ConvertApplyValues(t: Table, schema: Schema, j: nat, i: nat)
    requires WellFormed(t) && Distinct(Keys(schema))
    requires ConvertDataframe(t, schema).Ok?
    requires j < |schema| && schema[j].1.Apply? && i < |t.rows|
    ensures var before := ApplyRules(t, schema[..j]);
            ConvertDataframe(t, schema).value.rows[i][schema[j].0]
              == ApplyRows(schema[j].1.generator, before.rows, |before.columns|).0[i]
  {
    var k := schema[j].0;
    var mid := ApplyRules(t, schema);
    var newColumns := RenamedColumns(mid.columns, schema);
    var keys := Keys(schema);
    ConvertErrors(t, schema);
    var rows := RenameRows(mid, newColumns);
    assert ConvertDataframe(t, schema).value.rows == SelectColumns(rows, keys);
    assert keys[j] == k;
    var q :| 0 <= q < |newColumns| && newColumns[q] == k;
    OnlySelfRenamesToApplyKey(schema, mid.columns[q], j);
    assert rows[i][k] == mid.rows[i][k];
    ApplyRulesValue(t, schema, j, i);
  }

  /** A `count_from` rule numbers the output rows consecutively from its
      start, however the other rules read, unless the frame has no columns
      when it runs: then every row holds the second value. */
  lemma ConvertCounterNumbersRows(t: Table, schema: Schema, j: nat, start: int, step: int, prefix: string)
    requires WellFormed(t) && Distinct(Keys(schema))
    requires ConvertDataframe(t, schema).Ok?
    requires j < |schema| && schema[j].1 == Apply(CountFromFactory(start, step, prefix))
    ensures forall i :: 0 <= i < |t.rows| ==>
              ConvertDataframe(t, schema).value.rows[i][schema[j].0]
                == Counted(start + (if NoColumnsAt(t, schema, j) then 1 else i) * step, prefix)
  {
    forall i | 0 <= i < |t.rows|
      ensures ConvertDataframe(t, schema).value.rows[i][schema[j].0]
                == Counted(start + (if NoColumnsAt(t, schema, j) then 1 else i) * step, prefix)
    {
      CounterAt(t, schema, j, start, step, prefix, i);
    }
  }

  lemma CounterAt(t: Table, schema: Schema, j: nat, start: int, step: int, prefix: string, i: nat)
    requires WellFormed(t) && Distinct(Keys(schema))
    requires ConvertDataframe(t, schema).Ok?
    requires j < |schema| && schema[j].1 == Apply(CountFromFactory(start, step, prefix)) && i < |t.rows|
    ensures ConvertDataframe(t, schema).value.rows[i][schema[j].0]
              == Counted(start + (if NoColumnsAt(t, schema, j) then 1 else i) * step, prefix)
  {
    ConvertApplyValues(t, schema, j, i);
    CounterValue(t, schema, j, start, step, prefix, i);
  }

  /** The value `df.apply` gives row `i` for a `count_from` rule. */
  lemma CounterValue(t: Table, schema: Schema, j: nat, start: int, step: int, prefix: string, i: nat)
    requires WellFormed(t) && j < |schema| && i < |t.rows|
    ensures var before := ApplyRules(t, schema[..j]);
            ApplyRows(CountFrom(start, step, prefix), before.rows, |before.columns|).0[i]
              == Counted(start + (if NoColumnsAt(t, schema, j) then 1 else i) * step, prefix)
  {
    var before := ApplyRules(t, schema[..j]);
    NoColumnsBefore(t, schema, j);
    CountFromAppliedAt(start, step, prefix, before.rows, |before.columns|, NoColumnsAt(t, schema, j), i);
  }

  // ---------------------------------------------------------------------
  // The generators a schema holds keep their state between conversions:
  // `count_from`'s closure owns an `itertools.count` that each call advances.

  /** The schema's rules once `convert_dataframe` has run: every function
      rule's generator has advanced through the calls `df.apply` made. */
  function SchemaAfter(t: Table, schema: Schema): (r: Schema)
    requires WellFormed(t)
    ensures Keys(r) == Keys(schema)
    ensures forall j :: 0 <= j < |schema| && schema[j].1.Rename? ==> r[j] == schema[j]
    ensures forall j :: 0 <= j < |schema| ==> r[j].1.Apply? == schema[j].1.Apply?
    decreases |schema|
  {
    if |schema| == 0 then []
    else
      var n := |schema| - 1;
      var rest := SchemaAfter(t, schema[..n]);
      var last := RuleAfter(t, schema, n);
      assert Keys(rest + [last]) == Keys(schema);
      rest + [last]
  }

  /** The n-th rule once the conversion has run: a function rule's
      generator has advanced through the calls `df.apply` made. */
  function RuleAfter(t: Table, schema: Schema, n: nat): (e: (string, Rule))
    requires WellFormed(t) && n < |schema|
    ensures e.0 == schema[n].0 && e.1.Apply? == schema[n].1.Apply?
    ensures schema[n].1.Rename? ==> e == schema[n]
  {
    match schema[n].1
    case Rename(_) => schema[n]
    case Apply(g) =>
      var before := ApplyRules(t, schema[..n]);
      (schema[n].0, Apply(ApplyRows(g, before.rows, |before.columns|).1))
  }

  /** The j-th function rule after a conversion: its generator advanced
      through `df.apply` over the frame as it stood after the earlier
      function columns. */
  lemma {:induction false} SchemaAfterAt(t: Table, schema: Schema, j: nat)
    requires WellFormed(t) && j < |schema| && schema[j].1.Apply?
    ensures var before := ApplyRules(t, schema[..j]);
            SchemaAfter(t, schema)[j].1
              == Apply(ApplyRows(schema[j].1.generator, before.rows, |before.columns|).1)
    decreases |schema|
  {
    var n := |schema| - 1;
    SchemaAfterSplit(t, schema);
    if j < n {
      SchemaAfterAt(t, schema[..n], j);
      assert schema[..n][..j] == schema[..j] && schema[..n][j] == schema[j];
    }
  }

  /** The last rule's state comes after those of the rules before it. */
  lemma SchemaAfterSplit(t: Table, schema: Schema)
    requires WellFormed(t) && |schema| > 0
    ensures var n := |schema| - 1;
            && SchemaAfter(t, schema)[n] == RuleAfter(t, schema, n)
            && forall j :: 0 <= j < n ==> SchemaAfter(t, schema)[j] == SchemaAfter(t, schema[..n])[j]
  {
    var n := |schema| - 1;
    var rest := SchemaAfter(t, schema[..n]);
    assert SchemaAfter(t, schema) == rest + [RuleAfter(t, schema, n)];
  }

  /** After one conversion a `count_from` rule stands one step further on
      per row converted, one step on for a frame with no rows, and two steps
      on for a frame with rows but no columns when the rule runs; the other
      generators are as they were. A second conversion with the same schema
      therefore numbers its rows from where the first stopped, as
      `ConvertCounterNumbersRows` shows for a counter in any state. */
  lemma SchemaAfterAdvances(t: Table, schema: Schema, j: nat)
    requires WellFormed(t) && j < |schema| && schema[j].1.Apply?
    ensures var g := schema[j].1.generator;
            SchemaAfter(t, schema)[j].1.generator
              == if g.CountFrom?
                 then CountFrom(g.next + (if |t.rows| == 0 then 1
                                          else if NoColumnsAt(t, schema, j) then 2
                                          else |t.rows|) * g.step, g.step, g.prefix)
                 else g
  {
    var g := schema[j].1.generator;
    var before := ApplyRules(t, schema[..j]);
    SchemaAfterAt(t, schema, j);
    NoColumnsBefore(t, schema, j);
    if g.CountFrom? {
      CountFromApplied(g.next, g.step, g.prefix, before.rows, |before.columns|);
    } else {
      StatelessApplied(g, before.rows, |before.columns|);
    }
  }

  /** Three rows and no columns, converted with `{"n": count_from(1)}`:
      `df.apply` calls the counter on a probe row and then once more, and
      the second value, 2, fills every row; the counter is left at 3. */
  lemma ColumnlessFrameRepeatsSecondValue()
    ensures var t := Table([], [map[], map[], map[]]);
            var schema := [("n", Apply(CountFromFactory(1, 1, "")))];
            && ConvertDataframe(t, schema).Ok?
            && (forall i :: 0 <= i < 3 ==> ConvertDataframe(t, schema).value.rows[i]["n"] == Int(2))
            && SchemaAfter(t, schema)[0].1 == Apply(CountFrom(3, 1, ""))
  {
    var t := Table([], [map[], map[], map[]]);
    var schema := [("n", Apply(CountFromFactory(1, 1, "")))];
    ColumnlessConverts(t, schema);
    assert NoColumnsAt(t, schema, 0);
    ConvertCounterNumbersRows(t, schema, 0, 1, 1, "");
    SchemaAfterAdvances(t, schema, 0);
  }

  lemma ColumnlessConverts(t: Table, schema: Schema)
    requires t == Table([], [map[], map[], map[]])
    requires schema == [("n", Apply(CountFromFactory(1, 1, "")))]
    ensures Distinct(Keys(schema)) && ConvertDataframe(t, schema).Ok?
  {
    assert Keys(schema) == ["n"];
    assert schema[0].0 == "n" && schema[0].1.Apply?;
    assert IsApplyKey(schema, "n");
    assert !RenamesFrom(schema, 0, "n");
    assert RenameTarget(schema, "n") == "n";
    assert Produced(t, schema, "n");
    assert forall j :: 0 <= j < |schema| ==> Produced(t, schema, schema[j].0);
    assert !Collides(t, schema) by {
      assert forall c :: c in t.columns || IsApplyKey(schema, c) ==> c == "n";
    }
  }

  /** Columns `a` and `b` with `{"b": "a"}`: `a` is renamed onto `b`, which
      no rule renames away, so the renamed frame holds `b` twice and the
      model reports the collision. */
  lemma RenameOntoKeptLabel()
    ensures var t := Table(["a", "b"], [map["a" := Int(1), "b" := Int(2)]]);
            var schema := [("b", Rename("a"))];
            && WellFormed(t) && Distinct(Keys(schema))
            && Collides(t, schema)
            && ConvertDataframe(t, schema) == Err(ValueError("duplicate column labels"))
  {
    var t := Table(["a", "b"], [map["a" := Int(1), "b" := Int(2)]]);
    var schema := [("b", Rename("a"))];
    assert Keys(schema) == ["b"];
    assert RenamesFrom(schema, 0, "a") && !RenamesFrom(schema, 0, "b");
    assert RenameTarget(schema, "a") == "b" && RenameTarget(schema, "b") == "b";
    assert "a" in t.columns && "b" in t.columns;
    assert Collides(t, schema);
  }

  /** Two renamed columns never collide: each key has one rename source. */
  lemma TwoRenamedNeverCollide(schema: Schema, c1: string, c2: string)
    requires Distinct(Keys(schema))
    requires RenameTarget(schema, c1) != c1 && RenameTarget(schema, c2) != c2 && c1 != c2
    ensures RenameTarget(schema, c1) != RenameTarget(schema, c2)
  {
    var k1, k2 := RenameTarget(schema, c1), RenameTarget(schema, c2);
    var j1 :| 0 <= j1 < |schema| && schema[j1].0 == k1 && RenamesFrom(schema, j1, c1);
    var j2 :| 0 <= j2 < |schema| && schema[j2].0 == k2 && RenamesFrom(schema, j2, c2);
    assert j1 != j2;
    assert Keys(schema)[j1] == k1 && Keys(schema)[j2] == k2;
  }

  /** The schema that renames every column to itself. */
  function IdentitySchema(columns: seq<string>): (schema: Schema)
    ensures Keys(schema) == columns
    ensures forall j :: 0 <= j < |schema| ==> RenamesFrom(schema, j, columns[j])
  {
    seq(|columns|, j requires 0 <= j < |columns| => (columns[j], Rename(columns[j])))
  }

  lemma IdentityRenameTarget(columns: seq<string>, p: nat)
    requires Distinct(columns) && p < |columns|
    ensures RenameTarget(IdentitySchema(columns), columns[p]) == columns[p]
  {
    var schema := IdentitySchema(columns);
    assert RenamesFrom(schema, p, columns[p]);
    forall j' | p < j' < |schema| ensures !RenamesFrom(schema, j', columns[p]) {
      assert columns[j'] != columns[p];
    }
  }

  lemma {:induction false} IdentityAppliesNothing(t: Table, schema: Schema, n: nat)
    requires WellFormed(t) && n <= |schema|
    requires forall j :: 0 <= j < |schema| ==> schema[j].1.Rename?
    ensures ApplyRules(t, schema[..n]) == t
  {
    if n > 0 {
      assert schema[..n][..n - 1] == schema[..n - 1];
      IdentityAppliesNothing(t, schema, n - 1);
    }
  }

  /** Converting with the identity schema gives back the table. */
  lemma ConvertIdentity(t: Table)
    requires WellFormed(t)
    ensures ConvertDataframe(t, IdentitySchema(t.columns)) == Ok(t)
  {
    var schema := IdentitySchema(t.columns);
    IdentityConverts(t);
    RenameInPlace(t);
  }

  /** Renaming every column to itself and selecting all of them changes no
      row. */
  lemma RenameInPlace(t: Table)
    requires WellFormed(t)
    ensures SelectColumns(RenameRows(t, t.columns), t.columns) == t.rows
  {
    var rows := RenameRows(t, t.columns);
    var out := SelectColumns(rows, t.columns);
    forall i | 0 <= i < |t.rows| ensures out[i] == t.rows[i] {
      SameRow(out[i], t.rows[i], t.columns);
    }
  }

  /** Two rows over the same labels that agree on every label are equal. */
  lemma SameRow(a: Row, b: Row, columns: seq<string>)
    requires a.Keys == ColumnSet(columns) && b.Keys == ColumnSet(columns)
    requires forall p :: 0 <= p < |columns| ==> a[columns[p]] == b[columns[p]]
    ensures a == b
  {
    forall k | k in a ensures a[k] == b[k] {
      var p :| 0 <= p < |columns| && columns[p] == k;
    }
  }

  /** The identity schema applies nothing and renames nothing. */
  lemma IdentityConverts(t: Table)
    requires WellFormed(t)
    ensures ApplyRules(t, IdentitySchema(t.columns)) == t
    ensures RenamedColumns(t.columns, IdentitySchema(t.columns)) == t.columns
    ensures FirstAbsent(t.columns, t.columns).None?
  {
    var schema := IdentitySchema(t.columns);
    IdentityAppliesNothing(t, schema, |schema|);
    assert schema[..|schema|] == schema;
    var newColumns := RenamedColumns(t.columns, schema);
    forall p | 0 <= p < |t.columns| ensures newColumns[p] == t.columns[p] {
      IdentityRenameTarget(t.columns, p);
    }
  }
}

=== FILE: sheet_columns.dfy ===
/** Spreadsheet column names as the sheet itself numbers them: bijective
    base 26 over A..Z, so column 0 is "A", 25 is "Z" and 26 is "AA". This is
    the numbering `number_to_column` and `column_to_number` are evidently
    meant to follow; `Utils` models the base-25 code as written. */
module SheetColumns {
  import opened Utils

  /** The letters of column `n` (0-based); a negative `n` gives one letter,
      as in the as-written codec. */
  function SheetLetters(n: int): (s: string)
    ensures |s| > 0 && AllUpper(s)
    decreases if n < 0 then 0 else n
  {
    var letter := Capital(n % 26);
    if n / 26 > 0 then SheetLetters(n / 26 - 1) + [letter] else [letter]
  }

  /** The positional value of a string of letters in base 26, each letter
      scoring its 1-based position. */
  function SheetValue(s: string): nat
    requires AllUpper(s)
    decreases |s|
  {
    if |s| == 0 then 0 else 26 * SheetValue(s[..|s| - 1]) + LetterScore(s[|s| - 1])
  }

  /** The 0-based column a string of letters names. */
  function SheetNumber(s: string): (r: int)
    requires AllUpper(s)
    ensures |s| > 0 ==> r >= 0
  {
    SheetValue(s) - 1
  }

  lemma SheetLastLetter(n: int)
    ensures var s := SheetLetters(n);
            && s[..|s| - 1] == (if n / 26 > 0 then SheetLetters(n / 26 - 1) else [])
            && LetterScore(s[|s| - 1]) == n % 26 + 1
  {
    var s := SheetLetters(n);
    assert s[|s| - 1] == Capital(n % 26);
  }

  /** Every column number is named by letters that read back as it. */
  lemma {:induction false} SheetLettersRoundTrip(n: int)
    requires n >= 0
    ensures SheetNumber(SheetLetters(n)) == n
    decreases n
  {
    var s := SheetLetters(n);
    SheetLastLetter(n);
    var q := n / 26;
    assert SheetValue(s) == 26 * SheetValue(s[..|s| - 1]) + n % 26 + 1;
    if q > 0 {
      SheetLettersRoundTrip(q - 1);
      assert SheetValue(s[..|s| - 1]) == q;
    } else {
      assert SheetValue(s[..|s| - 1]) == 0;
    }
    assert n == 26 * q + n % 26;
  }

  /** The letter whose score is `d + 1`. */
  lemma LetterOfScore(c: char)
    requires IsUpper(c)
    ensures Capital(LetterScore(c) - 1) == c
  {
  }

  lemma DivideByBase(v: nat, d: nat)
    requires d < 26
    ensures (26 * v + d) % 26 == d && (26 * v + d) / 26 == v
  {
  }

  /** Appending a letter to the name of column `v - 1` names the column
      `26 * v + score - 1`. */
  lemma SheetLettersSnoc(n: int, v: nat, c: char)
    requires IsUpper(c) && n == 26 * v + LetterScore(c) - 1
    ensures SheetLetters(n) == (if v > 0 then SheetLetters(v - 1) else []) + [c]
  {
    var d := LetterScore(c) - 1;
    DivideByBase(v, d);
    LetterOfScore(c);
    SheetLettersUnfold(n);
  }

  lemma SheetLettersUnfold(n: int)
    ensures SheetLetters(n) == (if n / 26 > 0 then SheetLetters(n / 26 - 1) else []) + [Capital(n % 26)]
  {
  }

  /** Every non-empty string of capitals is the name of its own number, so
      the codec is one-to-one on all of A..Z (no letter is skipped). */
  lemma {:induction false} SheetNumberRoundTrip(s: string)
    requires |s| > 0 && AllUpper(s)
    ensures SheetLetters(SheetNumber(s)) == s
    decreases |s|
  {
    var p := s[..|s| - 1];
    var last := s[|s| - 1];
    var v := SheetValue(p);
    var n := SheetNumber(s);
    assert SheetValue(s) == 26 * v + LetterScore(last);
    assert n == 26 * v + LetterScore(last) - 1;
    SheetLettersSnoc(n, v, last);
    var head := if v > 0 then SheetLetters(v - 1) else [];
    assert SheetLetters(n) == head + [last];
    assert head == p by {
      if |p| > 0 {
        SheetNumberRoundTrip(p);
        assert v >= 1 by {
          assert v == 26 * SheetValue(p[..|p| - 1]) + LetterScore(p[|p| - 1]);
        }
      }
    }
    assert SheetLetters(SheetNumber(s)) == p + [last];
    LastSplit(s);
  }

  lemma LastSplit(s: string)
    requires |s| > 0
    ensures s == s[..|s| - 1] + [s[|s| - 1]]
  {
  }

  /** The 26th column is "Z" and the 27th is "AA". */
  lemma ZThenAA()
    ensures SheetLetters(25) == "Z" && SheetLetters(26) == "AA"
    ensures SheetNumber("Z") == 25 && SheetNumber("AA") == 26
  {
    assert "AA"[..1] == "A";
    assert "A"[..0] == "";
    assert "Z"[..0] == "";
  }
}

=== FILE: tables.dfy ===
/** The in-memory table the core works on: an ordered list of column labels
    and a sequence of rows, each row mapping every label to a cell. A cell is
    the missing marker, an integer, a string, or a list-valued point. */
module Tables {
  import Decimal

  /** One table cell. `Missing` is the NaN/None marker; it is told apart from
      every value by `IsMissing`, and only the diff predicate treats two
      missing cells as "no difference". */
  datatype Cell = Missing | Int(i: int) | Text(s: string) | Point(coords: seq<int>)

  type Row = map<string, Cell>

  datatype Table = Table(columns: seq<string>, rows: seq<Row>)

  predicate Distinct<T(==)>(s: seq<T>) {
    forall i, j :: 0 <= i < j < |s| ==> s[i] != s[j]
  }

  function ColumnSet(columns: seq<string>): (r: set<string>)
    ensures forall c :: c in r <==> c in columns
  {
    set c | c in columns
  }

  /** A DataFrame's shape: unique labels, and every row holds exactly them. */
  predicate WellFormed(t: Table) {
    && Distinct(t.columns)
    && forall i :: 0 <= i < |t.rows| ==> t.rows[i].Keys == ColumnSet(t.columns)
  }

  predicate IsMissing(c: Cell) {
    c.Missing?
  }

  /** Python truthiness of a value: `None`, `0`, `""` and `[]` are false. */
  predicate Truthy(c: Cell) {
    match c
    case Missing => false
    case Int(i) => i != 0
    case Text(s) => s != ""
    case Point(xs) => xs != []
  }

  /** The values of one column, top to bottom. */
  function Column(rows: seq<Row>, c: string): (col: seq<Cell>)
    requires forall i :: 0 <= i < |rows| ==> c in rows[i]
    ensures |col| == |rows|
    ensures forall i :: 0 <= i < |rows| ==> col[i] == rows[i][c]
  {
    seq(|rows|, i requires 0 <= i < |rows| => rows[i][c])
  }

  /** Every row with column `c` set to the value at the same position. */
  function ReplaceColumn(rows: seq<Row>, c: string, vals: seq<Cell>): (r: seq<Row>)
    requires |vals| == |rows|
    ensures |r| == |rows|
    ensures forall i :: 0 <= i < |rows| ==> r[i] == rows[i][c := vals[i]]
  {
    seq(|rows|, i requires 0 <= i < |rows| => rows[i][c := vals[i]])
  }

  /** Writing a column's own values back leaves the rows as they were. */
  lemma ReplaceOwnColumn(rows: seq<Row>, c: string)
    requires forall i :: 0 <= i < |rows| ==> c in rows[i]
    ensures ReplaceColumn(rows, c, Column(rows, c)) == rows
  {
    var r := ReplaceColumn(rows, c, Column(rows, c));
    forall i | 0 <= i < |rows|
      ensures r[i] == rows[i]
    {
      assert r[i] == rows[i][c := rows[i][c]];
    }
  }

  /** The identity values of a table, in row order. */
  function Ids(t: Table, id: string): (ids: seq<Cell>)
    requires WellFormed(t) && id in t.columns
    ensures |ids| == |t.rows|
    ensures forall i :: 0 <= i < |t.rows| ==> ids[i] == t.rows[i][id]
  {
    Column(t.rows, id)
  }

  function IdSet(t: Table, id: string): (s: set<Cell>)
    requires WellFormed(t) && id in t.columns
    ensures forall x :: x in s <==> exists i :: 0 <= i < |t.rows| && t.rows[i][id] == x
  {
    set i | 0 <= i < |t.rows| :: t.rows[i][id]
  }

  /** No later position holds the same key. */
  predicate LastOccurrence<K(==)>(keys: seq<K>, j: int)
    requires 0 <= j < |keys|
  {
    forall jj :: j < jj < |keys| ==> keys[jj] != keys[j]
  }

  /** The last position holding the same key as position `j`. */
  lemma LastIndex<K>(keys: seq<K>, j: int) returns (jj: int)
    requires 0 <= j < |keys|
    ensures j <= jj < |keys| && keys[jj] == keys[j] && LastOccurrence(keys, jj)
    decreases |keys| - j
  {
    if LastOccurrence(keys, j) {
      jj := j;
    } else {
      var next :| j < next < |keys| && keys[next] == keys[j];
      jj := LastIndex(keys, next);
    }
  }

  /** The dict built by assigning `vals[j]` to `keys[j]` in order: a key
      given twice keeps the value of its last position. */
  function Dict<K, V>(keys: seq<K>, vals: seq<V>): (m: map<K, V>)
    requires |keys| == |vals|
    ensures m.Keys == set k | k in keys
    ensures forall j :: 0 <= j < |keys| ==> keys[j] in m
    ensures forall j :: 0 <= j < |keys| && LastOccurrence(keys, j) ==> m[keys[j]] == vals[j]
  {
    var m := map j | 0 <= j < |keys| && LastOccurrence(keys, j) :: keys[j] := vals[j];
    assert forall j :: 0 <= j < |keys| ==> keys[j] in m by {
      forall j | 0 <= j < |keys| ensures keys[j] in m {
        var jj := LastIndex(keys, j);
      }
    }
    m
  }

  /** A map from a list of distinct keys to the values at the same positions. */
  function Zip<K, V>(keys: seq<K>, vals: seq<V>): (m: map<K, V>)
    requires |keys| == |vals| && Distinct(keys)
    ensures m.Keys == set k | k in keys
    ensures forall j :: 0 <= j < |keys| ==> m[keys[j]] == vals[j]
  {
    assert forall j :: 0 <= j < |keys| ==> LastOccurrence(keys, j);
    Dict(keys, vals)
  }

  /** `a` appears in `b` in the same order, possibly with gaps. */
  predicate Subsequence<T(==)>(a: seq<T>, b: seq<T>)
    decreases |b|
  {
    if |a| == 0 then true
    else if |b| == 0 then false
    else if a[0] == b[0] then Subsequence(a[1..], b[1..])
    else Subsequence(a, b[1..])
  }

  /** `out` holds each row of `rows` that the mask keeps, as often as it
      occurs in `rows`, and no other row. */
  ghost predicate KeepsCounts(out: seq<Row>, rows: seq<Row>, id: string, ids: set<Cell>, inside: bool)
    requires forall i :: 0 <= i < |rows| ==> id in rows[i]
  {
    forall r :: multiset(out)[r] == if r in rows && (r[id] in ids) == inside then multiset(rows)[r] else 0
  }

  /** Boolean-mask selection by identity: the rows whose identity is in
      `ids` (when `inside`) or not in `ids` (when not `inside`), in order.
      This is `df[np.isin(df[id], ids)]` and its negation. */
  function SelectById(rows: seq<Row>, id: string, ids: set<Cell>, inside: bool): (out: seq<Row>)
    requires forall i :: 0 <= i < |rows| ==> id in rows[i]
    ensures |out| <= |rows|
    ensures Subsequence(out, rows)
    ensures forall r :: r in out <==> r in rows && (r[id] in ids) == inside
    ensures KeepsCounts(out, rows, id, ids, inside)
    decreases |rows|
  {
    if |rows| == 0 then []
    else
      var rest := SelectById(rows[1..], id, ids, inside);
      assert rows == [rows[0]] + rows[1..];
      KeepsCountsStep(rows, id, ids, inside, rest);
      if (rows[0][id] in ids) == inside then [rows[0]] + rest else rest
  }

  /** The mask's counts over the tail extend to the whole sequence. */
  lemma KeepsCountsStep(rows: seq<Row>, id: string, ids: set<Cell>, inside: bool, rest: seq<Row>)
    requires |rows| > 0 && forall i :: 0 <= i < |rows| ==> id in rows[i]
    requires KeepsCounts(rest, rows[1..], id, ids, inside)
    ensures KeepsCounts(if (rows[0][id] in ids) == inside then [rows[0]] + rest else rest, rows, id, ids, inside)
  {
    assert rows == [rows[0]] + rows[1..];
    var out := if (rows[0][id] in ids) == inside then [rows[0]] + rest else rest;
    assert multiset(rows) == multiset{rows[0]} + multiset(rows[1..]);
    forall r ensures multiset(out)[r] == if r in rows && (r[id] in ids) == inside then multiset(rows)[r] else 0 {
      if r !in rows[1..] {
        assert multiset(rows[1..])[r] == 0;
      }
    }
  }

  /** A mask that keeps every row keeps the rows as they are ... */
  lemma {:induction false} SelectByIdKeepsAll(rows: seq<Row>, id: string, ids: set<Cell>, inside: bool)
    requires forall i :: 0 <= i < |rows| ==> id in rows[i] && (rows[i][id] in ids) == inside
    ensures SelectById(rows, id, ids, inside) == rows
    decreases |rows|
  {
    if |rows| > 0 {
      SelectByIdKeepsAll(rows[1..], id, ids, inside);
    }
  }

  /** ... and one that keeps no row gives no rows. */
  lemma {:induction false} SelectByIdKeepsNone(rows: seq<Row>, id: string, ids: set<Cell>, inside: bool)
    requires forall i :: 0 <= i < |rows| ==> id in rows[i] && (rows[i][id] in ids) != inside
    ensures SelectById(rows, id, ids, inside) == []
    decreases |rows|
  {
    if |rows| > 0 {
      SelectByIdKeepsNone(rows[1..], id, ids, inside);
    }
  }

  /** `str(x)` of a cell. */
  function Render(c: Cell): string {
    match c
    case Missing => "nan"
    case Int(i) => Decimal.IntToString(i)
    case Text(s) => s
    case Point(xs) => "[" + JoinInts(xs) + "]"
  }

  function JoinInts(xs: seq<int>): string
    decreases |xs|
  {
    if |xs| == 0 then ""
    else if |xs| == 1 then Decimal.IntToString(xs[0])
    else Decimal.IntToString(xs[0]) + ", " + JoinInts(xs[1..])
  }
}

=== FILE: utils.dfy ===
/** tablebridge/utils.py: the NaN-aware row difference predicate and the
    spreadsheet column-letter codec. */
module Utils {
  import opened Outcomes
  import opened Tables

  /** Two cells count as different unless both are missing or they are equal.
      Exactly one missing side is a difference (NaN != anything). */
  predicate CellsDiffer(a: Cell, b: Cell) {
    !(IsMissing(a) && IsMissing(b)) && a != b
  }

  /** Every positionally paired label is present in the row. */
  predicate PairsPresent(row: Row, a: seq<string>, b: seq<string>) {
    forall i :: 0 <= i < |a| && i < |b| ==> a[i] in row && b[i] in row
  }

  /** The walk passes every pair before position `i`: each has both labels
      in the row and does not differ. */
  predicate Reaches(row: Row, a: seq<string>, b: seq<string>, i: int) {
    forall j :: 0 <= j < i && j < |a| && j < |b| ==>
      a[j] in row && b[j] in row && !CellsDiffer(row[a[j]], row[b[j]])
  }

  /** The walk stops at pair `i`: it reaches it, and the pair either has an
      absent label or differs. */
  predicate StopsAt(row: Row, a: seq<string>, b: seq<string>, i: int) {
    && 0 <= i < |a| && i < |b| && Reaches(row, a, b, i)
    && (a[i] !in row || b[i] !in row || CellsDiffer(row[a[i]], row[b[i]]))
  }

  /** `row_differs(row, a, b)`: walks `zip(a, b)` in order, skips pairs where
      both cells are missing, and answers true at the first pair that differs.
      A label absent from the row raises `KeyError` when its pair is reached. */
  function RowDiffers(row: Row, a: seq<string>, b: seq<string>): (r: Result<bool>)
    ensures PairsPresent(row, a, b) ==>
              r == Ok(exists i :: 0 <= i < |a| && i < |b| && CellsDiffer(row[a[i]], row[b[i]]))
    ensures r == Ok(true) ==>
              exists i :: 0 <= i < |a| && i < |b| && a[i] in row && b[i] in row
                          && CellsDiffer(row[a[i]], row[b[i]])
    ensures r.Err? ==> exists i :: 0 <= i < |a| && i < |b| && (a[i] !in row || b[i] !in row)
    decreases |a|
  {
    if |a| == 0 || |b| == 0 then Ok(false)
    else if a[0] !in row then Err(KeyError(a[0]))
    else if b[0] !in row then Err(KeyError(b[0]))
    else if CellsDiffer(row[a[0]], row[b[0]]) then Ok(true)
    else
      var rest := RowDiffers(row, a[1..], b[1..]);
      RowDiffersShift(row, a, b, rest);
      rest
  }

  /** What the walk over the remaining pairs answers carries over to the
      whole walk once the first pair has been passed. */
  lemma RowDiffersShift(row: Row, a: seq<string>, b: seq<string>, rest: Result<bool>)
    requires |a| > 0 && |b| > 0
    requires a[0] in row && b[0] in row && !CellsDiffer(row[a[0]], row[b[0]])
    requires PairsPresent(row, a[1..], b[1..]) ==>
               rest == Ok(exists i :: 0 <= i < |a[1..]| && i < |b[1..]| && CellsDiffer(row[a[1..][i]], row[b[1..][i]]))
    requires rest == Ok(true) ==>
               exists i :: 0 <= i < |a[1..]| && i < |b[1..]| && a[1..][i] in row && b[1..][i] in row
                           && CellsDiffer(row[a[1..][i]], row[b[1..][i]])
    requires rest.Err? ==> exists i :: 0 <= i < |a[1..]| && i < |b[1..]| && (a[1..][i] !in row || b[1..][i] !in row)
    ensures PairsPresent(row, a, b) ==>
              rest == Ok(exists i :: 0 <= i < |a| && i < |b| && CellsDiffer(row[a[i]], row[b[i]]))
    ensures rest == Ok(true) ==>
              exists i :: 0 <= i < |a| && i < |b| && a[i] in row && b[i] in row
                          && CellsDiffer(row[a[i]], row[b[i]])
    ensures rest.Err? ==> exists i :: 0 <= i < |a| && i < |b| && (a[i] !in row || b[i] !in row)
  {
    assert forall i :: 0 < i < |a| && i < |b| ==> a[i] == a[1..][i - 1] && b[i] == b[1..][i - 1];
    if PairsPresent(row, a, b) {
      assert PairsPresent(row, a[1..], b[1..]);
    }
  }

  /** The outcome of `row_differs` is decided by the first pair the walk
      cannot pass: no such pair gives false; an absent label there raises
      `KeyError` for that label, the new side's first; a differing pair
      there gives true. */
  lemma {:induction false} RowDiffersStops(row: Row, a: seq<string>, b: seq<string>)
    ensures RowDiffers(row, a, b) == Ok(false) <==> forall i :: !StopsAt(row, a, b, i)
    ensures forall i :: StopsAt(row, a, b, i) ==>
              RowDiffers(row, a, b)
                == (if a[i] !in row then Err(KeyError(a[i]))
                    else if b[i] !in row then Err(KeyError(b[i]))
                    else Ok(true))
    decreases |a|
  {
    if |a| == 0 || |b| == 0 {
    } else if a[0] !in row || b[0] !in row || CellsDiffer(row[a[0]], row[b[0]]) {
      StopsAtFirst(row, a, b);
    } else {
      RowDiffersStops(row, a[1..], b[1..]);
      StopsShift(row, a, b);
      assert forall i :: 0 < i < |a| && i < |b| ==> a[i] == a[1..][i - 1] && b[i] == b[1..][i - 1];
      if exists i :: StopsAt(row, a[1..], b[1..], i) {
        var i :| StopsAt(row, a[1..], b[1..], i);
        assert StopsAt(row, a, b, i + 1);
      }
    }
  }

  /** A walk that cannot pass the first pair stops there and nowhere else. */
  lemma StopsAtFirst(row: Row, a: seq<string>, b: seq<string>)
    requires |a| > 0 && |b| > 0
    requires a[0] !in row || b[0] !in row || CellsDiffer(row[a[0]], row[b[0]])
    ensures StopsAt(row, a, b, 0)
    ensures forall i :: StopsAt(row, a, b, i) ==> i == 0
  {
  }

  /** A walk that passes the first pair stops where the walk over the
      remaining pairs stops, one position later. */
  lemma StopsShift(row: Row, a: seq<string>, b: seq<string>)
    requires |a| > 0 && |b| > 0
    requires a[0] in row && b[0] in row && !CellsDiffer(row[a[0]], row[b[0]])
    ensures forall i :: StopsAt(row, a, b, i) <==> i > 0 && StopsAt(row, a[1..], b[1..], i - 1)
  {
    forall i | i > 0
      ensures Reaches(row, a, b, i) <==> Reaches(row, a[1..], b[1..], i - 1)
    {
      assert forall j :: 0 < j < |a| && j < |b| ==> a[j] == a[1..][j - 1] && b[j] == b[1..][j - 1];
    }
  }

  /** A pair of missing cells never makes a row differ: comparing a row's
      columns with themselves, or with columns that are all missing on both
      sides, reports no difference. */
  lemma MissingPairsNeverDiffer(row: Row, a: seq<string>, b: seq<string>)
    requires PairsPresent(row, a, b)
    requires forall i :: 0 <= i < |a| && i < |b| ==> row[a[i]] == row[b[i]] || (IsMissing(row[a[i]]) && IsMissing(row[b[i]]))
    ensures RowDiffers(row, a, b) == Ok(false)
  {
  }

  // ---------------------------------------------------------------------
  // Column letters. The source indexes `string.ascii_uppercase` with a
  // remainder modulo 25, so the letters used are A..Y: a bijective base-25
  // numeration in which 'Z' is never produced.

  predicate IsUpper(c: char) {
    'A' <= c <= 'Z'
  }

  /** `string.ascii_uppercase[k]`: the capital letter at position `k`. */
  function Capital(k: int): (c: char)
    requires 0 <= k < 26
    ensures IsUpper(c)
  {
    ('A' as int + k) as char
  }

  /** A letter `number_to_column` can produce. */
  predicate IsColumnLetter(c: char) {
    'A' <= c <= 'Y'
  }

  predicate AllColumnLetters(s: string) {
    forall k :: 0 <= k < |s| ==> IsColumnLetter(s[k])
  }

  predicate AllUpper(s: string) {
    forall k :: 0 <= k < |s| ==> IsUpper(s[k])
  }

  /** Reference definition of `number_to_column(n)` (offset already added):
      the last letter is `n mod 25`, and while `floor(n / 25) > 0` the
      quotient minus one is written in front. Python's `np.remainder` and
      `np.floor` round towards minus infinity, as Dafny's `%` and `/` do for
      a positive divisor, so a negative `n` gives one letter. */
  function ColumnLetters(n: int): (s: string)
    ensures |s| > 0 && AllColumnLetters(s)
    decreases if n < 0 then 0 else n
  {
    var letter := Capital(n % 25);
    if n / 25 > 0 then ColumnLetters(n / 25 - 1) + [letter] else [letter]
  }

  /** `number_to_column(n, offset)`, with the source's loop. */
  method NumberToColumn(n0: int, offset: int) returns (letters: string)
    ensures letters == ColumnLetters(n0 + offset)
    ensures |letters| > 0 && AllColumnLetters(letters)
  {
    var n := n0 + offset;
    letters := "";
    var divisor := 1;
    while divisor > 0
      invariant divisor > 0 ==> ColumnLetters(n) + letters == ColumnLetters(n0 + offset)
      invariant divisor > 0 && letters != [] ==> n >= 0
      invariant divisor <= 0 ==> letters == ColumnLetters(n0 + offset)
      decreases if divisor <= 0 then 0 else if n < 0 then 1 else n + 2
    {
      letters := [Capital(n % 25)] + letters;
      divisor := n / 25;
      n := divisor - 1;
    }
  }

  /** The score of a letter: its 1-based position in A..Z ('Z' scores 26). */
  function LetterScore(c: char): (d: nat)
    requires IsUpper(c)
    ensures 1 <= d <= 26
  {
    (c as int - 'A' as int) as nat + 1
  }

  /** The positional value of a string of letters: the last letter counts
      once, the one before it 25 times, and so on. */
  function PlaceValue(s: string): nat
    requires AllUpper(s)
    decreases |s|
  {
    if |s| == 0 then 0 else 25 * PlaceValue(s[..|s| - 1]) + LetterScore(s[|s| - 1])
  }

  /** Reference definition of `column_to_number`: the place value minus one,
      or the `IndexError` raised by `[0]` on an empty search for a
      character outside A..Z. */
  function ColumnNumber(s: string): (r: Result<int>)
    ensures r.Err? <==> !AllUpper(s)
  {
    if AllUpper(s) then Ok(PlaceValue(s) - 1) else Err(IndexError)
  }

  function Pow25(k: nat): nat {
    if k == 0 then 1 else 25 * Pow25(k - 1)
  }

  /** Putting a letter in front multiplies its score by the next power. */
  lemma {:induction false} PlaceValuePrepend(c: char, s: string)
    requires IsUpper(c) && AllUpper(s)
    ensures AllUpper([c] + s)
    ensures PlaceValue([c] + s) == LetterScore(c) * Pow25(|s|) + PlaceValue(s)
    decreases |s|
  {
    var t := [c] + s;
    if |s| > 0 {
      var p := s[..|s| - 1];
      assert t[..|t| - 1] == [c] + p;
      PlaceValuePrepend(c, p);
      var score, power := LetterScore(c), Pow25(|p|);
      assert PlaceValue(t) == 25 * (score * power + PlaceValue(p)) + LetterScore(s[|s| - 1]);
      assert 25 * (score * power) == score * (25 * power);
    }
  }

  /** `column_to_number(aa)`, with the source's loop over the reversed string
      summing `score * 25 ** ii`. */
  method ColumnToNumber(aa: string) returns (r: Result<int>)
    ensures r == ColumnNumber(aa)
  {
    var number: int := 0;
    var ii := 0;
    while ii < |aa|
      invariant 0 <= ii <= |aa|
      invariant AllUpper(aa[|aa| - ii..])
      invariant number == PlaceValue(aa[|aa| - ii..])
    {
      var letter := aa[|aa| - 1 - ii];
      if !IsUpper(letter) {
        return Err(IndexError);
      }
      var base := Pow25(ii);
      var dig := LetterScore(letter);
      PlaceValuePrepend(letter, aa[|aa| - ii..]);
      assert [letter] + aa[|aa| - ii..] == aa[|aa| - (ii + 1)..];
      number := number + dig * base;
      ii := ii + 1;
    }
    assert aa[|aa| - ii..] == aa;
    return Ok(number - 1);
  }

  /** The last letter of `ColumnLetters(n)` scores `n % 25 + 1`; the letters
      before it are those of `n / 25 - 1`, or none. */
  lemma LastLetter(n: int)
    ensures var s := ColumnLetters(n);
            && AllUpper(s)
            && s[..|s| - 1] == (if n / 25 > 0 then ColumnLetters(n / 25 - 1) else [])
            && LetterScore(s[|s| - 1]) == n % 25 + 1
  {
    var s := ColumnLetters(n);
    assert s[|s| - 1] == Capital(n % 25);
  }

  /** `column_to_number(number_to_column(n)) == n` for every n >= 0. */
  lemma LettersRoundTrip(n: int)
    requires n >= 0
    ensures ColumnNumber(ColumnLetters(n)) == Ok(n)
  {
    LettersValue(n);
  }

  /** The letters of `n` have place value `n + 1`. */
  lemma {:induction false} LettersValue(n: int)
    requires n >= 0
    ensures AllUpper(ColumnLetters(n)) && PlaceValue(ColumnLetters(n)) == n + 1
    decreases n
  {
    var s := ColumnLetters(n);
    var q := n / 25;
    LastLetter(n);
    var v := PlaceValue(s[..|s| - 1]);
    assert PlaceValue(s) == 25 * v + n % 25 + 1;
    if q > 0 {
      LettersValue(q - 1);
    }
    assert v == q;
  }

  /** The other direction: a non-empty string over A..Y is the letters of
      its own number. */
  lemma {:induction false} NumberRoundTrip(s: string)
    requires |s| > 0 && AllColumnLetters(s)
    ensures AllUpper(s)
    ensures ColumnLetters(PlaceValue(s) - 1) == s
    decreases |s|
  {
    assert AllUpper(s);
    var p := s[..|s| - 1];
    var n := PlaceValue(s) - 1;
    assert n == 25 * PlaceValue(p) + (LetterScore(s[|s| - 1]) - 1);
    assert n % 25 == LetterScore(s[|s| - 1]) - 1;
    assert n / 25 == PlaceValue(p);
    assert Capital(n % 25) == s[|s| - 1];
    if |p| > 0 {
      NumberRoundTrip(p);
      assert PlaceValue(p) > 0;
    } else {
      assert PlaceValue(p) == 0;
    }
    assert s == p + [s[|s| - 1]];
  }

  /** 'Z' scores 26, so "Z" and "AA" name the same number and the codec is
      one-to-one only on strings over A..Y. */
  lemma ZAliasesAA()
    ensures ColumnNumber("Z") == ColumnNumber("AA") == Ok(25)
    ensures ColumnLetters(25) == "AA"
  {
    assert "AA"[..1] == "A";
    assert "A"[..0] == "";
  }
}

=== FILE: validation.dfy ===
/** tablebridge/validation.py: parsers applied to raw sheet strings. */
module Validation {
  import opened Outcomes
  import opened Tables
  import opened Regex
  import Decimal

  /** `(\d+)[,\s]*(\d+)[,\s]*(\d+)`: three digit runs, each followed by an
      optional run of commas and whitespace (the last one not). */
  const PointPattern: seq<Item> := [
    Item(Digit, 1, None), Item(CommaOrSpace, 0, None),
    Item(Digit, 1, None), Item(CommaOrSpace, 0, None),
    Item(Digit, 1, None)
  ]

  /** The three integers captured by a match of `PointPattern`. */
  function PointOf(x: string, j: nat, cs: seq<nat>): (p: seq<int>)
    requires Matches(x, j, PointPattern, cs)
    ensures |p| == 3 && forall k :: 0 <= k < 3 ==> p[k] >= 0
  {
    [ Decimal.ParseNat(Group(x, j, PointPattern, cs, 0)),
      Decimal.ParseNat(Group(x, j, PointPattern, cs, 2)),
      Decimal.ParseNat(Group(x, j, PointPattern, cs, 4)) ]
  }

  /** `process_point(x)`: missing for the empty string or when no substring
      matches the pattern; otherwise the three captured digit runs of the
      leftmost, greediest match, as integers. */
  function ProcessPoint(x: string): (r: Cell)
    ensures |x| == 0 ==> r == Missing
    ensures r == Missing ==> forall k: nat, m :: !Matches(x, k, PointPattern, m)
    ensures (forall k: nat, m :: !Matches(x, k, PointPattern, m)) ==> r == Missing
    ensures r != Missing ==>
              && r.Point? && |r.coords| == 3
              && exists j: nat, cs :: LeftmostGreedy(x, PointPattern, j, cs) && r.coords == PointOf(x, j, cs)
  {
    SearchIsLeftmostGreedy(x, PointPattern);
    if |x| == 0 then Missing
    else
      match Search(x, PointPattern, 0)
      case None => Missing
      case Some(found) =>
        assert Matches(x, found.0, PointPattern, found.1);
        assert !(forall k: nat, m :: !Matches(x, k, PointPattern, m));
        Point(PointOf(x, found.0, found.1))
  }

  /** `no_validation(x)`: the empty string is missing, anything else is kept. */
  function NoValidation(x: string): (r: Cell)
    ensures r == Missing <==> x == ""
  {
    if |x| == 0 then Missing else Text(x)
  }

  /** A kept value is written back out unchanged by `str`. */
  lemma NoValidationRoundTrip(x: string)
    requires x != ""
    ensures Render(NoValidation(x)) == x
  {
  }

  lemma SumOfFive(xs: seq<nat>)
    requires |xs| == 5
    ensures Sum(xs) == xs[0] + xs[1] + xs[2] + xs[3] + xs[4]
  {
    var t1, t2, t3, t4 := xs[1..], xs[2..], xs[3..], xs[4..];
    assert t1[1..] == t2 && t2[1..] == t3 && t3[1..] == t4 && t4[1..] == [];
    assert Sum(t4) == xs[4];
    assert Sum(t3) == xs[3] + xs[4];
    assert Sum(t2) == xs[2] + xs[3] + xs[4];
  }

  /** Three digits with no separators admit a single match. */
  lemma OnlyMatchOfThreeDigits(x: string, m: seq<nat>)
    requires |x| == 3 && Matches(x, 0, PointPattern, m)
    ensures m == [1, 0, 1, 0, 1]
  {
    MatchSpans(x, 0, PointPattern, m);
    assert m[..5] == m;
    SumOfFive(m);
    assert m[0] >= 1 && m[2] >= 1 && m[4] >= 1 by {
      assert Fits(x, Offset(0, m, 0), PointPattern[0], m[0]);
      assert Fits(x, Offset(0, m, 2), PointPattern[2], m[2]);
      assert Fits(x, Offset(0, m, 4), PointPattern[4], m[4]);
    }
  }

  lemma MatchOfThreeDigits(x: string)
    requires |x| == 3 && Decimal.AllDigits(x)
    ensures Matches(x, 0, PointPattern, [1, 0, 1, 0, 1])
  {
    var p := PointPattern;
    assert p[1..][1..] == p[2..] && p[2..][1..] == p[3..] && p[3..][1..] == p[4..] && p[4..][1..] == [];
    assert Matches(x, 3, [], []);
    assert Matches(x, 2, p[4..], [1]);
    assert Matches(x, 2, p[3..], [0, 1]);
    assert Matches(x, 1, p[2..], [1, 0, 1]);
    assert Matches(x, 1, p[1..], [0, 1, 0, 1]);
  }

  /** Separators may be empty, so a lone run of three digits is split by
      backtracking into three one-digit numbers: "123" gives [1, 2, 3]. */
  lemma ProcessPointSplitsDigits(x: string)
    requires |x| == 3 && Decimal.AllDigits(x)
    ensures ProcessPoint(x) == Point([Decimal.DigitValue(x[0]), Decimal.DigitValue(x[1]), Decimal.DigitValue(x[2])])
  {
    var m: seq<nat> := [1, 0, 1, 0, 1];
    MatchOfThreeDigits(x);
    forall m' | Matches(x, 0, PointPattern, m')
      ensures LexLeq(m', m)
    {
      OnlyMatchOfThreeDigits(x, m');
    }
    SearchFindsGreatestAtStart(x, PointPattern, m);
    assert ProcessPoint(x) == Point(PointOf(x, 0, m));
    PointOfThreeDigits(x, m);
  }

  /** The groups of the one-digit match are the three digits. */
  lemma PointOfThreeDigits(x: string, m: seq<nat>)
    requires |x| == 3 && Decimal.AllDigits(x)
    requires m == [1, 0, 1, 0, 1] && Matches(x, 0, PointPattern, m)
    ensures PointOf(x, 0, m) == [Decimal.DigitValue(x[0]), Decimal.DigitValue(x[1]), Decimal.DigitValue(x[2])]
  {
    OffsetNext(0, m, 0);
    OffsetNext(0, m, 1);
    OffsetNext(0, m, 2);
    OffsetNext(0, m, 3);
    assert Group(x, 0, PointPattern, m, 0) == [x[0]];
    assert Group(x, 0, PointPattern, m, 2) == [x[1]];
    assert Group(x, 0, PointPattern, m, 4) == [x[2]];
    ParseOneDigit(x[0]);
    ParseOneDigit(x[1]);
    ParseOneDigit(x[2]);
  }

  lemma ParseOneDigit(c: char)
    requires Decimal.IsDigit(c)
    ensures Decimal.ParseNat([c]) == Decimal.DigitValue(c)
  {
    assert [c][..0] == [];
  }
}
